=== FILE: README.md ===
# Riven: cached-torrent resolution, scrapers and controllers in Dafny

This project models the decision logic of riven, a media-automation
program, around finding and downloading torrents that a debrid service
already has in its cache. It also models several small parsers and
validators around that logic. It covers these parts:

- **The Real-Debrid downloader.** This part covers:
  - the stream loop of `run`;
  - the cache check `is_cached` over an instant-availability answer;
  - the reuse check `torrent_is_downloaded`;
  - the two download paths `download` and `download_cached`, with the requests that change the account;
  - the binding of files to a movie, show, season or episode in `set_active_files`;
  - the settings part of `validate`;
  - the size bounds the file finder is built with.
- **The generic downloader front end.** This part covers:
  - the filter on hashes the service already holds;
  - chunking into groups of five;
  - collecting the cached answers;
  - `update_item_attributes`, with its season/episode match map of file dicts;
  - the delete-and-reset path;
  - the blacklist-everything branch of `run`.
- **The MediaFusion and TorBox scrapers.** For each one, this part covers:
  - parsing its answer into a hash-to-title dict, where the last write for a hash wins;
  - the TorBox query path for each item kind;
  - the settings checks of `validate`.
- **The items REST controller.** This part covers:
  - the parameter checks of `GET /items`: the page and limit guards, search, state by edit distance, type list, and sort;
  - the pagination arithmetic;
  - the IMDb-id filter of `POST /items/add`.
- **The environment override pass over the settings tree** (`check_environment`).
- **`Stream` construction and equality.**
- **Extracting infohashes from the ignore file.**

Every provider answer, the file finder (`FileFinder.find_required_files`),
the database and the process environment are parameters:

- a provider is a record of functions from requests to answers;
- the finder is an uninterpreted function `(Target, seq<FileRecord>) -> seq<FileRecord>`;
- the database is a function from the applied filters to the matching rows.

Python exceptions are modelled as `Fault` values inside a `Result`.
Dicts whose iteration order matters are association lists. Result dicts
are Dafny `map`s.

Modules, one per file:
- `Common`: options, results, and the first-index, filter and dict-building helpers.
- `Strings`: Python's `split`, `join`, `replace` and `lower`/`upper`, plus integer text.
- `Streams`, `Media`: streams and media items.
- `RdApi`, `RdCache`, `RealDebrid`: the Real-Debrid downloader.
- `Downloader`: the generic front end.
- `MediaFusion`, `TorBox`: the two scrapers.
- `Items`: the items controller.
- `SettingsEnv`: the environment override pass.
- `Ignore`: the ignore file.

## Model

| member | source | states |
|---|---|---|
| RealDebrid.Validate | src/program/downloaders/realdebrid.py:50-108 | The check fails when Real-Debrid is disabled, when the API key is empty, when any of the four size settings is not an int (a bool counts as one) or is below -1, or when the proxy is enabled with no URL. Otherwise it passes exactly when `/user` answers with a parsable expiration, type "premium" and premium > 0. |
| RealDebrid.FinderBounds | src/program/downloaders/realdebrid.py:40-44 | The finder's minimum is the episode minimum in bytes (MB times 1,000,000). The maximum is unbounded exactly when the episode maximum is -1, and is otherwise that maximum in bytes. |
| RealDebrid.ValidSettingsGiveSaneBounds | src/program/downloaders/realdebrid.py:40-72 | Under settings that pass validation, the minimum is at least -1 MB and a finite maximum is non-negative. |
| RealDebrid.TorrentIsDownloaded | src/program/downloaders/realdebrid.py:183-203 | The result is None for a hash absent from the account's torrents. KeyError when the info answer is empty. Otherwise it is the torrent's id exactly when the info lists files and the finder accepts the selected ones; in every other case it is None. |
| RealDebrid.UnselectedFileIrrelevant | src/program/downloaders/realdebrid.py:195-201 | Adding an unselected file anywhere in the torrent never changes the reuse decision. |
| RealDebrid.BindFile | src/program/downloaders/realdebrid.py:212-216 | Binding one picked file works exactly when the file has a `filename` key and the info answer is present. It then writes the torrent's `filename` and `original_filename` as the folders and the file's base name as the file. Otherwise it raises KeyError. |
| RealDebrid.RawEpisodeLoop | src/program/downloaders/realdebrid.py:229-237 | Over raw, unnamed records with the info at hand, the episode loop raises KeyError exactly when the finder picks a file for some episode. Otherwise it leaves every episode as it was. |
| RealDebrid.RawSeasonRaisesOnAnyPick | src/program/downloaders/realdebrid.py:205-237 | A season with an empty container and the info at hand takes the finder's pick among the raw files as its container. If that pick is empty the season is returned unchanged. Otherwise it raises KeyError exactly when some episode gets a file, and is unchanged when none does. |
| RealDebrid.RawShowRaisesOnAnyPick | src/program/downloaders/realdebrid.py:205-227 | The same for a show: KeyError exactly when the raw pick is non-empty and some episode of some season gets a file, and otherwise the show unchanged. |
| RealDebrid.SetActiveFiles | src/program/downloaders/realdebrid.py:205-244 | Binding keeps the item's id, streams, blacklist and active stream. An empty container with no info raises KeyError. For a non-empty container, a movie or episode is bound as BindSingle binds it to the finder's pick from the container. A season is bound as BindEpisodes binds it, and a show as BindSeasons binds it; either raises exactly when that loop raises. The only faults are KeyError and IndexError. |
| RealDebrid.BindSingle | src/program/downloaders/realdebrid.py:211-216 | A movie or episode with no picked file raises IndexError. A first pick that is a raw info file, or a missing info answer, raises KeyError. Otherwise the item is bound to the first picked file's base name and the torrent's two folder names, and nothing else changes. |
| RealDebrid.BindEpisodes | src/program/downloaders/realdebrid.py:229-238 | The loop raises KeyError exactly when some episode the finder finds a file for cannot be bound: the info is missing or the file is raw. Otherwise each matched episode gets that file and the folders, every other episode is unchanged, and the list keeps its length. |
| RealDebrid.BindSeasons | src/program/downloaders/realdebrid.py:217-227 | The show loop goes through exactly when every season's episode loop does. Each season is then its episodes bound as for a season, in order. |
| RealDebrid.BindEpisodesKeepsIdentity | src/program/downloaders/realdebrid.py:219-227 | Binding never changes an episode's number or active stream. |
| RealDebrid.SeasonBindsOnlyMatchedEpisodes | src/program/downloaders/realdebrid.py:229-238 | For a season given a container of named records, with info, binding never raises. Exactly the matched episodes are bound, to their file and the torrent's folder, and the rest are untouched. |
| RealDebrid.ShowBindsOnlyMatchedEpisodes | src/program/downloaders/realdebrid.py:217-227 | For a show given a container of named records, with info, binding never raises. Every season keeps its number, and in each exactly the matched episodes are bound. |
| RealDebrid.EpisodeLoopBindsOnlyMatched | src/program/downloaders/realdebrid.py:219-238 | With info and named records, the episode loop never raises and binds exactly the episodes the finder matches. |
| RealDebrid.SingleBindsFirstPick | src/program/downloaders/realdebrid.py:211-216 | For a movie or episode given a container of named records, with info, the item is bound to the first file the finder picks from the container. When the finder picks none, it raises IndexError. |
| RealDebrid.RawContainerRaises | src/program/downloaders/realdebrid.py:208-213 | With an empty container, the finder picks from the raw info files, which have no `filename` key. A movie or episode is then left alone when that pick is empty. Otherwise it raises IndexError when the second pick is empty, and KeyError when it is not. |
| RealDebrid.Download | src/program/downloaders/realdebrid.py:154-164 | A reusable torrent sends no request and binds to that torrent. A failing reuse check sends none and fails. Otherwise it sends exactly the magnet and then a select-files request with the container's ids, and binds to the new torrent. |
| RealDebrid.DownloadCached | src/program/downloaders/realdebrid.py:166-181 | A failing reuse check raises KeyError and sends nothing. A reusable torrent sends no request. Otherwise the magnet is sent first. With the bound torrent's info present, the container is the finder's pick from its named files, and the item is bound with that container. A fresh torrent then gets exactly the magnet and a select-files request naming that container's ids. Without info the result is KeyError. |
| RealDebrid.DownloadCachedSelectsOnlyAdded | src/program/downloaders/realdebrid.py:168-178 | Files are selected only on a torrent this call added, right after adding it. |
| RealDebrid.DownloadCachedIsDownloadOfPick | src/program/downloaders/realdebrid.py:154-181 | When the bound torrent's info is present, `download_cached` equals `download` with the finder's pick from that torrent's files: the same requests and the same result. |
| RealDebrid.CheckCached | src/program/downloaders/realdebrid.py:116-117 | The single-hash cache check is non-empty exactly when the stream counts as cached. |
| RealDebrid.Scan | src/program/downloaders/realdebrid.py:113-128 | The loop stops at the first stream that is neither blacklisted nor uncached, which is the reference pick. The blacklist afterwards is the old one plus every stream examined before that point, or plus every stream when none is picked. The picked stream stays out of the blacklist and has a non-empty cache answer. |
| RealDebrid.Run | src/program/downloaders/realdebrid.py:110-129 | With no pick, the result is False, no request is sent and every stream is blacklisted. With a pick, the result, item and requests are those of downloading the picked stream's hash with its single-hash cache answer, on the item blacklisted as the scan left it. The result is then never False. The streams and id never change. |
| RealDebrid.DownloadChosen | src/program/downloaders/realdebrid.py:121-122 | The result is True exactly when the answer keys the hash and `download` succeeds. A hash the answer lacks raises KeyError and changes nothing. Otherwise the requests are those of `download`. On success the item is the one `download` bound. On failure the fault is `download`'s and the item is left as it was. |
| RdApi.TagRoundTrip | src/program/downloaders/realdebrid.py:144 | Tagging a container's files with their keys as `id` loses nothing. The container is recovered from its records, the tagged records all carry a `filename`, and such records are recovered from their container. |
| RdApi.GetInstantAvailability | src/program/downloaders/realdebrid.py:266-285 | No hashes means no request and `{}`. Otherwise a failed request answers `{}` and an ok one answers its data. |
| RdApi.AvailabilityRequestNamesHashes | src/program/downloaders/realdebrid.py:274 | The request path, split on '/', is the queried hashes in order. |
| RdApi.GetTorrents | src/program/downloaders/realdebrid.py:324-338 | The keys are exactly the hashes of the listed torrents. Each value is a listed torrent with that hash. A failed answer gives `{}`. |
| RdApi.GetTorrentInfo | src/program/downloaders/realdebrid.py:287-306 | A missing or empty id gives `{}` without a request. Otherwise it gives the endpoint's answer. |
| RdApi.UnselectedFileIgnored | src/program/downloaders/realdebrid.py:199 | The record list handed to the finder skips unselected files wherever they sit. |
| RdApi.RawRecords | src/program/downloaders/realdebrid.py:209 | The files handed to the finder on the empty-container path are the info endpoint's own dicts. Each keeps its path, size, id and selection, and none has a `filename` key. |
| RdApi.SelectPayloadNamesIds | src/program/downloaders/realdebrid.py:313 | The `files` field, split on ',', is the container's ids in order. |
| RdCache.ScanLists | src/program/downloaders/realdebrid.py:139-150 | The loop's dict equals the reference result: the first accepted container with `break_on_first`, else the last write per hash. The finder calls equal the calls up to the first hit, or all of them. |
| RdCache.IsCached | src/program/downloaders/realdebrid.py:135-152 | `is_cached` is the scan over the container lists of the availability answer. |
| RdCache.FirstHit | src/program/downloaders/realdebrid.py:143-150 | The inner `break` stops at the first container the finder accepts, and no earlier container is accepted. |
| RdCache.CachedFilesEmptyIff | src/program/downloaders/realdebrid.py:139-152 | The result is empty exactly when no container list has an accepted container, with or without `break_on_first`. |
| RdCache.CachedFilesAtMostOne | src/program/downloaders/realdebrid.py:148-149 | With `break_on_first` the result has at most one key. |
| RdCache.CachedFilesComplete | src/program/downloaders/realdebrid.py:139-150 | Without `break_on_first`, a hash is a key exactly when one of its container lists has an accepted container. |
| RdCache.CachedFilesSound | src/program/downloaders/realdebrid.py:145-147 | Every value is a non-empty finder answer for a container listed under that key. |
| RdCache.CachedKeysHaveDictPayloads | src/program/downloaders/realdebrid.py:139-141 | Every key is a queried hash whose payload is a dict. |
| RdCache.FinderSeesDictContainers | src/program/downloaders/realdebrid.py:140-145 | The finder is only ever called on a container of a dict payload, with each file tagged by its container key. |
| RdCache.ProbesUntilHitPrefix | src/program/downloaders/realdebrid.py:148-149 | Stopping early only shortens the sequence of finder calls. |
| RdCache.HitsHashes | src/program/downloaders/realdebrid.py:139-147 | A hash is written exactly when one of its lists has an accepted container. |
| Downloader.Chunks | src/program/downloaders/__init__.py:60 | The chunk count is the ceiling of the length over five. Every chunk is non-empty and at most five long, and all but the last are exactly five. |
| Downloader.FlattenChunks | src/program/downloaders/__init__.py:60 | The chunks, concatenated, are the hash list. |
| Downloader.HashesToCheck | src/program/downloaders/__init__.py:32 | A hash is checked exactly when some stream has it and the service does not already hold it. With nothing held, the result is every stream's hash in order. |
| Downloader.HashesToCheckConcat | src/program/downloaders/__init__.py:32 | The filter keeps the streams' order. |
| Downloader.GetCachedStreams | src/program/downloaders/__init__.py:59-92 | The result is the non-empty dict answers in chunk order, or only the first of them with `break_on_first`. |
| Downloader.FirstFound | src/program/downloaders/__init__.py:76-80 | The first useful answer after a run of useless ones is the first useful answer overall. |
| Downloader.EpisodeMatch | src/program/downloaders/__init__.py:121-122 | The file found for an episode is never the empty dict, and it is one the map lists under that season and episode number. |
| Downloader.UpdateEpisode | src/program/downloaders/__init__.py:122-126 | An episode with no non-empty matched file, or whose file has no name, is unchanged. Otherwise it takes the file's name, the folders and an active stream that lists only that file, keeping its number. |
| Downloader.UpdateEpisodes | src/program/downloaders/__init__.py:119-126 | The loop raises, with KeyError, exactly when some matched file has no name. Without a raise every episode goes through one pass. With one, the episodes before the first unnamed file went through their pass, and it and every later episode are unchanged. |
| Downloader.UpdateSeasons | src/program/downloaders/__init__.py:110-118 | Every season keeps its number. The loop raises, with KeyError, exactly when some season holds an unnamed matched file. The seasons up to and including the first such season went through the episode loop, and every later season is unchanged. |
| Downloader.FirstMatchedFile | src/program/downloaders/__init__.py:108-109 | A missing match map raises AttributeError. An empty map or an empty first entry raises StopIteration. A first file with no "filename" key, empty or not, raises KeyError. Otherwise the file is that first file's name. |
| Downloader.UpdateItemAttributes | src/program/downloaders/__init__.py:100-126 | The folders are always `names[0]` and `names[1]`. The streams, blacklist, id, active hash and kind of item are kept. With no active hash, an item without streams raises AttributeError, because the hash is never read, and any other item raises KeyError. No stream with the hash raises AttributeError. Otherwise the active stream is named after the FIRST stream with that hash. A movie or episode fails exactly when the first matched file cannot be read, with that fault, and otherwise takes that file. A show or season with no match map fails, with AttributeError, exactly when it has an episode. With a map, the item holds exactly what the season or episode loop leaves, and its fault. The item's own file changes only for a movie or episode that succeeds. The active stream is unchanged when no stream is found. Once the stream is found, the active stream is named after it, even if a later step raises. |
| Downloader.SeasonUpdatesOnlyMatchedEpisodes | src/program/downloaders/__init__.py:119-126 | In a season, exactly the episodes the map names change, to their file, the new folders and a one-file active stream. |
| Downloader.SeasonStopsAtUnnamedFile | src/program/downloaders/__init__.py:119-126 | A season with a matched file that has no name raises KeyError. The episodes before the first such file changed exactly as in a clean run, and it and every later episode are unchanged. |
| Downloader.ShowUpdatesOnlyMatchedEpisodes | src/program/downloaders/__init__.py:110-118 | In a show, every season keeps its number. In each season, exactly the episodes the map names under that season's number change, to their file, the new folders and a one-file active stream. |
| Downloader.Download | src/program/downloaders/__init__.py:94-98 | A raising `download_cached` or `get_torrent_names` leaves the item unchanged and passes its fault on. Otherwise the item is updated with the torrent's names. |
| Downloader.DeleteAndReset | src/program/downloaders/__init__.py:48-57 | The active stream is always emptied and nothing else but the blacklist changes. The active hash leaves the service's hashes. The blacklist grows only by the active hash, and only when that hash was held and the delete went through. |
| Downloader.DeleteAndResetBlacklists | src/program/downloaders/__init__.py:50-54 | After a successful delete, the stream is blacklisted exactly when one has the active hash. |
| Downloader.Run | src/program/downloaders/__init__.py:29-46 | The item is yielded exactly once. With no cached answer every stream is blacklisted. Otherwise the first answer becomes the active stream and is downloaded. If the download raises and the stream has a truthy hash, the yielded item and the service's hashes are those of delete-and-reset on the item as the download left it. Without a truthy hash, the item is yielded as the download left it. |
| Downloader.BlacklistAll | src/program/downloaders/__init__.py:43-44 | Every stream's hash joins the blacklist, and nothing else changes. |
| MediaFusion.ParseStream | src/program/services/scrapers/mediafusion.py:131-147 | A stream yields a pair exactly when its description has "\n💾", its URL has "?info_hash=", and both the hash and the title are non-empty. The pair is the text after the first hash marker up to the next one, and the description before the first size marker with every "📂 " removed. |
| MediaFusion.ScrapeKeys | src/program/services/scrapers/mediafusion.py:126-147 | The dict's keys are exactly the hashes of the streams that parse. |
| MediaFusion.ScrapeValues | src/program/services/scrapers/mediafusion.py:144-147 | Each key and title is non-empty, and the title is that of the last stream parsing to the key. |
| MediaFusion.ScrapeLastWins | src/program/services/scrapers/mediafusion.py:147 | A later stream with the same hash overwrites the title. One that does not parse changes nothing. |
| MediaFusion.UnmarkedStreamSkipped | src/program/services/scrapers/mediafusion.py:132-141 | A stream missing either marker adds nothing. |
| MediaFusion.Run | src/program/services/scrapers/mediafusion.py:96-114 | A falsy item or a raised request gives `{}`. Otherwise the result is the scraped dict. |
| MediaFusion.Validate | src/program/services/scrapers/mediafusion.py:35-94 | The check passes exactly when the local checks pass, some downloader is enabled, the encryption answered and the manifest is ok. Real-Debrid is preferred over TorBox. With neither enabled it fails. |
| TorBox.BuildQueryParams | src/program/services/scrapers/torbox.py:58-67 | The query starts with `imdb:<id>`, and a movie gets nothing more. |
| TorBox.QueryParamsSplit | src/program/services/scrapers/torbox.py:60-67 | Split on '&', the query is `imdb:<id>` followed by `season=1` for a show, `season=<n>` for a season, or `season=<parent>` and `episode=<n>` for an episode. |
| TorBox.Entry | src/program/services/scrapers/torbox.py:80-85 | A torrent contributes exactly when both its hash and title are non-empty. |
| TorBox.ScrapeKeys | src/program/services/scrapers/torbox.py:75-85 | The keys are exactly the hashes of torrents with a hash and a title. |
| TorBox.ScrapeValues | src/program/services/scrapers/torbox.py:79-85 | Each title is that of the last such torrent with the key. |
| TorBox.ScrapeLastWins | src/program/services/scrapers/torbox.py:85 | A later torrent overwrites. One without a hash or title changes nothing. |
| TorBox.ScrapeEmpty | src/program/services/scrapers/torbox.py:75-76 | A failed request or an empty list gives `{}`. |
| TorBox.Run | src/program/services/scrapers/torbox.py:41-56 | A raised request gives `{}`. Otherwise the result is the scraped dict. |
| TorBox.Validate | src/program/services/scrapers/torbox.py:27-39 | The check passes exactly when the scraper is enabled, the timeout is a positive int and the probe is ok. |
| Items.DistanceZero | src/controllers/items.py:69 | The edit distance is zero exactly for equal strings. |
| Items.CloseEnoughIsEquality | src/controllers/items.py:69 | `distance <= 0.82` holds exactly for equal strings. |
| Items.MatchStateIsFirstCaselessEqual | src/controllers/items.py:66-71 | The state matched is the first, in enum order, whose name equals the filter up to case. There is none exactly when no name does. |
| Items.StateFilter | src/controllers/items.py:65-79 | A falsy filter applies no state. Otherwise the result is a 400 exactly when no state matches, and the matched state when one does. |
| Items.SearchFilter | src/controllers/items.py:55-63 | A falsy search applies no clause. A lowered search starting with "tt" is an exact-id clause, and any other is a substring clause. |
| Items.TypeFilter | src/controllers/items.py:81-90 | A type without a comma is neither checked nor applied. A comma list passes exactly when every part is a known type, and otherwise reports the first part that is not. |
| Items.SortOrder | src/controllers/items.py:92-101 | Sort is ignored with a search. Otherwise "asc" and "desc", in any case, pick the order, and anything else is a 400. |
| Items.TotalPages | src/controllers/items.py:107 | The page count is the fewest pages of `limit` rows that hold every row. |
| Items.FewestPagesUnique | src/controllers/items.py:107 | That count is unique. |
| Items.PageOf | src/controllers/items.py:105 | A page has at most `limit` rows. Row i of the page is row `(page-1)*limit + i` of the query. |
| Items.PageFilled | src/controllers/items.py:103-107 | A page is non-empty exactly when its number is at most the page count, and every page before the last is full. |
| Items.FlattenPages | src/controllers/items.py:103-107 | The pages, concatenated, are the matching rows. |
| Items.RequestOf | src/controllers/items.py:38-46 | A left-out limit is 50, a left-out page is 1 and a left-out sort is "desc". Type, state and search stay absent, and a given parameter is passed through. |
| Items.BareRequestListsNewestFirst | src/controllers/items.py:38-116 | A request with no parameters is listed, with no filter and descending order, as page 1 of at most 50 rows. |
| Items.GetItems | src/controllers/items.py:38-116 | The page guard runs first, then the limit guard, then the state, type and sort rejections in order. A request is listed exactly when it passes all five checks. A listing echoes the page and limit, counts the matching rows, holds the page's rows and the fewest page count, and has items exactly when the page exists. |
| Items.AddItems | src/controllers/items.py:128-152 | A falsy argument is the "no ids" 400. Otherwise the queue is exactly the comma parts starting with "tt", in their order, each requested by riven. With no such part the answer is the "no valid ids" 400. The count is the number queued. |
| Items.AddItemsRoundTrip | src/controllers/items.py:136-150 | Joining well-formed ids with ',' and adding them queues exactly those ids, in order. |
| Items.AddItemsSkipsInvalid | src/controllers/items.py:138-143 | An id not starting with "tt" is dropped wherever it sits, and the others keep their order. |
| SettingsEnv.Coerce | src/program/settings/manager.py:48-58 | The override is converted by the current value's type. A bool becomes true exactly for "true" in any case or "1". An int, float or list goes through its parser, and a parse failure raises. Any other type takes the raw text. |
| SettingsEnv.CheckLeaf | src/program/settings/manager.py:46-60 | A leaf is overridden only when its variable is set and non-empty. Otherwise it keeps its value. |
| SettingsEnv.CheckEnvironment | src/program/settings/manager.py:39-61 | The output has the input's keys in order at every nested level. Each top-level leaf is the result of its variable, `(prefix + "_" + key)` upper-cased. |
| SettingsEnv.CheckEnvironmentLeaves | src/program/settings/manager.py:39-61 | The pass goes through exactly when every leaf, at any depth, coerces under its own variable. A failure is a ValueError. On success each leaf's new value, at any depth, is what its own variable makes of it. |
| SettingsEnv.NestedLeafName | src/program/settings/manager.py:43-46 | A leaf two levels down is read from `prefix + separator + key + "_" + inner` upper-cased: the given separator is used once, and '_' below it. |
| SettingsEnv.CheckEnvironmentEmptyEnv | src/program/settings/manager.py:39-61 | With no variable set, the pass returns the settings unchanged. |
| SettingsEnv.BoolCoercionIgnoresCase | src/program/settings/manager.py:50 | A bool override does not depend on the case of its text. |
| Streams.NewStream | src/program/media/stream.py:21-28 | A new stream copies the torrent's fields and is not blacklisted. |
| Streams.Equals | src/program/media/stream.py:33-34 | A stream equals only streams, and exactly those with the same infohash. |
| Streams.EqualsIsEquivalence | src/program/media/stream.py:33-34 | Equality is reflexive, symmetric and transitive. |
| Streams.EqualsIgnoresMetadata | src/program/media/stream.py:33-34 | Title, rank, ratio, flag and parent never affect equality. |
| Streams.NewStreamsEqualIff | src/program/media/stream.py:21-34 | Two new streams are equal exactly when their torrents share an infohash. |
| Ignore.FindRunFrom | src/utils/ignore.py:10 | The search finds the leftmost run of 40 hex digits at or after a position. |
| Ignore.SearchHash | src/utils/ignore.py:15-17 | A line yields a hash exactly when it has a 40-hex run. The hash is its leftmost such run, with case kept. |
| Ignore.SearchHashOfHash | src/utils/ignore.py:15-17 | A line that is itself a hash yields that hash. |
| Ignore.GetIgnoreHashes | src/utils/ignore.py:7-18 | A missing file gives the empty set. Otherwise the result is the set of the lines' hashes: all well-formed, and at most one per line. |
| Ignore.HashesOfSnoc | src/utils/ignore.py:14-17 | Each line adds its hash, if any, to the set. |
| Strings.BaseNameIsLastComponent | src/program/downloaders/realdebrid.py:175 | `Path(p).name` is empty exactly when every component of the path is empty or ".". Otherwise it is a whole component, and only empty or "." components follow it. |
| Strings.BaseNameDropsTrailingSeparator | src/program/downloaders/realdebrid.py:175 | The name of "a/b/" is "b". |
| Strings.BaseNameDropsTrailingDot | src/program/downloaders/realdebrid.py:175 | The name of "a/b/." is "b". |
| Media.BlacklistStream | src/program/downloaders/__init__.py:44 | Blacklisting a stream adds its hash to the blacklist and changes nothing else. |

## Left out

- HTTP calls, their exception handling, rate limiters and `time.sleep`: every endpoint answer is a parameter. A request that raises and one that answers non-ok both become the same empty answer.
- Thread-pool execution and cancellation in `get_cached_streams`: the chunks are processed one after the other, and only the first useful answer is kept when `break_on_first` holds.
- `FileFinder` and RTN parsing: `FileFinder` is not part of this model. It is an uninterpreted deterministic function of the target and the record list.
- `get_needed_media`: not part of this model. The front end's cache probe per chunk is a field of the abstract service.
- The interface of the generic front end (`process_hashes`, `download_cached(active_stream)`, `existing_hashes`) is modelled as its own abstract service, not as the Real-Debrid class.
- `self.active_stream = stream` in the Real-Debrid download paths: it is state of the downloader object that no modelled operation reads.
- The expiry message in Real-Debrid `validate`: it depends on the wall clock. Only whether the expiration date parses is modelled, since a failed parse fails the validation.
- `int()`, `float()` and `json.loads` in `check_environment` are abstract partial parsers. Floating point is not modelled.
- SettingsEnv.CheckEnvironment: it states the shape from input to output only. A list leaf overridden with a JSON object becomes a dict, so the converse does not hold. The values of leaves at every depth are stated by CheckEnvironmentLeaves.
- RealDebrid.SetActiveFiles: when binding raises partway through a show or season, the episodes bound before that point keep their binding in the Python object. The model returns only the fault and does not carry that partly bound item.
- RealDebrid.SingleBindsFirstPick, RealDebrid.RawContainerRaises, RealDebrid.RawEpisodeLoop, RealDebrid.RawSeasonRaisesOnAnyPick, RealDebrid.RawShowRaisesOnAnyPick, RealDebrid.SeasonBindsOnlyMatchedEpisodes, RealDebrid.ShowBindsOnlyMatchedEpisodes, RealDebrid.EpisodeLoopBindsOnlyMatched: these assume the finder answers with some of the records it is given (`PicksFromInput`), as `find_required_files` does by filtering. Without that assumption the finder could invent a record with or without a name.
- `Path(name).name` is modelled for POSIX paths only. Windows separators and drive letters are not modelled.
- `str.lower` and `str.upper` are ASCII-only.
- The `States` enum (`program/media/state.py`) and `MediaItem` (`program/media/item.py`) are not part of this model:
  - the state names are a parameter of `GetItems`;
  - the item is a record holding the fields the core reads;
  - `existing_hashes` is a set.
- `Stream.__hash__` returns a string, which Python rejects, so hashing is not modelled.
- The SQL of `get_items`: the database is a function from the applied filters to the matching rows. The other controller endpoints, the database helpers, webhooks and actions are outside the core.
- MediaFusion `scrape` builds its request URL from `_get_stremio_identifier`, which is not part of this model. The request and its answer are a parameter.
- Logging everywhere.
- `get_items` with `page` or `limit` explicitly null would raise a TypeError on the comparison. Both are modelled as integers. A `None` in `Request` is an explicit null. Only `RequestOf` models a left-out parameter.
- Behaviour worth noting, modelled as the code does it:
  - `get_torrents` keeps the last torrent for a repeated hash;
  - `get_instant_availability` of an empty list answers `{}`;
  - in `is_cached` the inner `break` leaves only the current container list, so a later list of the same hash overwrites;
  - `check_environment` passes no separator to its recursive call and builds leaf names with '_'.

=== FILE: common.dfy ===
/**
 Shared vocabulary of the model: optional values, the Python exceptions the
 modelled code can raise, and a few sequence combinators (first match,
 order-preserving filter, last-write-wins collection into a map).
 */
module Common {

  datatype Option<+T> = None | Some(value: T)

  /** The Python exceptions that the modelled code lets escape. */
  datatype Fault = KeyError | IndexError | AttributeError | StopIteration | ValueError

  /** The outcome of a computation that may raise. */
  datatype Result<+T> = Ok(value: T) | Err(fault: Fault)

  /** Index of the first element at or after `i` that satisfies `p`. */
  function FirstIndex<T>(s: seq<T>, p: T -> bool, i: nat): (r: Option<nat>)
    requires i <= |s|
    ensures r.Some? ==> i <= r.value < |s| && p(s[r.value])
    ensures r.Some? ==> forall j :: i <= j < r.value ==> !p(s[j])
    ensures r.None? ==> forall j :: i <= j < |s| ==> !p(s[j])
    decreases |s| - i
  {
    if i == |s| then None
    else if p(s[i]) then Some(i)
    else FirstIndex(s, p, i + 1)
  }

  function Min(a: int, b: int): int {
    if a <= b then a else b
  }

  /** The head and tail of a concatenation, stated once so that callers need no sequence extensionality. */
  lemma ConcatCons<T>(a: seq<T>, b: seq<T>)
    ensures a == [] ==> a + b == b
    ensures a != [] ==> (a + b)[0] == a[0] && (a + b)[1..] == a[1..] + b
  {
  }

  lemma ConcatAssoc<T>(a: seq<T>, b: seq<T>, c: seq<T>)
    ensures a + (b + c) == (a + b) + c
  {
  }

  /** The concatenation of a list of lists. */
  function Flatten<T>(xss: seq<seq<T>>): seq<T> {
    if xss == [] then [] else xss[0] + Flatten(xss[1..])
  }

  /** The value of the first entry with key `k` of an association list (a Python dict in insertion order). */
  function Lookup<K(==), V>(d: seq<(K, V)>, k: K): (r: Option<V>)
    ensures r.None? <==> forall i :: 0 <= i < |d| ==> d[i].0 != k
    ensures r.Some? ==> exists i :: 0 <= i < |d| && d[i] == (k, r.value)
  {
    match FirstIndex(d, (e: (K, V)) => e.0 == k, 0)
    case None => None
    case Some(i) => Some(d[i].1)
  }

  /** The elements of `s` that satisfy `p`, in their original order (a list comprehension with a guard). */
  function Filter<T>(s: seq<T>, p: T -> bool): (r: seq<T>)
    ensures |r| <= |s|
    ensures forall i :: 0 <= i < |r| ==> p(r[i]) && r[i] in s
    ensures forall i :: 0 <= i < |s| && p(s[i]) ==> s[i] in r
  {
    if s == [] then []
    else (if p(s[0]) then [s[0]] else []) + Filter(s[1..], p)
  }

  /** Filtering commutes with concatenation: the order of the kept elements is the order of the input. */
  lemma {:induction false} FilterConcat<T>(a: seq<T>, b: seq<T>, p: T -> bool)
    ensures Filter(a + b, p) == Filter(a, p) + Filter(b, p)
    decreases |a|
  {
    if a == [] {
      assert a + b == b;
    } else {
      assert (a + b)[0] == a[0];
      assert (a + b)[1..] == a[1..] + b;
      FilterConcat(a[1..], b, p);
    }
  }

  /** No entry after position `i` has the key of entry `i`. */
  ghost predicate LastWithKey<K, V>(pairs: seq<(K, V)>, i: int)
    requires 0 <= i < |pairs|
  {
    forall j :: i < j < |pairs| ==> pairs[j].0 != pairs[i].0
  }

  /** A Python dict built by assigning the pairs in order: a later key overwrites an earlier one. */
  function CollectLastWins<K, V>(pairs: seq<(K, V)>): map<K, V>
    decreases |pairs|
  {
    if pairs == [] then map[]
    else
      var n := |pairs| - 1;
      CollectLastWins(pairs[..n])[pairs[n].0 := pairs[n].1]
  }

  /** The keys of the dict are the keys of the pairs, and each key holds the value of its last pair. */
  lemma {:induction false} CollectLastWinsSpec<K, V>(pairs: seq<(K, V)>)
    ensures CollectLastWins(pairs).Keys == set i | 0 <= i < |pairs| :: pairs[i].0
    ensures forall i :: 0 <= i < |pairs| && LastWithKey(pairs, i) ==> CollectLastWins(pairs)[pairs[i].0] == pairs[i].1
    decreases |pairs|
  {
    if pairs != [] {
      var n := |pairs| - 1;
      CollectLastWinsSpec(pairs[..n]);
      CollectStep(pairs, pairs[..n], CollectLastWins(pairs[..n]), CollectLastWins(pairs));
    }
  }

  /** Assigning one more pair updates that key and leaves the rest of the dict alone. */
  lemma CollectSnoc<K, V>(pairs: seq<(K, V)>, e: (K, V))
    ensures CollectLastWins(pairs + [e]) == CollectLastWins(pairs)[e.0 := e.1]
  {
    assert (pairs + [e])[..|pairs|] == pairs;
  }

  /** Each key of a last-write-wins dict holds the value of its last pair. */
  lemma LastPairOfKey<K, V>(pairs: seq<(K, V)>, m: map<K, V>)
    requires m == CollectLastWins(pairs)
    ensures forall h :: h in m ==> exists i :: 0 <= i < |pairs| && pairs[i] == (h, m[h])
  {
    CollectLastWinsSpec(pairs);
    forall h | h in m
      ensures exists i :: 0 <= i < |pairs| && pairs[i] == (h, m[h])
    {
      var i :| 0 <= i < |pairs| && pairs[i].0 == h;
      var j := LastIndexOfKey(pairs, h, i);
      assert pairs[j] == (h, m[h]);
    }
  }

  /** The last position holding key `h`, found from a known position `i`. */
  lemma LastIndexOfKey<K, V>(pairs: seq<(K, V)>, h: K, i: nat) returns (j: nat)
    requires i < |pairs| && pairs[i].0 == h
    ensures i <= j < |pairs| && pairs[j].0 == h && LastWithKey(pairs, j)
    decreases |pairs| - i
  {
    var later := FirstIndex(pairs, (e: (K, V)) => e.0 == h, i + 1);
    if later.None? {
      j := i;
    } else {
      j := LastIndexOfKey(pairs, h, later.value);
    }
  }

  lemma CollectStep<K, V>(pairs: seq<(K, V)>, init: seq<(K, V)>, m0: map<K, V>, m: map<K, V>)
    requires |pairs| > 0 && init == pairs[..|pairs| - 1]
    requires m0.Keys == set i | 0 <= i < |init| :: init[i].0
    requires forall i :: 0 <= i < |init| && LastWithKey(init, i) ==> m0[init[i].0] == init[i].1
    requires m == m0[pairs[|pairs| - 1].0 := pairs[|pairs| - 1].1]
    ensures m.Keys == set i | 0 <= i < |pairs| :: pairs[i].0
    ensures forall i :: 0 <= i < |pairs| && LastWithKey(pairs, i) ==> m[pairs[i].0] == pairs[i].1
  {
    var n := |pairs| - 1;
    assert forall i :: 0 <= i < n ==> init[i] == pairs[i];
    var keys := set i | 0 <= i < |pairs| :: pairs[i].0;
    forall k | k in m
      ensures k in keys
    {
      if k != pairs[n].0 {
        var i :| 0 <= i < n && init[i].0 == k;
        assert pairs[i].0 == k;
      }
    }
    forall k | k in keys
      ensures k in m
    {
      var i :| 0 <= i < |pairs| && pairs[i].0 == k;
      if i < n {
        assert init[i].0 == k;
      }
    }
    forall i | 0 <= i < |pairs| && LastWithKey(pairs, i)
      ensures m[pairs[i].0] == pairs[i].1
    {
      if i < n {
        assert pairs[n].0 != pairs[i].0;
        assert LastWithKey(init, i);
      }
    }
  }

  /** Entry `i` is present and carries key `k`. */
  predicate KeyAt<K(==), V>(xs: seq<Option<(K, V)>>, i: int, k: K)
    requires 0 <= i < |xs|
  {
    xs[i].Some? && xs[i].value.0 == k
  }

  /**
   A Python dict filled by a loop that skips some elements and assigns the
   others in order: absent entries are skipped, a later key overwrites.
   */
  function CollectSome<K, V>(xs: seq<Option<(K, V)>>): map<K, V>
    decreases |xs|
  {
    if xs == [] then map[]
    else
      var n := |xs| - 1;
      var m := CollectSome(xs[..n]);
      match xs[n]
      case None => m
      case Some(e) => m[e.0 := e.1]
  }

  /**
   The keys are exactly those of the present entries, and each key holds the
   value of the last present entry with that key.
   */
  lemma {:induction false} CollectSomeSpec<K, V>(xs: seq<Option<(K, V)>>)
    ensures forall k :: k in CollectSome(xs) <==> exists i :: 0 <= i < |xs| && KeyAt(xs, i, k)
    ensures forall k :: k in CollectSome(xs) ==>
      exists i :: 0 <= i < |xs| && xs[i] == Some((k, CollectSome(xs)[k])) &&
                  forall j :: i < j < |xs| ==> !KeyAt(xs, j, k)
    decreases |xs|
  {
    if xs != [] {
      var n := |xs| - 1;
      var init := xs[..n];
      CollectSomeSpec(init);
      var m0 := CollectSome(init);
      var m := CollectSome(xs);
      assert forall i :: 0 <= i < n ==> init[i] == xs[i];
      forall k
        ensures k in m <==> exists i :: 0 <= i < |xs| && KeyAt(xs, i, k)
      {
        if k in m && !KeyAt(xs, n, k) {
          assert k in m0;
          var i :| 0 <= i < n && KeyAt(init, i, k);
          assert KeyAt(xs, i, k);
        }
        if exists i :: 0 <= i < |xs| && KeyAt(xs, i, k) {
          var i :| 0 <= i < |xs| && KeyAt(xs, i, k);
          if i < n {
            assert KeyAt(init, i, k);
          }
        }
      }
      forall k | k in m
        ensures exists i :: 0 <= i < |xs| && xs[i] == Some((k, m[k])) &&
                            forall j :: i < j < |xs| ==> !KeyAt(xs, j, k)
      {
        if KeyAt(xs, n, k) {
          assert xs[n] == Some((k, m[k]));
        } else {
          assert k in m0 && m[k] == m0[k];
          var i :| 0 <= i < n && init[i] == Some((k, m0[k])) && forall j :: i < j < n ==> !KeyAt(init, j, k);
          assert xs[i] == Some((k, m[k]));
          forall j | i < j < |xs|
            ensures !KeyAt(xs, j, k)
          {
            if j < n {
              assert !KeyAt(init, j, k);
            }
          }
        }
      }
    }
  }

  /** One more element assigns its key, when present, and changes nothing else. */
  lemma CollectSomeSnoc<K, V>(xs: seq<Option<(K, V)>>, x: Option<(K, V)>)
    ensures CollectSome(xs + [x]) == (if x.Some? then CollectSome(xs)[x.value.0 := x.value.1] else CollectSome(xs))
  {
    assert (xs + [x])[..|xs|] == xs;
  }
}

=== FILE: downloader.dfy ===
/**
 The generic downloader front end: it filters out hashes the service already
 holds, asks the service about them in chunks of five, takes the first
 non-empty answer as the item's active stream and downloads it, and
 blacklists every stream when nothing is cached. The service it drives is
 an abstract interface whose answers are fields of `Service`.
 */
module Downloader {
  import opened Common
  import opened Streams
  import opened Media

  const ChunkSize := 5

  // ---------------------------------------------------------------- chunking

  /** `[hashes[i:i + 5] for i in range(0, len(hashes), 5)]`. */
  function Chunks<T>(xs: seq<T>): (r: seq<seq<T>>)
    ensures |r| == (|xs| + ChunkSize - 1) / ChunkSize
    ensures forall i :: 0 <= i < |r| ==> 0 < |r[i]| <= ChunkSize
    ensures forall i :: 0 <= i < |r| - 1 ==> |r[i]| == ChunkSize
  {
    seq((|xs| + ChunkSize - 1) / ChunkSize,
        i requires 0 <= i < (|xs| + ChunkSize - 1) / ChunkSize =>
          xs[ChunkSize * i .. Min(ChunkSize * i + ChunkSize, |xs|)])
  }

  /** Past the first five, the chunks are those of the rest. */
  lemma ChunksCons<T>(xs: seq<T>)
    requires |xs| > ChunkSize
    ensures Chunks(xs) == [xs[..ChunkSize]] + Chunks(xs[ChunkSize..])
  {
    var r := Chunks(xs);
    var rest := Chunks(xs[ChunkSize..]);
    assert |r| == 1 + |rest|;
    forall i | 1 <= i < |r|
      ensures r[i] == rest[i - 1]
    {
      assert xs[ChunkSize..][ChunkSize * (i - 1) .. Min(ChunkSize * (i - 1) + ChunkSize, |xs| - ChunkSize)] ==
             xs[ChunkSize * i .. Min(ChunkSize * i + ChunkSize, |xs|)];
    }
  }

  /** The chunks, concatenated, are the input list: nothing is lost, repeated or reordered. */
  lemma {:induction false} FlattenChunks<T>(xs: seq<T>)
    ensures Flatten(Chunks(xs)) == xs
    decreases |xs|
  {
    if xs == [] {
    } else if |xs| <= ChunkSize {
      assert (|xs| + ChunkSize - 1) / ChunkSize == 1;
      assert Chunks(xs)[0] == xs[0 .. Min(ChunkSize, |xs|)] == xs;
      assert Chunks(xs) == [xs];
      assert Flatten(Chunks(xs)) == xs + Flatten([]);
    } else {
      ChunksCons(xs);
      FlattenChunks(xs[ChunkSize..]);
      assert Chunks(xs)[1..] == Chunks(xs[ChunkSize..]);
      assert xs == xs[..ChunkSize] + xs[ChunkSize..];
    }
  }

  // ---------------------------------------------------------------- the service

  /** What `process_hashes` answers for one chunk: a dict, or anything else. */
  datatype Reply = DictReply(stream: ActiveStream) | OtherReply

  /**
   The downloader service as this front end uses it: the hashes it already
   holds, its cache probe per chunk, its download of an active stream (the
   torrent id, or the exception it raised), the two folder names of a
   torrent, and whether deleting a torrent by hash goes through.
   */
  datatype Service = Service(
    existingHashes: set<Hash>,
    processHashes: seq<Hash> -> Reply,
    downloadCached: ActiveStream -> Result<string>,
    torrentNames: string -> Result<(string, string)>,
    deleteTorrent: Hash -> bool)

  /** `[stream.infohash for stream in item.streams if stream.infohash not in existing_hashes]`. */
  function HashesToCheck(streams: seq<Stream>, existing: set<Hash>): (r: seq<Hash>)
    ensures |r| <= |streams|
    ensures forall h :: h in r <==> h !in existing && exists i :: 0 <= i < |streams| && streams[i].infohash == h
    ensures existing == {} ==> |r| == |streams| && forall i :: 0 <= i < |r| ==> r[i] == streams[i].infohash
  {
    if streams == [] then []
    else
      var rest := HashesToCheck(streams[1..], existing);
      assert forall i :: 1 <= i < |streams| ==> streams[i] == streams[1..][i - 1];
      assert forall i :: 0 <= i < |streams| - 1 ==> streams[1..][i] == streams[i + 1];
      if streams[0].infohash in existing then rest else [streams[0].infohash] + rest
  }

  /** The filter keeps the streams' order: the hashes of a concatenation are the concatenation of the hashes. */
  lemma {:induction false} HashesToCheckConcat(a: seq<Stream>, b: seq<Stream>, existing: set<Hash>)
    ensures HashesToCheck(a + b, existing) == HashesToCheck(a, existing) + HashesToCheck(b, existing)
    decreases |a|
  {
    if a == [] {
      assert a + b == b;
    } else {
      assert (a + b)[0] == a[0];
      assert (a + b)[1..] == a[1..] + b;
      HashesToCheckConcat(a[1..], b, existing);
    }
  }

  /** A reply `get_cached_streams` keeps: a dict with at least one key. */
  predicate Useful(r: Reply) {
    r.DictReply? && r.stream != EmptyStream
  }

  /** The reference answer: every useful reply, in chunk order. */
  function Found(svc: Service, chunks: seq<seq<Hash>>): (r: seq<ActiveStream>)
    ensures |r| <= |chunks|
    ensures forall i :: 0 <= i < |r| ==> r[i] != EmptyStream
  {
    if chunks == [] then []
    else
      var reply := svc.processHashes(chunks[0]);
      (if Useful(reply) then [reply.stream] else []) + Found(svc, chunks[1..])
  }

  lemma {:induction false} FoundConcat(svc: Service, a: seq<seq<Hash>>, b: seq<seq<Hash>>)
    ensures Found(svc, a + b) == Found(svc, a) + Found(svc, b)
    decreases |a|
  {
    if a == [] {
      assert a + b == b;
    } else {
      assert (a + b)[0] == a[0];
      assert (a + b)[1..] == a[1..] + b;
      FoundConcat(svc, a[1..], b);
    }
  }

  lemma FoundSnoc(svc: Service, chunks: seq<seq<Hash>>, i: nat)
    requires i < |chunks|
    ensures Found(svc, chunks[..i + 1]) ==
            Found(svc, chunks[..i]) + (if Useful(svc.processHashes(chunks[i])) then [svc.processHashes(chunks[i]).stream] else [])
  {
    assert chunks[..i + 1] == chunks[..i] + [chunks[i]];
    FoundConcat(svc, chunks[..i], [chunks[i]]);
  }

  /**
   `get_cached_streams(hashes, needed_media, break_on_first)`, run one chunk
   after the other: the useful replies in chunk order, and with
   `break_on_first` only the first of them.
   */
  method GetCachedStreams(svc: Service, hashes: seq<Hash>, breakOnFirst: bool) returns (results: seq<ActiveStream>)
    ensures !breakOnFirst ==> results == Found(svc, Chunks(hashes))
    ensures breakOnFirst ==> results == (if Found(svc, Chunks(hashes)) == [] then [] else [Found(svc, Chunks(hashes))[0]])
    ensures forall i :: 0 <= i < |results| ==> results[i] != EmptyStream
  {
    var chunks := Chunks(hashes);
    results := [];
    var i := 0;
    while i < |chunks|
      invariant 0 <= i <= |chunks|
      invariant results == Found(svc, chunks[..i])
      invariant breakOnFirst ==> results == []
    {
      var reply := svc.processHashes(chunks[i]);
      FoundSnoc(svc, chunks, i);
      if Useful(reply) {
        results := results + [reply.stream];
        if breakOnFirst {
          FirstFound(svc, chunks, i);
          return;
        }
      }
      i := i + 1;
    }
    assert chunks[..i] == chunks;
  }

  /** Once a prefix has no useful reply, the first useful reply of the whole list is the next one found. */
  lemma FirstFound(svc: Service, chunks: seq<seq<Hash>>, i: nat)
    requires i < |chunks| && Found(svc, chunks[..i]) == [] && Useful(svc.processHashes(chunks[i]))
    ensures Found(svc, chunks) != [] && Found(svc, chunks)[0] == svc.processHashes(chunks[i]).stream
  {
    FoundSnoc(svc, chunks, i);
    assert chunks == chunks[..i + 1] + chunks[i + 1..];
    FoundConcat(svc, chunks[..i + 1], chunks[i + 1..]);
  }

  // ---------------------------------------------------------------- writing the match map

  /** The item as far as a raised exception let the writes go, and the exception, if one was raised. */
  datatype Effect = Effect(item: MediaItem, fault: Option<Fault>)

  /**
   `matches_dict.get(season, {}).get(episode, {})` when it is truthy: the file
   the map names for one episode, if any; a missing key and an empty dict
   both give `None`.
   */
  function EpisodeMatch(matches: MatchMap, season: int, episode: int): (r: Option<MatchedFile>)
    ensures r.Some? ==> NonEmptyFile(r.value)
    ensures r.Some? ==> exists i, j :: 0 <= i < |matches| && matches[i].0 == season && 0 <= j < |matches[i].1| &&
                                       matches[i].1[j] == (episode, r.value)
  {
    match Lookup(matches, season)
    case None => None
    case Some(files) =>
      match Lookup(files, episode)
      case None => None
      case Some(file) => if NonEmptyFile(file) then Some(file) else None
  }

  /** The map names a file for the episode, but the dict has no "filename" key: reading it raises `KeyError`. */
  predicate MissingFilename(matches: MatchMap, season: int, episode: int) {
    EpisodeMatch(matches, season, episode).Some? && EpisodeMatch(matches, season, episode).value.filename.None?
  }

  /** Some episode of the season raises `KeyError` on its matched file. */
  predicate SeasonRaises(matches: MatchMap, season: Season) {
    exists j :: 0 <= j < |season.episodes| && MissingFilename(matches, season.number, season.episodes[j].number)
  }

  /** One pass of the episode loop: a matched, named file is written; an unmatched episode stays as it was. */
  function UpdateEpisode(ep: Episode, matches: MatchMap, season: int, folders: Binding, active: ActiveStream): (r: Episode)
    ensures r.number == ep.number
    ensures EpisodeMatch(matches, season, ep.number).None? || MissingFilename(matches, season, ep.number) ==> r == ep
    ensures EpisodeMatch(matches, season, ep.number).Some? && !MissingFilename(matches, season, ep.number) ==>
      var file := EpisodeMatch(matches, season, ep.number).value.filename.value;
      r == Episode(ep.number, folders.(file := Some(file)), active.(files := Some([file])))
  {
    match EpisodeMatch(matches, season, ep.number)
    case None => ep
    case Some(f) =>
      match f.filename
      case None => ep
      case Some(file) => Episode(ep.number, folders.(file := Some(file)), active.(files := Some([file])))
  }

  /**
   The episode loop raised at position `k`: the first unnamed matched file.
   Every episode before it went through `UpdateEpisode`; it and every later
   episode are as they were.
   */
  predicate EpisodeLoopStopsAt(eps: seq<Episode>, matches: MatchMap, season: int, folders: Binding, active: ActiveStream,
                               updated: seq<Episode>, k: int) {
    0 <= k < |eps| && |updated| == |eps| && MissingFilename(matches, season, eps[k].number) &&
    (forall i :: 0 <= i < k ==> !MissingFilename(matches, season, eps[i].number)) &&
    (forall i :: 0 <= i < k ==> updated[i] == UpdateEpisode(eps[i], matches, season, folders, active)) &&
    updated[k..] == eps[k..]
  }

  /**
   The episode loop of a season: each matched episode in turn takes its
   file, the item's folders, and a copy of the active stream listing only
   that file. The first matched file without a name raises `KeyError`,
   leaving it and every later episode as they were.
   */
  function UpdateEpisodes(eps: seq<Episode>, matches: MatchMap, season: int, folders: Binding, active: ActiveStream): (r: (seq<Episode>, Option<Fault>))
    ensures |r.0| == |eps|
    ensures r.1.None? <==> forall i :: 0 <= i < |eps| ==> !MissingFilename(matches, season, eps[i].number)
    ensures r.1.Some? ==> r.1.value == KeyError
    ensures r.1.None? ==> forall i :: 0 <= i < |eps| ==> r.0[i] == UpdateEpisode(eps[i], matches, season, folders, active)
    ensures r.1.Some? ==> exists k :: EpisodeLoopStopsAt(eps, matches, season, folders, active, r.0, k)
  {
    match FirstIndex(eps, (e: Episode) => MissingFilename(matches, season, e.number), 0)
    case None =>
      (seq(|eps|, i requires 0 <= i < |eps| => UpdateEpisode(eps[i], matches, season, folders, active)), None)
    case Some(k) =>
      var updated := seq(|eps|, i requires 0 <= i < |eps| =>
                           if i < k then UpdateEpisode(eps[i], matches, season, folders, active) else eps[i]);
      assert EpisodeLoopStopsAt(eps, matches, season, folders, active, updated, k);
      (updated, Some(KeyError))
  }

  /** A season after the episode loop ran over it. */
  function SeasonAfterLoop(s: Season, matches: MatchMap, folders: Binding, active: ActiveStream): Season {
    Season(s.number, UpdateEpisodes(s.episodes, matches, s.number, folders, active).0)
  }

  /**
   The season loop raised in season `k`: the first season holding an unnamed
   matched file. It and every season before it went through the episode
   loop; every later season is as it was.
   */
  predicate SeasonLoopStopsAt(seasons: seq<Season>, matches: MatchMap, folders: Binding, active: ActiveStream,
                              updated: seq<Season>, k: int) {
    0 <= k < |seasons| && |updated| == |seasons| && SeasonRaises(matches, seasons[k]) &&
    (forall i :: 0 <= i < k ==> !SeasonRaises(matches, seasons[i])) &&
    (forall i :: 0 <= i <= k ==> updated[i] == SeasonAfterLoop(seasons[i], matches, folders, active)) &&
    updated[k + 1..] == seasons[k + 1..]
  }

  /**
   The season loop of a show: each season's episodes are updated in turn;
   the `KeyError` of one season stops the loop there, with that season
   partly updated and the later ones as they were.
   */
  function UpdateSeasons(seasons: seq<Season>, matches: MatchMap, folders: Binding, active: ActiveStream): (r: (seq<Season>, Option<Fault>))
    ensures |r.0| == |seasons|
    ensures forall i :: 0 <= i < |seasons| ==> r.0[i].number == seasons[i].number
    ensures r.1.None? <==> forall i :: 0 <= i < |seasons| ==> !SeasonRaises(matches, seasons[i])
    ensures r.1.Some? ==> r.1.value == KeyError
    ensures r.1.None? ==> forall i :: 0 <= i < |seasons| ==> r.0[i] == SeasonAfterLoop(seasons[i], matches, folders, active)
    ensures r.1.Some? ==> exists k :: SeasonLoopStopsAt(seasons, matches, folders, active, r.0, k)
  {
    match FirstIndex(seasons, (s: Season) => SeasonRaises(matches, s), 0)
    case None => (SeasonsLoopedTo(seasons, matches, folders, active, |seasons|), None)
    case Some(k) =>
      var updated := SeasonsLoopedTo(seasons, matches, folders, active, k + 1);
      assert updated[k + 1..] == seasons[k + 1..];
      assert SeasonLoopStopsAt(seasons, matches, folders, active, updated, k);
      (updated, Some(KeyError))
  }

  /** The seasons before `stop` after the episode loop ran over them; the rest as they were. */
  function SeasonsLoopedTo(seasons: seq<Season>, matches: MatchMap, folders: Binding, active: ActiveStream, stop: int): (r: seq<Season>)
    ensures |r| == |seasons|
    ensures forall i :: 0 <= i < |seasons| ==> r[i].number == seasons[i].number
    ensures forall i :: 0 <= i < |seasons| && i < stop ==> r[i] == SeasonAfterLoop(seasons[i], matches, folders, active)
    ensures forall i :: 0 <= i < |seasons| && stop <= i ==> r[i] == seasons[i]
  {
    seq(|seasons|, i requires 0 <= i < |seasons| => if i < stop then SeasonAfterLoop(seasons[i], matches, folders, active) else seasons[i])
  }

  /** Some season of the show has an episode, so the loop reads the match map at least once. */
  predicate AnyEpisode(seasons: seq<Season>) {
    exists i :: 0 <= i < |seasons| && seasons[i].episodes != []
  }

  /** Some stream of the item has the hash. */
  predicate HasStream(streams: seq<Stream>, h: Hash) {
    exists j :: 0 <= j < |streams| && streams[j].infohash == h
  }

  /** Position `j` holds the first stream with the hash: the one `next(...)` over the streams returns. */
  predicate FirstWithHash(streams: seq<Stream>, h: Hash, j: int) {
    0 <= j < |streams| && streams[j].infohash == h && forall k :: 0 <= k < j ==> streams[k].infohash != h
  }

  /** A show or season whose loop reaches the match map: it has at least one episode. */
  predicate ReadsMatchMap(k: Kind) {
    match k
    case ShowKind(seasons) => AnyEpisode(seasons)
    case SeasonKind(_, eps) => eps != []
    case _ => true
  }

  /**
   The "filename" of the first file of the first entry of the match map, for
   a movie or an episode; the dict is read whether or not it is empty.
   */
  function FirstMatchedFile(matches: Option<MatchMap>): (r: Result<string>)
    ensures matches.None? ==> r == Err(AttributeError)
    ensures matches.Some? && (matches.value == [] || matches.value[0].1 == []) ==> r == Err(StopIteration)
    ensures r.Ok? <==> matches.Some? && matches.value != [] && matches.value[0].1 != [] && matches.value[0].1[0].1.filename.Some?
    ensures r.Ok? ==> r.value == matches.value[0].1[0].1.filename.value
    ensures r.Err? && matches.Some? && matches.value != [] && matches.value[0].1 != [] ==> r == Err(KeyError)
  {
    match matches
    case None => Err(AttributeError)
    case Some(m) =>
      if m == [] then Err(StopIteration)
      else if m[0].1 == [] then Err(StopIteration)
      else
        match m[0].1[0].1.filename
        case None => Err(KeyError)
        case Some(name) => Ok(name)
  }

  /**
   `update_item_attributes(item, names)`: the folders are written first;
   then the stream with the active hash names the active stream; then a
   movie or episode takes the first matched file and a show or season hands
   each matched episode its file. With no stream to search, a missing
   hash key is never read and the missing stream raises `AttributeError`;
   otherwise a missing hash key raises `KeyError`. A missing match map
   raises `AttributeError`, an empty one `StopIteration`, a matched file
   without a name `KeyError`, keeping what was written before.
   */
  function UpdateItemAttributes(item: MediaItem, names: (string, string)): (e: Effect)
    ensures e.item.binding.folder == Some(names.0) && e.item.binding.alternativeFolder == Some(names.1)
    ensures e.item.streams == item.streams && e.item.blacklist == item.blacklist && e.item.imdbId == item.imdbId
    ensures e.item.activeStream.infohash == item.activeStream.infohash
    ensures item.kind.MovieKind? || item.kind.EpisodeKind? ==> e.item.kind == item.kind
    ensures item.kind.ShowKind? ==> e.item.kind.ShowKind? && |e.item.kind.seasons| == |item.kind.seasons|
    ensures item.kind.SeasonKind? ==> e.item.kind.SeasonKind? && e.item.kind.number == item.kind.number
    ensures item.activeStream.infohash.None? ==> e.fault == Some(if item.streams == [] then AttributeError else KeyError)
    ensures item.activeStream.infohash.Some? && !HasStream(item.streams, item.activeStream.infohash.value) ==>
            e.fault == Some(AttributeError) && e.item.kind == item.kind
    ensures e.fault.None? ==> item.activeStream.infohash.Some?
    ensures !((item.kind.MovieKind? || item.kind.EpisodeKind?) && e.fault.None?) ==> e.item.binding.file == item.binding.file
    ensures item.activeStream.infohash.None? || !HasStream(item.streams, item.activeStream.infohash.value) ==>
            e.item.activeStream == item.activeStream
    ensures item.activeStream.infohash.Some? && HasStream(item.streams, item.activeStream.infohash.value) ==>
            exists j :: FirstWithHash(item.streams, item.activeStream.infohash.value, j) &&
                        e.item.activeStream == item.activeStream.(name := Some(item.streams[j].rawTitle))
    ensures e.fault.None? ==>
            exists j :: FirstWithHash(item.streams, item.activeStream.infohash.value, j) &&
                        e.item.activeStream == item.activeStream.(name := Some(item.streams[j].rawTitle))
    ensures (item.kind.MovieKind? || item.kind.EpisodeKind?) &&
            item.activeStream.infohash.Some? && HasStream(item.streams, item.activeStream.infohash.value) ==>
            (e.fault.None? <==> FirstMatchedFile(item.activeStream.matchedFiles).Ok?) &&
            (e.fault.None? ==> e.item.binding.file == Some(FirstMatchedFile(item.activeStream.matchedFiles).value)) &&
            (e.fault.Some? ==> e.fault.value == FirstMatchedFile(item.activeStream.matchedFiles).fault)
    ensures (item.kind.ShowKind? || item.kind.SeasonKind?) &&
            item.activeStream.infohash.Some? && HasStream(item.streams, item.activeStream.infohash.value) &&
            item.activeStream.matchedFiles.None? ==>
            e.item.kind == item.kind &&
            e.fault == (if ReadsMatchMap(item.kind) then Some(AttributeError) else None)
    ensures item.kind.ShowKind? && item.activeStream.infohash.Some? && HasStream(item.streams, item.activeStream.infohash.value) &&
            item.activeStream.matchedFiles.Some? ==>
            var u := UpdateSeasons(item.kind.seasons, item.activeStream.matchedFiles.value, e.item.binding, e.item.activeStream);
            e.item.kind == ShowKind(u.0) && e.fault == u.1
    ensures item.kind.SeasonKind? && item.activeStream.infohash.Some? && HasStream(item.streams, item.activeStream.infohash.value) &&
            item.activeStream.matchedFiles.Some? ==>
            var u := UpdateEpisodes(item.kind.episodes, item.activeStream.matchedFiles.value, item.kind.number,
                                    e.item.binding, e.item.activeStream);
            e.item.kind == SeasonKind(item.kind.number, u.0) && e.fault == u.1
  {
    var folders := item.binding.(folder := Some(names.0), alternativeFolder := Some(names.1));
    var written := item.(binding := folders);
    match item.activeStream.infohash
    case None => Effect(written, Some(if item.streams == [] then AttributeError else KeyError))
    case Some(h) =>
      match FirstIndex(item.streams, (s: Stream) => s.infohash == h, 0)
      case None => Effect(written, Some(AttributeError))
      case Some(j) =>
        var active := item.activeStream.(name := Some(item.streams[j].rawTitle));
        var named := written.(activeStream := active);
        match item.kind
        case MovieKind => SetFile(named, FirstMatchedFile(active.matchedFiles))
        case EpisodeKind(_, _) => SetFile(named, FirstMatchedFile(active.matchedFiles))
        case ShowKind(seasons) =>
          (match active.matchedFiles
           case None => if AnyEpisode(seasons) then Effect(named, Some(AttributeError)) else Effect(named, None)
           case Some(m) =>
             var u := UpdateSeasons(seasons, m, folders, active);
             Effect(named.(kind := ShowKind(u.0)), u.1))
        case SeasonKind(number, eps) =>
          (match active.matchedFiles
           case None => if eps != [] then Effect(named, Some(AttributeError)) else Effect(named, None)
           case Some(m) =>
             var u := UpdateEpisodes(eps, m, number, folders, active);
             Effect(named.(kind := SeasonKind(number, u.0)), u.1))
  }

  function SetFile(item: MediaItem, file: Result<string>): (e: Effect)
    ensures file.Err? ==> e == Effect(item, Some(file.fault))
    ensures file.Ok? ==> e == Effect(item.(binding := item.binding.(file := Some(file.value))), None)
  {
    match file
    case Err(f) => Effect(item, Some(f))
    case Ok(name) => Effect(item.(binding := item.binding.(file := Some(name))), None)
  }

  /**
   The episodes a match map names for one season take their file and the
   new folders, and each such file has a name; all others stay as they were.
   */
  ghost predicate UpdatesOnlyMatched(eps: seq<Episode>, m: MatchMap, season: int, names: (string, string), updated: seq<Episode>) {
    |updated| == |eps| &&
    forall i :: 0 <= i < |eps| ==>
      (EpisodeMatch(m, season, eps[i].number).None? ==> updated[i] == eps[i]) &&
      (EpisodeMatch(m, season, eps[i].number).Some? ==>
         EpisodeMatch(m, season, eps[i].number).value.filename.Some? &&
         updated[i].number == eps[i].number &&
         updated[i].binding == Binding(Some(names.0), Some(names.1), EpisodeMatch(m, season, eps[i].number).value.filename) &&
         updated[i].activeStream.files == Some([EpisodeMatch(m, season, eps[i].number).value.filename.value]))
  }

  /**
   For a season with a match map, exactly the episodes the map names for
   this season change, each to its matched file and the new folders; the
   others stay as they were.
   */
  lemma SeasonUpdatesOnlyMatchedEpisodes(item: MediaItem, names: (string, string))
    requires item.kind.SeasonKind?
    requires item.activeStream.matchedFiles.Some?
    requires UpdateItemAttributes(item, names).fault.None?
    ensures var r := UpdateItemAttributes(item, names).item;
            r.kind.SeasonKind? && r.kind.number == item.kind.number &&
            UpdatesOnlyMatched(item.kind.episodes, item.activeStream.matchedFiles.value, item.kind.number, names, r.kind.episodes)
  {
  }

  /**
   For a show with a match map, every season keeps its number, and in each
   exactly the episodes the map names under that season's number change.
   */
  lemma ShowUpdatesOnlyMatchedEpisodes(item: MediaItem, names: (string, string))
    requires item.kind.ShowKind?
    requires item.activeStream.matchedFiles.Some?
    requires UpdateItemAttributes(item, names).fault.None?
    ensures var r := UpdateItemAttributes(item, names).item;
            var seasons := item.kind.seasons;
            r.kind.ShowKind? && |r.kind.seasons| == |seasons| &&
            forall i :: 0 <= i < |seasons| ==>
              r.kind.seasons[i].number == seasons[i].number &&
              UpdatesOnlyMatched(seasons[i].episodes, item.activeStream.matchedFiles.value, seasons[i].number, names,
                                 r.kind.seasons[i].episodes)
  {
  }

  /**
   For a season with a match map in which some matched file has no name, the
   update raises `KeyError` at the first such episode: the episodes before it
   changed exactly as a clean run would change them, and it and every later
   episode are as they were.
   */
  lemma SeasonStopsAtUnnamedFile(item: MediaItem, names: (string, string))
    requires item.kind.SeasonKind? && item.activeStream.matchedFiles.Some?
    requires item.activeStream.infohash.Some? && HasStream(item.streams, item.activeStream.infohash.value)
    requires SeasonRaises(item.activeStream.matchedFiles.value, Season(item.kind.number, item.kind.episodes))
    ensures var e := UpdateItemAttributes(item, names);
            var eps := item.kind.episodes;
            e.fault == Some(KeyError) && e.item.kind.SeasonKind? && |e.item.kind.episodes| == |eps| &&
            exists k :: 0 <= k < |eps| && MissingFilename(item.activeStream.matchedFiles.value, item.kind.number, eps[k].number) &&
                        UpdatesOnlyMatched(eps[..k], item.activeStream.matchedFiles.value, item.kind.number, names, e.item.kind.episodes[..k]) &&
                        e.item.kind.episodes[k..] == eps[k..]
  {
    var e := UpdateItemAttributes(item, names);
    var m := item.activeStream.matchedFiles.value;
    var eps := item.kind.episodes;
    var u := UpdateEpisodes(eps, m, item.kind.number, e.item.binding, e.item.activeStream);
    assert e.item.kind.episodes == u.0 && e.fault == u.1;
    var j :| 0 <= j < |eps| && MissingFilename(m, item.kind.number, eps[j].number);
    assert u.1.Some?;
    var k :| EpisodeLoopStopsAt(eps, m, item.kind.number, e.item.binding, e.item.activeStream, u.0, k);
    StoppedPrefixUpdatesOnlyMatched(eps, m, item.kind.number, e.item.binding, e.item.activeStream, u.0, k, names);
  }

  lemma StoppedPrefixUpdatesOnlyMatched(eps: seq<Episode>, m: MatchMap, season: int, folders: Binding, active: ActiveStream,
                                        updated: seq<Episode>, k: int, names: (string, string))
    requires EpisodeLoopStopsAt(eps, m, season, folders, active, updated, k)
    requires folders.folder == Some(names.0) && folders.alternativeFolder == Some(names.1)
    ensures UpdatesOnlyMatched(eps[..k], m, season, names, updated[..k])
  {
    forall i | 0 <= i < k
      ensures (EpisodeMatch(m, season, eps[i].number).None? ==> updated[i] == eps[i]) &&
              (EpisodeMatch(m, season, eps[i].number).Some? ==>
                 EpisodeMatch(m, season, eps[i].number).value.filename.Some? &&
                 updated[i].number == eps[i].number &&
                 updated[i].binding == Binding(Some(names.0), Some(names.1), EpisodeMatch(m, season, eps[i].number).value.filename) &&
                 updated[i].activeStream.files == Some([EpisodeMatch(m, season, eps[i].number).value.filename.value]))
    {
      assert !MissingFilename(m, season, eps[i].number);
      assert updated[i] == UpdateEpisode(eps[i], m, season, folders, active);
    }
  }

  // ---------------------------------------------------------------- download and reset

  /** `download(item, active_stream)`: the service downloads, names the torrent's folders, and the item is updated. */
  function Download(svc: Service, item: MediaItem): (e: Effect)
    ensures svc.downloadCached(item.activeStream).Err? ==> e == Effect(item, Some(svc.downloadCached(item.activeStream).fault))
    ensures svc.downloadCached(item.activeStream).Ok? && svc.torrentNames(svc.downloadCached(item.activeStream).value).Ok? ==>
            e == UpdateItemAttributes(item, svc.torrentNames(svc.downloadCached(item.activeStream).value).value)
    ensures svc.downloadCached(item.activeStream).Ok? && svc.torrentNames(svc.downloadCached(item.activeStream).value).Err? ==>
            e == Effect(item, Some(svc.torrentNames(svc.downloadCached(item.activeStream).value).fault))
    ensures e.item.streams == item.streams && e.item.blacklist == item.blacklist
    ensures e.item.activeStream.infohash == item.activeStream.infohash
  {
    match svc.downloadCached(item.activeStream)
    case Err(f) => Effect(item, Some(f))
    case Ok(id) =>
      match svc.torrentNames(id)
      case Err(f) => Effect(item, Some(f))
      case Ok(names) => UpdateItemAttributes(item, names)
  }

  /**
   `_delete_and_reset_active_stream(item)`: drop the active hash from the
   service's hashes, delete its torrent, and blacklist the stream with that
   hash, stopping quietly at the first step that raises; the active stream
   is emptied in every case. Returns the item and the service's hashes.
   */
  function DeleteAndReset(svc: Service, item: MediaItem): (r: (MediaItem, set<Hash>))
    ensures r.0.activeStream == EmptyStream
    ensures r.0 == item.(activeStream := EmptyStream, blacklist := r.0.blacklist)
    ensures r.1 <= svc.existingHashes
    ensures item.activeStream.infohash.None? ==> r == (item.(activeStream := EmptyStream), svc.existingHashes)
    ensures item.activeStream.infohash.Some? ==> r.1 == svc.existingHashes - {item.activeStream.infohash.value}
    ensures r.0.blacklist != item.blacklist ==>
      item.activeStream.infohash.Some? && item.activeStream.infohash.value in svc.existingHashes &&
      svc.deleteTorrent(item.activeStream.infohash.value) &&
      r.0.blacklist == item.blacklist + {item.activeStream.infohash.value}
  {
    var reset := item.(activeStream := EmptyStream);
    match item.activeStream.infohash
    case None => (reset, svc.existingHashes)
    case Some(h) =>
      if h !in svc.existingHashes then (reset, svc.existingHashes)
      else
        var remaining := svc.existingHashes - {h};
        if !svc.deleteTorrent(h) then (reset, remaining)
        else
          match FirstIndex(item.streams, (s: Stream) => s.infohash == h, 0)
          case None => (reset, remaining)
          case Some(j) => (BlacklistStream(reset, item.streams[j]), remaining)
  }

  /** The stream of the active hash is blacklisted exactly when it exists and every step before went through. */
  lemma DeleteAndResetBlacklists(svc: Service, item: MediaItem, h: Hash)
    requires item.activeStream.infohash == Some(h) && h in svc.existingHashes && svc.deleteTorrent(h)
    ensures (exists j :: 0 <= j < |item.streams| && item.streams[j].infohash == h) ==>
            DeleteAndReset(svc, item).0.blacklist == item.blacklist + {h}
    ensures (forall j :: 0 <= j < |item.streams| ==> item.streams[j].infohash != h) ==>
            DeleteAndReset(svc, item).0.blacklist == item.blacklist
  {
    var first := FirstIndex(item.streams, (s: Stream) => s.infohash == h, 0);
    if first.None? {
      assert forall j :: 0 <= j < |item.streams| ==> item.streams[j].infohash != h;
    }
  }

  /** The active stream has a truthy `infohash`. */
  predicate HasActiveHash(a: ActiveStream) {
    a.infohash.Some? && a.infohash.value != ""
  }

  /**
   `run(item)`: probe the unseen hashes; with a cached answer, make it the
   active stream and download it, resetting it if the download raises;
   with none, blacklist every stream. Yields the item exactly once, and
   returns the service's hashes afterwards and the cached answers.
   */
  method Run(svc: Service, item: MediaItem) returns (yielded: seq<MediaItem>, existing: set<Hash>, cached: seq<ActiveStream>)
    ensures |yielded| == 1
    ensures cached == (var f := Found(svc, Chunks(HashesToCheck(item.streams, svc.existingHashes))); if f == [] then [] else [f[0]])
    ensures cached == [] ==> yielded[0] == item.(blacklist := item.blacklist + StreamHashes(item.streams)) &&
                             existing == svc.existingHashes
    ensures cached != [] && Download(svc, item.(activeStream := cached[0])).fault.None? ==>
      yielded[0] == Download(svc, item.(activeStream := cached[0])).item && existing == svc.existingHashes
    ensures cached != [] && Download(svc, item.(activeStream := cached[0])).fault.Some? && HasActiveHash(cached[0]) ==>
      yielded[0].activeStream == EmptyStream &&
      (yielded[0], existing) == DeleteAndReset(svc, Download(svc, item.(activeStream := cached[0])).item)
    ensures cached != [] && Download(svc, item.(activeStream := cached[0])).fault.Some? && !HasActiveHash(cached[0]) ==>
      yielded[0] == Download(svc, item.(activeStream := cached[0])).item && existing == svc.existingHashes
    ensures yielded[0].streams == item.streams && existing <= svc.existingHashes
  {
    var hashes := HashesToCheck(item.streams, svc.existingHashes);
    cached := GetCachedStreams(svc, hashes, true);
    existing := svc.existingHashes;
    var current := item;
    if |cached| > 0 {
      current := current.(activeStream := cached[0]);
      var e := Download(svc, current);
      current := e.item;
      if e.fault.Some? && HasActiveHash(current.activeStream) {
        var reset := DeleteAndReset(svc, current);
        current, existing := reset.0, reset.1;
      }
    } else {
      current := BlacklistAll(item);
    }
    yielded := [current];
  }

  /** `for stream in item.streams: item.blacklist_stream(stream)`: every stream's hash joins the blacklist. */
  method BlacklistAll(item: MediaItem) returns (after: MediaItem)
    ensures after == item.(blacklist := item.blacklist + StreamHashes(item.streams))
  {
    after := item;
    var i := 0;
    while i < |item.streams|
      invariant 0 <= i <= |item.streams|
      invariant after == item.(blacklist := item.blacklist + StreamHashes(item.streams[..i]))
    {
      StreamHashesSnoc(item.streams, i);
      after := BlacklistStream(after, item.streams[i]);
      i := i + 1;
    }
    assert item.streams[..i] == item.streams;
  }
}

=== FILE: ignore.dfy ===
/**
 The ignore list: a text file whose lines may each carry one torrent
 infohash. The file is read line by line; a line contributes the leftmost
 run of forty hexadecimal digits it contains, if any.
 */
module Ignore {
  import opened Common

  const HashLength := 40

  predicate IsHexDigit(c: char) {
    ('0' <= c <= '9') || ('a' <= c <= 'f') || ('A' <= c <= 'F')
  }

  /** Forty hexadecimal digits start at position `i` of `line`. */
  predicate HexRunAt(line: string, i: int) {
    0 <= i && i + HashLength <= |line| &&
    forall t :: i <= t < i + HashLength ==> IsHexDigit(line[t])
  }

  /** The shape of every hash the ignore list yields. */
  predicate IsInfohash(h: string) {
    |h| == HashLength && forall t :: 0 <= t < |h| ==> IsHexDigit(h[t])
  }

  /** The first position at or after `i` where a forty-digit run starts. */
  function FindRunFrom(line: string, i: nat): (r: Option<nat>)
    requires i <= |line|
    ensures r.Some? ==> i <= r.value && HexRunAt(line, r.value)
    ensures r.Some? ==> forall j :: i <= j < r.value ==> !HexRunAt(line, j)
    ensures r.None? ==> forall j :: i <= j ==> !HexRunAt(line, j)
    decreases |line| - i
  {
    if i + HashLength > |line| then None
    else if HexRunAt(line, i) then Some(i)
    else FindRunFrom(line, i + 1)
  }

  /**
   The pattern `[a-fA-F0-9]{40}` searched in one line: the leftmost match,
   which with a fixed-width pattern is exactly forty characters long.
   */
  function SearchHash(line: string): (r: Option<string>)
    ensures r.Some? <==> exists j :: HexRunAt(line, j)
    ensures r.Some? ==> IsInfohash(r.value)
    ensures r.Some? ==> exists j :: HexRunAt(line, j) && r.value == line[j..j + HashLength] &&
                                   forall k :: 0 <= k < j ==> !HexRunAt(line, k)
  {
    match FindRunFrom(line, 0)
    case None => None
    case Some(j) =>
      var h := line[j..j + HashLength];
      assert forall t :: 0 <= t < |h| ==> h[t] == line[j + t];
      Some(h)
  }

  /** A line that is itself a hash yields that hash, with its case preserved. */
  lemma SearchHashOfHash(h: string)
    requires IsInfohash(h)
    ensures SearchHash(h) == Some(h)
  {
    assert HexRunAt(h, 0);
    assert h[0..HashLength] == h;
  }

  /** The reference meaning of the ignore list: the set of per-line matches. */
  ghost function HashesOf(lines: seq<string>): set<string> {
    set k | 0 <= k < |lines| && SearchHash(lines[k]).Some? :: SearchHash(lines[k]).value
  }

  /**
   Reads the ignore file, `None` when it does not exist, and collects the
   hash of every line that has one.
   */
  method GetIgnoreHashes(file: Option<seq<string>>) returns (hashes: set<string>)
    ensures file.None? ==> hashes == {}
    ensures file.Some? ==> hashes == HashesOf(file.value)
    ensures forall h :: h in hashes ==> IsInfohash(h)
    ensures file.Some? ==> |hashes| <= |file.value|
  {
    hashes := {};
    if file.None? {
      return;
    }
    var lines := file.value;
    var i := 0;
    while i < |lines|
      invariant 0 <= i <= |lines|
      invariant hashes == HashesOf(lines[..i])
    {
      var found := SearchHash(lines[i]);
      if found.Some? {
        hashes := hashes + {found.value};
      }
      assert lines[..i + 1] == lines[..i] + [lines[i]];
      HashesOfSnoc(lines[..i], lines[i]);
      i := i + 1;
    }
    assert lines[..i] == lines;
    HashesOfBound(lines);
  }

  /** Every collected hash has the infohash shape, and there are no more hashes than lines. */
  lemma {:induction false} HashesOfBound(lines: seq<string>)
    ensures forall h :: h in HashesOf(lines) ==> IsInfohash(h)
    ensures |HashesOf(lines)| <= |lines|
    decreases |lines|
  {
    if lines != [] {
      var n := |lines| - 1;
      assert lines == lines[..n] + [lines[n]];
      HashesOfSnoc(lines[..n], lines[n]);
      HashesOfBound(lines[..n]);
    }
  }

  /** Extending the file by one line adds at most that line's hash. */
  lemma HashesOfSnoc(lines: seq<string>, line: string)
    ensures HashesOf(lines + [line]) ==
            HashesOf(lines) + (if SearchHash(line).Some? then {SearchHash(line).value} else {})
  {
    var ext := lines + [line];
    assert forall k :: 0 <= k < |lines| ==> ext[k] == lines[k];
    assert ext[|lines|] == line;
  }
}

=== FILE: items.dfy ===
/**
 The items REST controller: how `get_items` checks its query parameters,
 turns them into filters and pages the matching rows, and how `add_items`
 picks the IMDb ids to queue. The database is a function from filters to
 the matching rows in their order; the SQL it runs is not modelled.
 */
module Items {
  import opened Common
  import opened Strings

  // ---------------------------------------------------------------- Levenshtein distance

  function Min3(a: nat, b: nat, c: nat): nat {
    if a <= b && a <= c then a else if b <= c then b else c
  }

  /** The edit distance `Levenshtein.distance(a, b)`: insertions, deletions and substitutions, each of cost one. */
  function Distance(a: string, b: string): nat
    decreases |a| + |b|
  {
    if |a| == 0 then |b|
    else if |b| == 0 then |a|
    else Min3(Distance(a[1..], b) + 1,
              Distance(a, b[1..]) + 1,
              Distance(a[1..], b[1..]) + (if a[0] == b[0] then 0 else 1))
  }

  /** Two strings are at distance zero exactly when they are equal. */
  lemma {:induction false} DistanceZero(a: string, b: string)
    ensures Distance(a, b) == 0 <==> a == b
    decreases |a| + |b|
  {
    if |a| == 0 || |b| == 0 {
    } else {
      DistanceZero(a[1..], b[1..]);
      if a == b {
        assert a[1..] == b[1..];
      }
      if Distance(a, b) == 0 {
        assert a == [a[0]] + a[1..] && b == [b[0]] + b[1..];
      }
    }
  }

  /** The state filter's test `distance <= 0.82`: an integer distance passes it only when it is zero. */
  predicate CloseEnough(a: string, b: string) {
    (Distance(a, b) as real) <= 0.82
  }

  lemma CloseEnoughIsEquality(a: string, b: string)
    ensures CloseEnough(a, b) <==> a == b
  {
    DistanceZero(a, b);
  }

  // ---------------------------------------------------------------- get_items

  /**
   The parameters `get_items` is called with, after the defaults for left-out
   query parameters are filled in (`RequestOf`); `None` here is an explicit
   null.
   */
  datatype Request = Request(limit: int, page: int, itemType: Option<string>, state: Option<string>,
                             sort: Option<string>, search: Option<string>)

  const DefaultLimit := 50
  const DefaultPage := 1
  const DefaultSort := "desc"

  /**
   The call the framework makes for the query parameters present (`None`
   for one left out): limit 50, page 1 and sort "desc" by default, and no
   type, state or search.
   */
  function RequestOf(limit: Option<int>, page: Option<int>, itemType: Option<string>, state: Option<string>,
                     sort: Option<string>, search: Option<string>): (r: Request)
    ensures r.limit == (if limit.Some? then limit.value else DefaultLimit)
    ensures r.page == (if page.Some? then page.value else DefaultPage)
    ensures r.sort == Some(if sort.Some? then sort.value else DefaultSort)
    ensures r.itemType == itemType && r.state == state && r.search == search
  {
    Request(GetOr(limit, DefaultLimit), GetOr(page, DefaultPage), itemType, state, Some(GetOr(sort, DefaultSort)), search)
  }

  function GetOr<T>(o: Option<T>, d: T): T {
    if o.Some? then o.value else d
  }

  datatype Search = ImdbIdIs(id: string) | TitleOrIdContains(fragment: string)

  datatype Order = Ascending | Descending

  /** The `where` and `order_by` clauses the query gets; `state` is an index into the state names. */
  datatype Filters = Filters(search: Option<Search>, state: Option<nat>, types: Option<seq<string>>, order: Option<Order>)

  /** The 400 answers, each with the offending value where the message names one. */
  datatype Rejection = BadPage | BadLimit | BadState(given: string) | BadType(given: string) | BadSort(given: string)

  /** The outcome of one step of the parameter checks. */
  datatype Checked<T> = Pass(value: T) | Fail(why: Rejection)

  /** A truthy string parameter: present and not empty. */
  predicate Truthy(s: Option<string>) {
    s.Some? && s.value != ""
  }

  /** The search clause: an exact IMDb id when the lowered search starts with "tt", else a substring match. */
  function SearchFilter(search: Option<string>): (f: Option<Search>)
    ensures f.None? <==> !Truthy(search)
    ensures f.Some? ==> (f.value.ImdbIdIs? <==> StartsWith(Lower(search.value), "tt"))
    ensures f.Some? && f.value.ImdbIdIs? ==> f.value.id == Lower(search.value)
    ensures f.Some? && f.value.TitleOrIdContains? ==> f.value.fragment == Lower(search.value)
  {
    if !Truthy(search) then None
    else
      var lowered := Lower(search.value);
      if StartsWith(lowered, "tt") then Some(ImdbIdIs(lowered)) else Some(TitleOrIdContains(lowered))
  }

  /** The first state, in enum order, whose lowered name is within the distance bound of the lowered filter. */
  function MatchState(filter: string, states: seq<string>): (i: Option<nat>) {
    FirstIndex(states, (name: string) => CloseEnough(Lower(filter), Lower(name)), 0)
  }

  /** The distance test picks the first state whose name equals the filter up to case. */
  lemma MatchStateIsFirstCaselessEqual(filter: string, states: seq<string>)
    ensures MatchState(filter, states).Some? ==>
      (var i := MatchState(filter, states).value;
       i < |states| && Lower(states[i]) == Lower(filter) &&
       forall j :: 0 <= j < i ==> Lower(states[j]) != Lower(filter))
    ensures MatchState(filter, states).None? <==> forall j :: 0 <= j < |states| ==> Lower(states[j]) != Lower(filter)
  {
    forall j | 0 <= j < |states|
      ensures CloseEnough(Lower(filter), Lower(states[j])) <==> Lower(states[j]) == Lower(filter)
    {
      CloseEnoughIsEquality(Lower(filter), Lower(states[j]));
    }
  }

  /** The state clause: none for a falsy filter, the matching state, or a 400. */
  function StateFilter(state: Option<string>, states: seq<string>): (c: Checked<Option<nat>>)
    ensures !Truthy(state) ==> c == Pass(None)
    ensures Truthy(state) ==> (c.Fail? <==> MatchState(state.value, states).None?)
    ensures c.Fail? ==> c.why == BadState(state.value)
    ensures Truthy(state) && c.Pass? ==> c.value == MatchState(state.value, states) && c.value.value < |states|
  {
    if !Truthy(state) then Pass(None)
    else match MatchState(state.value, states)
      case None => Fail(BadState(state.value))
      case Some(i) => Pass(Some(i))
  }

  predicate KnownType(t: string) {
    t in ["movie", "show", "season", "episode"]
  }

  /**
   The type clause: only a value with a comma is split and checked, and
   the first part that is not a known type is the one reported.
   */
  function TypeFilter(itemType: Option<string>): (c: Checked<Option<seq<string>>>)
    ensures !Truthy(itemType) || ',' !in itemType.value ==> c == Pass(None)
    ensures Truthy(itemType) && ',' in itemType.value ==>
      (c.Pass? <==> forall i :: 0 <= i < |Split(itemType.value, ",")| ==> KnownType(Split(itemType.value, ",")[i]))
    ensures c.Pass? && c.value.Some? ==> c.value.value == Split(itemType.value, ",")
    ensures c.Fail? ==> c.why.BadType? && !KnownType(c.why.given)
    ensures c.Fail? ==> (exists i :: 0 <= i < |Split(itemType.value, ",")| && Split(itemType.value, ",")[i] == c.why.given &&
                           forall j :: 0 <= j < i ==> KnownType(Split(itemType.value, ",")[j]))
  {
    if !Truthy(itemType) || ',' !in itemType.value then Pass(None)
    else
      var types := Split(itemType.value, ",");
      match FirstIndex(types, (t: string) => !KnownType(t), 0)
      case Some(i) => Fail(BadType(types[i]))
      case None => Pass(Some(types))
  }

  /** The ordering: only without a search, and only "asc" or "desc" in any case. */
  function SortOrder(sort: Option<string>, search: Option<string>): (c: Checked<Option<Order>>)
    ensures !Truthy(sort) || Truthy(search) ==> c == Pass(None)
    ensures Truthy(sort) && !Truthy(search) ==>
      (c == Pass(Some(Ascending)) <==> Lower(sort.value) == "asc") &&
      (c == Pass(Some(Descending)) <==> Lower(sort.value) == "desc") &&
      (c.Fail? <==> Lower(sort.value) != "asc" && Lower(sort.value) != "desc")
    ensures c.Fail? ==> c.why == BadSort(sort.value)
  {
    if !Truthy(sort) || Truthy(search) then Pass(None)
    else if Lower(sort.value) == "asc" then Pass(Some(Ascending))
    else if Lower(sort.value) == "desc" then Pass(Some(Descending))
    else Fail(BadSort(sort.value))
  }

  // ---------------------------------------------------------------- pagination

  lemma MulMonotone(a: int, b: int, c: int)
    requires a <= b && 0 <= c
    ensures a * c <= b * c
  {
    assert b * c - a * c == (b - a) * c;
  }

  lemma MulSucc(a: int, c: int)
    ensures (a + 1) * c == a * c + c
  {
  }

  /** `n` pages of `limit` rows hold `total` rows, and `n - 1` pages do not. */
  predicate FewestPages(n: nat, total: nat, limit: int) {
    n * limit >= total && (n == 0 || (n - 1) * limit < total)
  }

  /** At most one page count is the fewest. */
  lemma FewestPagesUnique(n: nat, m: nat, total: nat, limit: int)
    requires limit >= 1 && FewestPages(n, total, limit) && FewestPages(m, total, limit)
    ensures n == m
  {
    if n < m {
      MulMonotone(n, m - 1, limit);
    } else if m < n {
      MulMonotone(m, n - 1, limit);
    }
  }

  /** `(total_items + limit - 1) // limit`: the fewest pages of `limit` rows that hold every row. */
  function TotalPages(total: nat, limit: int): (n: nat)
    requires limit >= 1
    ensures FewestPages(n, total, limit)
  {
    var n := (total + limit - 1) / limit;
    var r := (total + limit - 1) % limit;
    assert n * limit == total + limit - 1 - r;
    MulSucc(n - 1, limit);
    n
  }

  function Offset(page: int, limit: int): int {
    (page - 1) * limit
  }

  /** `query.offset((page - 1) * limit).limit(limit)` over the matching rows. */
  function PageOf<T>(rows: seq<T>, page: int, limit: int): (r: seq<T>)
    requires page >= 1 && limit >= 1
    ensures |r| <= limit
    ensures forall i :: 0 <= i < |r| ==> Offset(page, limit) + i < |rows| && r[i] == rows[Offset(page, limit) + i]
  {
    MulMonotone(0, page - 1, limit);
    var from := Min(Offset(page, limit), |rows|);
    rows[from .. Min(from + limit, |rows|)]
  }

  /** A page holds rows exactly when its number is at most the page count, and then a full page unless it is the last. */
  lemma PageFilled<T>(rows: seq<T>, page: int, limit: int)
    requires page >= 1 && limit >= 1
    ensures PageOf(rows, page, limit) != [] <==> page <= TotalPages(|rows|, limit)
    ensures page < TotalPages(|rows|, limit) ==> |PageOf(rows, page, limit)| == limit
  {
    var n := TotalPages(|rows|, limit);
    var o := Offset(page, limit);
    if page <= n {
      MulMonotone(page - 1, n - 1, limit);
      assert o < |rows|;
    } else {
      MulMonotone(n, page - 1, limit);
      assert o >= |rows|;
    }
    if page < n {
      MulMonotone(page, n - 1, limit);
      MulSucc(page - 1, limit);
      assert o + limit < |rows|;
    }
  }

  /** The pages from the first to the last, in order. */
  function Pages<T>(rows: seq<T>, limit: int): (ps: seq<seq<T>>)
    requires limit >= 1
    ensures |ps| == TotalPages(|rows|, limit)
  {
    seq(TotalPages(|rows|, limit), i requires 0 <= i => PageOf(rows, i + 1, limit))
  }

  /** Past a full first page, there is one page more than for the remaining rows. */
  lemma TotalPagesCons(total: nat, limit: int)
    requires limit >= 1 && total > limit
    ensures TotalPages(total, limit) == TotalPages(total - limit, limit) + 1
  {
    var m := TotalPages(total - limit, limit);
    MulSucc(m, limit);
    if m > 0 {
      MulSucc(m - 1, limit);
    }
    assert FewestPages(m + 1, total, limit);
    FewestPagesUnique(TotalPages(total, limit), m + 1, total, limit);
  }

  /** Page `i + 1` of the rows is page `i` of the rows past the first page. */
  lemma PageShift<T>(rows: seq<T>, limit: int, i: int)
    requires limit >= 1 && |rows| > limit && i >= 1
    ensures PageOf(rows, i + 1, limit) == PageOf(rows[limit..], i, limit)
  {
    var o := Offset(i, limit);
    MulSucc(i - 1, limit);
    assert Offset(i + 1, limit) == o + limit;
    var a := PageOf(rows, i + 1, limit);
    var b := PageOf(rows[limit..], i, limit);
    assert |a| == |b|;
    forall k | 0 <= k < |a|
      ensures a[k] == b[k]
    {
      assert a[k] == rows[o + limit + k];
    }
  }

  /** Past the first page, the pages are those of the remaining rows. */
  lemma PagesCons<T>(rows: seq<T>, limit: int)
    requires limit >= 1 && |rows| > limit
    ensures Pages(rows, limit) == [rows[..limit]] + Pages(rows[limit..], limit)
  {
    var ps := Pages(rows, limit);
    var rest := Pages(rows[limit..], limit);
    TotalPagesCons(|rows|, limit);
    assert Offset(1, limit) == 0;
    assert ps[0] == rows[..limit];
    forall i | 1 <= i < |ps|
      ensures ps[i] == rest[i - 1]
    {
      PageShift(rows, limit, i);
    }
  }

  /** Rows that fit on one page make exactly one page. */
  lemma PagesSingle<T>(rows: seq<T>, limit: int)
    requires limit >= 1 && 0 < |rows| <= limit
    ensures Pages(rows, limit) == [rows]
  {
    assert FewestPages(1, |rows|, limit);
    FewestPagesUnique(TotalPages(|rows|, limit), 1, |rows|, limit);
    assert Offset(1, limit) == 0;
    assert Pages(rows, limit)[0] == rows;
  }

  /** Paging loses nothing: the pages, concatenated, are the matching rows. */
  lemma {:induction false} FlattenPages<T>(rows: seq<T>, limit: int)
    requires limit >= 1
    ensures Flatten(Pages(rows, limit)) == rows
    decreases |rows|
  {
    if rows == [] {
      FewestPagesUnique(TotalPages(0, limit), 0, 0, limit);
      assert Pages(rows, limit) == [];
    } else if |rows| <= limit {
      PagesSingle(rows, limit);
      assert Flatten(Pages(rows, limit)) == rows + Flatten([]);
    } else {
      var ps := Pages(rows, limit);
      var rest := rows[limit..];
      PagesCons(rows, limit);
      FlattenPages(rest, limit);
      calc {
        Flatten(ps);
        ps[0] + Flatten(ps[1..]);
        { assert ps[1..] == Pages(rest, limit); }
        rows[..limit] + rest;
      }
      assert rows == rows[..limit] + rest;
    }
  }

  /** The success answer of `get_items`. */
  datatype Listing<T> = Listing(items: seq<T>, page: int, limit: int, totalItems: nat, totalPages: nat)

  /** The answer of `get_items`: a 400 or the filters applied and the listing. */
  datatype Answer<T> = Rejected(why: Rejection) | Listed(filters: Filters, listing: Listing<T>)

  /**
   `get_items`: the page and limit guards, then the search, state, type and
   sort clauses in that order, then one page of the rows the database
   matches for those filters.
   */
  function GetItems<T>(req: Request, states: seq<string>, db: Filters -> seq<T>): (a: Answer<T>)
    ensures req.page < 1 ==> a == Rejected(BadPage)
    ensures req.page >= 1 && req.limit < 1 ==> a == Rejected(BadLimit)
    ensures a.Listed? <==> (req.page >= 1 && req.limit >= 1 &&
      StateFilter(req.state, states).Pass? && TypeFilter(req.itemType).Pass? && SortOrder(req.sort, req.search).Pass?)
    ensures req.page >= 1 && req.limit >= 1 && StateFilter(req.state, states).Fail? ==>
      a == Rejected(StateFilter(req.state, states).why)
    ensures req.page >= 1 && req.limit >= 1 && StateFilter(req.state, states).Pass? && TypeFilter(req.itemType).Fail? ==>
      a == Rejected(TypeFilter(req.itemType).why)
    ensures (req.page >= 1 && req.limit >= 1 && StateFilter(req.state, states).Pass? && TypeFilter(req.itemType).Pass? &&
             SortOrder(req.sort, req.search).Fail?) ==> a == Rejected(SortOrder(req.sort, req.search).why)
    ensures a.Listed? ==> a.filters == Filters(SearchFilter(req.search), StateFilter(req.state, states).value,
                                               TypeFilter(req.itemType).value, SortOrder(req.sort, req.search).value)
    ensures a.Listed? ==> (a.listing.page == req.page && a.listing.limit == req.limit &&
      a.listing.totalItems == |db(a.filters)| && a.listing.items == PageOf(db(a.filters), req.page, req.limit))
    ensures a.Listed? ==> FewestPages(a.listing.totalPages, a.listing.totalItems, req.limit)
    ensures a.Listed? ==> (a.listing.items != [] <==> req.page <= a.listing.totalPages)
  {
    if req.page < 1 then Rejected(BadPage)
    else if req.limit < 1 then Rejected(BadLimit)
    else
      var search := SearchFilter(req.search);
      match StateFilter(req.state, states)
      case Fail(why) => Rejected(why)
      case Pass(state) =>
        match TypeFilter(req.itemType)
        case Fail(why) => Rejected(why)
        case Pass(types) =>
          match SortOrder(req.sort, req.search)
          case Fail(why) => Rejected(why)
          case Pass(order) =>
            var filters := Filters(search, state, types, order);
            var rows := db(filters);
            PageFilled(rows, req.page, req.limit);
            Listed(filters, Listing(PageOf(rows, req.page, req.limit), req.page, req.limit, |rows|,
                                    TotalPages(|rows|, req.limit)))
  }

  /**
   A request with no query parameters at all is listed: the first page of 50
   rows of every item, newest request first.
   */
  lemma BareRequestListsNewestFirst<T>(states: seq<string>, db: Filters -> seq<T>)
    ensures var a := GetItems(RequestOf(None, None, None, None, None, None), states, db);
            a.Listed? && a.filters == Filters(None, None, None, Some(Descending)) &&
            a.listing.page == 1 && a.listing.limit == 50 &&
            a.listing.items == PageOf(db(a.filters), 1, 50)
  {
    assert Lower(DefaultSort) == "desc";
  }

  // ---------------------------------------------------------------- add_items

  /** An item put on the program's queue. */
  datatype QueuedItem = QueuedItem(imdbId: string, requestedBy: string)

  datatype AddAnswer = NoIds | NoValidIds | Added(queued: seq<QueuedItem>, count: nat)

  predicate IsImdbId(id: string) {
    StartsWith(id, "tt")
  }

  function Queue(ids: seq<string>): (q: seq<QueuedItem>)
    ensures |q| == |ids|
    ensures forall i :: 0 <= i < |ids| ==> q[i] == QueuedItem(ids[i], "riven")
  {
    seq(|ids|, i requires 0 <= i < |ids| => QueuedItem(ids[i], "riven"))
  }

  /** `add_items`: the comma-separated ids that start with "tt", in order, each queued as requested by riven. */
  function AddItems(imdbIds: Option<string>): (a: AddAnswer)
    ensures !Truthy(imdbIds) <==> a == NoIds
    ensures a.Added? ==> a.count == |a.queued| > 0
    ensures a.Added? ==> forall i :: 0 <= i < |a.queued| ==> IsImdbId(a.queued[i].imdbId) && ',' !in a.queued[i].imdbId
    ensures a.Added? ==> forall i :: 0 <= i < |Split(imdbIds.value, ",")| && IsImdbId(Split(imdbIds.value, ",")[i]) ==>
      QueuedItem(Split(imdbIds.value, ",")[i], "riven") in a.queued
    ensures a == NoValidIds <==> Truthy(imdbIds) && forall i :: 0 <= i < |Split(imdbIds.value, ",")| ==>
      !IsImdbId(Split(imdbIds.value, ",")[i])
    ensures a.Added? ==> a.queued == Queue(Filter(Split(imdbIds.value, ","), IsImdbId))
  {
    if !Truthy(imdbIds) then NoIds
    else
      var ids := Split(imdbIds.value, ",");
      SplitPiecesLackSeparatorChar(imdbIds.value, ",");
      var valid := Filter(ids, IsImdbId);
      if valid == [] then
        assert forall i :: 0 <= i < |ids| ==> !IsImdbId(ids[i]);
        NoValidIds
      else
        assert forall i :: 0 <= i < |valid| ==> valid[i] in ids;
        assert IsImdbId(valid[0]) && valid[0] in ids;
        Added(Queue(valid), |valid|)
  }

  /** Filtering keeps a list whose every element passes unchanged. */
  lemma {:induction false} FilterKeepsAll<T>(s: seq<T>, p: T -> bool)
    requires forall i :: 0 <= i < |s| ==> p(s[i])
    ensures Filter(s, p) == s
    decreases |s|
  {
    if s != [] {
      FilterKeepsAll(s[1..], p);
      assert s == [s[0]] + s[1..];
    }
  }

  /** Joining well-formed ids with commas and adding them queues exactly those ids, in order. */
  lemma AddItemsRoundTrip(ids: seq<string>)
    requires ids != []
    requires forall i :: 0 <= i < |ids| ==> IsImdbId(ids[i]) && ',' !in ids[i]
    ensures AddItems(Some(Join(ids, ","))) == Added(Queue(ids), |ids|)
  {
    var s := Join(ids, ",");
    SplitJoin(ids, ",");
    FilterKeepsAll(ids, IsImdbId);
    assert s != "" by {
      JoinStartsWithFirst(ids, ",");
      assert |ids[0]| >= 2;
    }
    AddedIds(s);
  }

  /** The answer for a non-empty argument with at least one valid id. */
  lemma AddedIds(s: string)
    requires s != "" && Filter(Split(s, ","), IsImdbId) != []
    ensures AddItems(Some(s)) == Added(Queue(Filter(Split(s, ","), IsImdbId)), |Filter(Split(s, ","), IsImdbId)|)
  {
  }

  /** Filtering drops a rejected element between two runs of accepted ones and keeps the runs. */
  lemma FilterDropsRejected<T>(before: seq<T>, x: T, after: seq<T>, p: T -> bool)
    requires forall i :: 0 <= i < |before| ==> p(before[i])
    requires forall i :: 0 <= i < |after| ==> p(after[i])
    requires !p(x)
    ensures Filter(before + [x] + after, p) == before + after
  {
    calc {
      Filter(before + [x] + after, p);
      { FilterConcat(before + [x], after, p); }
      Filter(before + [x], p) + Filter(after, p);
      { FilterConcat(before, [x], p); }
      Filter(before, p) + Filter([x], p) + Filter(after, p);
      { assert Filter([x], p) == []; FilterKeepsAll(before, p); FilterKeepsAll(after, p); }
      before + [] + after;
      { assert before + [] == before; }
      before + after;
    }
  }

  lemma NoPartHolds(before: seq<string>, x: string, after: seq<string>, c: char)
    requires forall i :: 0 <= i < |before| ==> c !in before[i]
    requires forall i :: 0 <= i < |after| ==> c !in after[i]
    requires c !in x
    ensures forall i :: 0 <= i < |before + [x] + after| ==> c !in (before + [x] + after)[i]
  {
    var parts := before + [x] + after;
    forall i | 0 <= i < |parts|
      ensures c !in parts[i]
    {
      if i > |before| {
        assert parts[i] == after[i - |before| - 1];
      } else if i < |before| {
        assert parts[i] == before[i];
      }
    }
  }

  /** An id that does not start with "tt", wherever it sits among well-formed ids, is skipped. */
  lemma AddItemsSkipsInvalid(before: seq<string>, bad: string, after: seq<string>)
    requires before + after != []
    requires forall i :: 0 <= i < |before| ==> IsImdbId(before[i]) && ',' !in before[i]
    requires forall i :: 0 <= i < |after| ==> IsImdbId(after[i]) && ',' !in after[i]
    requires !IsImdbId(bad) && ',' !in bad
    ensures AddItems(Some(Join(before + [bad] + after, ","))) == Added(Queue(before + after), |before + after|)
  {
    var parts := before + [bad] + after;
    NoPartHolds(before, bad, after, ',');
    SplitJoin(parts, ",");
    FilterDropsRejected(before, bad, after, IsImdbId);
    assert Join(parts, ",") != "" by {
      assert Join(parts, ",") == parts[0] + "," + Join(parts[1..], ",");
    }
    AddedIds(Join(parts, ","));
  }
}

=== FILE: media.dfy ===
/**
 The media-item tree the downloaders read and write: a movie, a show with
 seasons and episodes, a season, or an episode, each with its candidate
 streams, its stream blacklist and the folder/file binding written once a
 download is confirmed.
 */
module Media {
  import opened Common
  import opened Streams

  /** The location fields a downloader writes onto an item or episode. */
  datatype Binding = Binding(folder: Option<string>, alternativeFolder: Option<string>, file: Option<string>)

  const Unbound := Binding(None, None, None)

  /**
   One matched file: a dict that may hold a "filename" key; `otherKeys` says
   whether it holds any key besides that one.
   */
  datatype MatchedFile = MatchedFile(filename: Option<string>, otherKeys: bool)

  /** Python truthiness of the matched-file dict: it is not `{}`. */
  predicate NonEmptyFile(f: MatchedFile) {
    f.filename.Some? || f.otherKeys
  }

  /**
   The matched files of a download: season number to episode number to the
   matched file, each level a dict in insertion order.
   */
  type MatchMap = seq<(int, seq<(int, MatchedFile)>)>

  /**
   The `active_stream` dict. Each field is a key that may be absent; the
   empty dict `{}` has every field absent.
   */
  datatype ActiveStream = ActiveStream(
    infohash: Option<Hash>,
    name: Option<string>,
    matchedFiles: Option<MatchMap>,
    files: Option<seq<string>>)

  const EmptyStream := ActiveStream(None, None, None, None)

  datatype Episode = Episode(number: int, binding: Binding, activeStream: ActiveStream)

  datatype Season = Season(number: int, episodes: seq<Episode>)

  /** The item variants; a season or show carries the children it currently knows. */
  datatype Kind =
    | MovieKind
    | ShowKind(seasons: seq<Season>)
    | SeasonKind(number: int, episodes: seq<Episode>)
    | EpisodeKind(number: int, parentNumber: int)

  datatype MediaItem = MediaItem(
    imdbId: string,
    kind: Kind,
    streams: seq<Stream>,
    blacklist: set<Hash>,
    binding: Binding,
    activeStream: ActiveStream)

  /** What the file finder is asked to match: an item's identity and structure. */
  datatype Target = Target(imdbId: string, kind: Kind)

  function TargetOf(item: MediaItem): Target {
    Target(item.imdbId, item.kind)
  }

  /** An episode of a show or season, seen as an item of its own. */
  function EpisodeTarget(imdbId: string, seasonNumber: int, e: Episode): Target {
    Target(imdbId, EpisodeKind(e.number, seasonNumber))
  }

  /** `item.is_stream_blacklisted(stream)`: membership by stream equality, that is by infohash. */
  predicate IsBlacklisted(item: MediaItem, s: Stream) {
    s.infohash in item.blacklist
  }

  /** `item.blacklist_stream(stream)`. */
  function BlacklistStream(item: MediaItem, s: Stream): (r: MediaItem)
    ensures IsBlacklisted(r, s)
    ensures r.blacklist == item.blacklist + {s.infohash}
    ensures r == item.(blacklist := r.blacklist)
  {
    item.(blacklist := item.blacklist + {s.infohash})
  }

  /** The hashes of a run of streams. */
  function StreamHashes(ss: seq<Stream>): set<Hash> {
    set j | 0 <= j < |ss| :: ss[j].infohash
  }

  lemma StreamHashesSnoc(ss: seq<Stream>, i: nat)
    requires i < |ss|
    ensures StreamHashes(ss[..i + 1]) == StreamHashes(ss[..i]) + {ss[i].infohash}
  {
    assert forall j :: 0 <= j < i ==> ss[..i + 1][j] == ss[..i][j];
    assert ss[..i + 1][i] == ss[i];
  }
}

=== FILE: mediafusion.dfy ===
/**
 The MediaFusion scraper: each stream of the answer carries its title in a
 description line ending at the size marker and its infohash in the URL's
 query; the parsed pairs fill a hash-to-title dict. Also the guard in
 `run` and the settings checks and downloader choice in `validate`.
 */
module MediaFusion {
  import opened Common
  import opened Strings
  import opened Streams
  import opened Media
  import opened SettingsEnv

  /** A newline followed by the floppy-disk sign that starts the size line. */
  const SizeMarker: string := "\n\U{1F4BE}"

  /** The folder sign and a space, removed from titles. */
  const FolderMarker: string := "\U{1F4C2} "

  const HashMarker: string := "?info_hash="

  /** One stream of the answer. */
  datatype FusionStream = FusionStream(description: string, url: string)

  /** The stream answer: whether the request succeeded, and its streams. */
  datatype Response = Response(ok: bool, streams: seq<FusionStream>)

  /** The title: the description before the first size marker, with every folder marker removed. */
  function TitleOf(description: string): string {
    Replace(Before(description, SizeMarker), FolderMarker, "")
  }

  /** The hash: the URL text after the first hash marker, up to the next one. */
  function HashOf(url: string): string
    requires Contains(url, HashMarker)
  {
    Before(url[Find(url, HashMarker).value + |HashMarker|..], HashMarker)
  }

  /**
   One iteration of the parsing loop of `scrape`: a description without the
   size marker or a URL without the hash marker is skipped, and so is a
   pair with an empty hash or title.
   */
  function ParseStream(s: FusionStream): (e: Option<(Hash, string)>)
    ensures e.Some? <==> Contains(s.description, SizeMarker) && Contains(s.url, HashMarker) &&
                         HashOf(s.url) != "" && TitleOf(s.description) != ""
    ensures e.Some? ==> e.value == (HashOf(s.url), TitleOf(s.description))
  {
    var descriptionSplit := Split(s.description, SizeMarker);
    SplitFirstPieces(s.description, SizeMarker);
    SplitSingleIff(s.description, SizeMarker);
    if |descriptionSplit| < 2 then None
    else
      var rawTitle := Replace(descriptionSplit[0], FolderMarker, "");
      var urlSplit := Split(s.url, HashMarker);
      SplitFirstPieces(s.url, HashMarker);
      SplitSingleIff(s.url, HashMarker);
      if |urlSplit| < 2 then None
      else
        var infoHash := urlSplit[1];
        if infoHash == "" || rawTitle == "" then None
        else Some((infoHash, rawTitle))
  }

  function Entries(ss: seq<FusionStream>): (es: seq<Option<(Hash, string)>>)
    ensures |es| == |ss|
    ensures forall i :: 0 <= i < |ss| ==> es[i] == ParseStream(ss[i])
  {
    seq(|ss|, i requires 0 <= i < |ss| => ParseStream(ss[i]))
  }

  /** `scrape(item)` once the request is answered: a failed request or no streams give `{}`. */
  function Scrape(r: Response): map<Hash, string> {
    if !r.ok || |r.streams| <= 0 then map[] else CollectSome(Entries(r.streams))
  }

  /** Some stream of `ss` parses to hash `h`. */
  predicate ParsesTo(ss: seq<FusionStream>, h: Hash) {
    exists i :: 0 <= i < |ss| && ParseStream(ss[i]).Some? && ParseStream(ss[i]).value.0 == h
  }

  /** The scraped dict holds exactly the hashes of the streams that parse. */
  lemma ScrapeKeys(r: Response)
    requires r.ok
    ensures forall h :: h in Scrape(r) <==> ParsesTo(r.streams, h)
  {
    var es := Entries(r.streams);
    CollectSomeSpec(es);
    forall h | ParsesTo(r.streams, h)
      ensures h in Scrape(r)
    {
      var i :| 0 <= i < |r.streams| && ParseStream(r.streams[i]).Some? && ParseStream(r.streams[i]).value.0 == h;
      assert KeyAt(es, i, h);
    }
    forall h | h in Scrape(r)
      ensures ParsesTo(r.streams, h)
    {
      var i :| 0 <= i < |es| && KeyAt(es, i, h);
      assert es[i] == ParseStream(r.streams[i]);
    }
  }

  /** Each scraped hash carries the title of the last stream that parses to it. */
  lemma ScrapeValues(r: Response)
    requires r.ok
    ensures forall h :: h in Scrape(r) ==> (h != "" && Scrape(r)[h] != "" &&
      exists i :: 0 <= i < |r.streams| && ParseStream(r.streams[i]) == Some((h, Scrape(r)[h])) &&
        forall j :: i < j < |r.streams| ==> ParseStream(r.streams[j]).None? || ParseStream(r.streams[j]).value.0 != h)
  {
    var es := Entries(r.streams);
    var m := Scrape(r);
    CollectSomeSpec(es);
    forall h | h in m
      ensures h != "" && m[h] != "" &&
        exists i :: 0 <= i < |r.streams| && ParseStream(r.streams[i]) == Some((h, m[h])) &&
          forall j :: i < j < |r.streams| ==> ParseStream(r.streams[j]).None? || ParseStream(r.streams[j]).value.0 != h
    {
      var i :| 0 <= i < |es| && es[i] == Some((h, m[h])) && forall j :: i < j < |es| ==> !KeyAt(es, j, h);
      forall j | i < j < |r.streams|
        ensures ParseStream(r.streams[j]).None? || ParseStream(r.streams[j]).value.0 != h
      {
        assert !KeyAt(es, j, h);
      }
    }
  }

  /** A later stream with the same hash overwrites the title; one that does not parse changes nothing. */
  lemma ScrapeLastWins(r: Response, s: FusionStream)
    requires r.ok
    ensures Scrape(r.(streams := r.streams + [s])) ==
            if ParseStream(s).Some? then Scrape(r)[ParseStream(s).value.0 := ParseStream(s).value.1] else Scrape(r)
  {
    assert Entries(r.streams + [s]) == Entries(r.streams) + [ParseStream(s)];
    CollectSomeSnoc(Entries(r.streams), ParseStream(s));
  }

  /** A stream whose description lacks the size marker, or whose URL lacks the hash marker, adds nothing. */
  lemma UnmarkedStreamSkipped(r: Response, s: FusionStream)
    requires r.ok
    requires !Contains(s.description, SizeMarker) || !Contains(s.url, HashMarker)
    ensures Scrape(r.(streams := r.streams + [s])) == Scrape(r)
  {
    ScrapeLastWins(r, s);
  }

  /** `run(item)`: `{}` for a falsy item or a request that raised, otherwise the scraped dict. */
  function Run(item: Option<Target>, answer: Result<Response>): (m: map<Hash, string>)
    ensures item.None? ==> m == map[]
    ensures item.Some? && answer.Err? ==> m == map[]
    ensures item.Some? && answer.Ok? ==> m == Scrape(answer.value)
  {
    if item.None? then map[]
    else match answer
      case Err(_) => map[]
      case Ok(r) => Scrape(r)
  }

  // ---------------------------------------------------------------- validation

  datatype FusionSettings = FusionSettings(enabled: bool, url: string, timeout: Setting, ratelimit: Setting, catalogs: seq<string>)

  /** The two downloaders the scraper can hand its key for. */
  datatype Downloaders = Downloaders(realDebridEnabled: bool, realDebridKey: string, torboxEnabled: bool, torboxKey: string)

  /** The state `validate()` leaves behind: its verdict, the downloader and key it chose, and the encrypted user data. */
  datatype Init = Init(ok: bool, downloader: Option<string>, apiKey: Option<string>, encrypted: Option<string>)

  /** The checks `validate()` makes before it touches the network. */
  predicate LocalChecks(s: FusionSettings) {
    s.enabled && s.url != "" && IsPyInt(s.timeout) && PyIntValue(s.timeout) > 0 &&
    s.ratelimit.BoolValue? && s.catalogs != []
  }

  /**
   `validate()`: the local checks, then the downloader choice (Real-Debrid
   first), then the encryption request (`None` when it raised) and the
   manifest request.
   */
  function Validate(s: FusionSettings, d: Downloaders, encrypted: Option<string>, manifestOk: bool): (r: Init)
    ensures r.ok <==> LocalChecks(s) && (d.realDebridEnabled || d.torboxEnabled) && encrypted.Some? && manifestOk
    ensures !LocalChecks(s) ==> r == Init(false, None, None, None)
    ensures LocalChecks(s) && d.realDebridEnabled ==> r.downloader == Some("realdebrid") && r.apiKey == Some(d.realDebridKey)
    ensures LocalChecks(s) && !d.realDebridEnabled && d.torboxEnabled ==> r.downloader == Some("torbox") && r.apiKey == Some(d.torboxKey)
    ensures !d.realDebridEnabled && !d.torboxEnabled ==> !r.ok && r.downloader.None?
    ensures r.ok ==> r.encrypted == encrypted
  {
    if !s.enabled then Init(false, None, None, None)
    else if s.url == "" then Init(false, None, None, None)
    else if !IsPyInt(s.timeout) || PyIntValue(s.timeout) <= 0 then Init(false, None, None, None)
    else if !s.ratelimit.BoolValue? then Init(false, None, None, None)
    else if s.catalogs == [] then Init(false, None, None, None)
    else
      var choice: Option<(string, string)> :=
        if d.realDebridEnabled then Some(("realdebrid", d.realDebridKey))
        else if d.torboxEnabled then Some(("torbox", d.torboxKey))
        else None;
      if choice.None? then Init(false, None, None, None)
      else
        var name := choice.value.0;
        var key := choice.value.1;
        if encrypted.None? then Init(false, Some(name), Some(key), None)
        else Init(manifestOk, Some(name), Some(key), encrypted)
  }
}

=== FILE: rd_api.dfy ===
/**
 The Real-Debrid service as the downloader sees it: the values its REST
 endpoints answer with, the requests the downloader sends, and the file
 records the file finder is given. Every endpoint is a field of `Provider`,
 so a provider is any fixed assignment of answers to requests.
 */
module RdApi {
  import opened Common
  import opened Strings
  import opened Streams
  import opened Media

  type FileId = string
  type TorrentId = string

  /** A file as an instant-availability container lists it. */
  datatype ProviderFile = ProviderFile(filename: string, filesize: int)

  /** One container: file id to file, in the order of the JSON object. */
  type Container = seq<(FileId, ProviderFile)>

  /** The availability entry of one hash: a dict of container lists, or any other JSON value. */
  datatype Payload = DictPayload(variants: seq<seq<Container>>) | OtherPayload

  /** The instant-availability answer: hash to payload, in the order of the JSON object. */
  type Availability = seq<(Hash, Payload)>

  /**
   A file record handed to the file finder. `FileRecord` is the
   `{filename, filesize, id}` dict the downloader builds; `RawFile` is a file
   dict exactly as the torrent-info endpoint answers it, with `path`,
   `bytes`, `id` and `selected` and no `filename` key.
   */
  datatype FileRecord =
    | FileRecord(filename: string, filesize: int, id: FileId)
    | RawFile(path: string, bytes: int, id: FileId, selected: bool)

  /** Every record has the `filename` key the downloader builds. */
  predicate AllNamed(files: seq<FileRecord>) {
    forall i :: 0 <= i < |files| ==> files[i].FileRecord?
  }

  /**
   `FileFinder.find_required_files(item, files)`: which of `files` the item
   needs. Its rules are not part of this model; only determinism is assumed.
   */
  type Finder = (Target, seq<FileRecord>) -> seq<FileRecord>

  /** A file of a torrent in the account, as the torrent-info endpoint lists it. */
  datatype InfoFile = InfoFile(path: string, bytes: int, id: FileId, selected: bool)

  datatype TorrentInfo = TorrentInfo(filename: string, originalFilename: string, files: seq<InfoFile>)

  /** An entry of the account's torrent list. */
  datatype AccountTorrent = AccountTorrent(hash: Hash, id: TorrentId)

  /** The `/user` answer: account type, premium seconds left, and whether the expiration date parses. */
  datatype Account = Unreachable | UserInfo(accountType: string, premium: int, expirationParses: bool)

  /**
   The answers of the endpoints. `None` stands for every failure the code
   turns into an empty answer: a non-ok response or a raised request error.
   */
  datatype Provider = Provider(
    availability: seq<Hash> -> Option<Availability>,
    torrents: Option<seq<AccountTorrent>>,
    info: TorrentId -> Option<TorrentInfo>,
    addMagnet: Hash -> Option<TorrentId>,
    account: Account)

  /** The requests that change the account, in the order they are sent. */
  datatype Call = AddMagnet(hash: Hash) | SelectFiles(torrent: Option<TorrentId>, files: string)

  /** The records of one container: each file with its container key as `id`. */
  function Tag(c: Container): (files: seq<FileRecord>)
    ensures |files| == |c|
    ensures forall i :: 0 <= i < |c| ==> files[i] == FileRecord(c[i].1.filename, c[i].1.filesize, c[i].0)
  {
    seq(|c|, i requires 0 <= i < |c| => FileRecord(c[i].1.filename, c[i].1.filesize, c[i].0))
  }

  /** The container entry a record came from; a raw file contributes its path and byte count. */
  function UntagOne(f: FileRecord): (FileId, ProviderFile) {
    match f
    case FileRecord(filename, filesize, id) => (id, ProviderFile(filename, filesize))
    case RawFile(path, bytes, id, _) => (id, ProviderFile(path, bytes))
  }

  /** The container a list of records came from. */
  function Untag(files: seq<FileRecord>): (c: Container)
    ensures |c| == |files|
  {
    seq(|files|, i requires 0 <= i < |files| => UntagOne(files[i]))
  }

  /** Tagging loses nothing: the container, keys and files alike, is recovered from its records, and back. */
  lemma TagRoundTrip(c: Container, files: seq<FileRecord>)
    ensures Untag(Tag(c)) == c
    ensures AllNamed(Tag(c))
    ensures AllNamed(files) ==> Tag(Untag(files)) == files
  {
    assert forall i :: 0 <= i < |c| ==> Untag(Tag(c))[i] == c[i];
    if AllNamed(files) {
      assert forall i :: 0 <= i < |files| ==> Tag(Untag(files))[i] == files[i];
    }
  }

  /** An instant-availability lookup: the request path sent, if any, and the answer used. */
  datatype AvailabilityQuery = AvailabilityQuery(request: Option<string>, answer: Availability)

  /**
   `get_instant_availability(hashes)`: no hashes means no request and an
   empty answer; otherwise the hashes joined by '/' form the request path
   and a failed request answers `{}`.
   */
  function GetInstantAvailability(hashes: seq<Hash>, p: Provider): (q: AvailabilityQuery)
    ensures hashes == [] <==> q.request.None?
    ensures hashes == [] ==> q.answer == []
    ensures hashes != [] && p.availability(hashes).None? ==> q.answer == []
    ensures hashes != [] && p.availability(hashes).Some? ==> q.answer == p.availability(hashes).value
  {
    if hashes == [] then AvailabilityQuery(None, [])
    else
      var answer := match p.availability(hashes) case None => [] case Some(a) => a;
      AvailabilityQuery(Some(Join(hashes, "/")), answer)
  }

  /** The request path names every queried hash, in order, when no hash contains '/'. */
  lemma AvailabilityRequestNamesHashes(hashes: seq<Hash>, p: Provider)
    requires hashes != []
    requires forall i :: 0 <= i < |hashes| ==> '/' !in hashes[i]
    ensures Split(GetInstantAvailability(hashes, p).request.value, "/") == hashes
  {
    SplitJoin(hashes, "/");
  }

  /** `get_torrents(limit)`: the account's torrents by hash; a later torrent with the same hash overwrites. */
  function GetTorrents(p: Provider): (m: map<Hash, AccountTorrent>)
    ensures p.torrents.None? ==> m == map[]
    ensures p.torrents.Some? ==> m.Keys == set i | 0 <= i < |p.torrents.value| :: p.torrents.value[i].hash
    ensures forall h :: h in m ==> m[h].hash == h
    ensures p.torrents.Some? ==> forall h :: h in m ==> m[h] in p.torrents.value
  {
    match p.torrents
    case None => map[]
    case Some(ts) =>
      var pairs := seq(|ts|, i requires 0 <= i < |ts| => (ts[i].hash, ts[i]));
      var m := CollectLastWins(pairs);
      CollectLastWinsSpec(pairs);
      assert forall i :: 0 <= i < |ts| ==> pairs[i].0 == ts[i].hash;
      assert (set i | 0 <= i < |pairs| :: pairs[i].0) == (set i | 0 <= i < |ts| :: ts[i].hash);
      LastPairOfKey(pairs, m);
      m
  }

  /** `get_torrent_info(id)`: `{}`, here `None`, for a missing or empty id and for a failed request. */
  function GetTorrentInfo(p: Provider, id: Option<TorrentId>): (r: Option<TorrentInfo>)
    ensures (id.None? || id.value == "") ==> r.None?
    ensures id.Some? && id.value != "" ==> r == p.info(id.value)
  {
    if id.None? || id.value == "" then None else p.info(id.value)
  }

  /** A torrent file as the finder sees it: the last path component as `filename`. */
  function NamedRecord(f: InfoFile): FileRecord {
    FileRecord(BaseName(f.path), f.bytes, f.id)
  }

  /** Every file of a torrent, named by the last path component. */
  function NamedRecords(files: seq<InfoFile>): (r: seq<FileRecord>)
    ensures |r| == |files|
    ensures forall i :: 0 <= i < |files| ==> r[i] == NamedRecord(files[i])
  {
    seq(|files|, i requires 0 <= i < |files| => NamedRecord(files[i]))
  }

  predicate IsSelected(f: InfoFile) {
    f.selected
  }

  /** The files of a torrent that are selected for download, named by the last path component. */
  function SelectedRecords(files: seq<InfoFile>): (r: seq<FileRecord>)
    ensures |r| <= |files|
  {
    NamedRecords(Filter(files, IsSelected))
  }

  /** The selected records depend on the selected files only, in their order. */
  lemma SelectedRecordsConcat(a: seq<InfoFile>, b: seq<InfoFile>)
    ensures SelectedRecords(a + b) == SelectedRecords(a) + SelectedRecords(b)
  {
    FilterConcat(a, b, IsSelected);
  }

  /** An unselected file adds nothing, wherever it sits. */
  lemma UnselectedFileIgnored(a: seq<InfoFile>, f: InfoFile, b: seq<InfoFile>)
    requires !f.selected
    ensures SelectedRecords(a + [f] + b) == SelectedRecords(a + b)
  {
    var af := a + [f];
    SelectedRecordsConcat(af, b);
    SelectedRecordsConcat(a, [f]);
    SelectedRecordsConcat(a, b);
    assert Filter([f], IsSelected) == [];
    assert SelectedRecords(af) == SelectedRecords(a);
  }

  /** The files of a torrent exactly as the info endpoint lists them, without a `filename` key. */
  function RawRecords(files: seq<InfoFile>): (r: seq<FileRecord>)
    ensures |r| == |files|
    ensures forall i :: 0 <= i < |files| ==> r[i].RawFile? && r[i].id == files[i].id
    ensures forall i :: 0 <= i < |files| ==> r[i] == RawFile(files[i].path, files[i].bytes, files[i].id, files[i].selected)
  {
    seq(|files|, i requires 0 <= i < |files| => RawFile(files[i].path, files[i].bytes, files[i].id, files[i].selected))
  }

  function Ids(container: seq<FileRecord>): (ids: seq<FileId>)
    ensures |ids| == |container|
    ensures forall i :: 0 <= i < |container| ==> ids[i] == container[i].id
  {
    seq(|container|, i requires 0 <= i < |container| => container[i].id)
  }

  /** The `files` form field of a select-files request: the ids joined by ','. */
  function SelectPayload(container: seq<FileRecord>): string {
    Join(Ids(container), ",")
  }

  /** The payload names exactly the container's ids, in order, when no id contains ','. */
  lemma SelectPayloadNamesIds(container: seq<FileRecord>)
    requires container != []
    requires forall i :: 0 <= i < |container| ==> ',' !in container[i].id
    ensures Split(SelectPayload(container), ",") == Ids(container)
  {
    SplitJoin(Ids(container), ",");
  }
}

=== FILE: rd_cache.dfy ===
/**
 The cache check of the Real-Debrid downloader: which hashes of an
 instant-availability answer have a container the file finder accepts,
 and which file lists the finder is shown on the way.
 */
module RdCache {
  import opened Common
  import opened Streams
  import opened Media
  import opened RdApi

  /** One container list of a dict payload, with the hash it is listed under. */
  datatype ContainerList = ContainerList(hash: Hash, containers: seq<Container>)

  /** The container lists of one payload; a payload that is not a dict has none. */
  function PayloadLists(h: Hash, p: Payload): (r: seq<ContainerList>)
    ensures p.OtherPayload? ==> r == []
    ensures p.DictPayload? ==> |r| == |p.variants|
    ensures p.DictPayload? ==> forall v :: 0 <= v < |r| ==> r[v] == ContainerList(h, p.variants[v])
  {
    match p
    case OtherPayload => []
    case DictPayload(vs) => seq(|vs|, v requires 0 <= v < |vs| => ContainerList(h, vs[v]))
  }

  /** The container lists the scan visits, in answer order. */
  function Lists(avail: Availability): seq<ContainerList>
    decreases |avail|
  {
    if avail == [] then [] else PayloadLists(avail[0].0, avail[0].1) + Lists(avail[1..])
  }

  /** Every visited list is a container list of a dict payload of the answer, under that payload's hash. */
  lemma {:induction false} ListsFromDictPayloads(avail: Availability)
    ensures forall l :: l in Lists(avail) ==>
      exists k :: 0 <= k < |avail| && avail[k].0 == l.hash && avail[k].1.DictPayload? && l.containers in avail[k].1.variants
    decreases |avail|
  {
    if avail != [] {
      ListsFromDictPayloads(avail[1..]);
      var head := PayloadLists(avail[0].0, avail[0].1);
      forall l | l in Lists(avail)
        ensures exists k :: 0 <= k < |avail| && avail[k].0 == l.hash && avail[k].1.DictPayload? && l.containers in avail[k].1.variants
      {
        if l in head {
          var v :| 0 <= v < |head| && head[v] == l;
          assert avail[0].1.variants[v] == l.containers;
        } else {
          assert l in Lists(avail[1..]);
          var k :| 0 <= k < |avail[1..]| && avail[1..][k].0 == l.hash && avail[1..][k].1.DictPayload? && l.containers in avail[1..][k].1.variants;
          assert avail[k + 1] == avail[1..][k];
        }
      }
    }
  }

  /** Every container list of every dict payload is visited. */
  lemma {:induction false} DictPayloadsListed(avail: Availability)
    ensures forall k, v :: 0 <= k < |avail| && avail[k].1.DictPayload? && 0 <= v < |avail[k].1.variants| ==>
      ContainerList(avail[k].0, avail[k].1.variants[v]) in Lists(avail)
    decreases |avail|
  {
    if avail != [] {
      DictPayloadsListed(avail[1..]);
      forall k, v | 0 <= k < |avail| && avail[k].1.DictPayload? && 0 <= v < |avail[k].1.variants|
        ensures ContainerList(avail[k].0, avail[k].1.variants[v]) in Lists(avail)
      {
        if k == 0 {
          assert PayloadLists(avail[0].0, avail[0].1)[v] == ContainerList(avail[0].0, avail[0].1.variants[v]);
        } else {
          assert avail[1..][k - 1] == avail[k];
        }
      }
    }
  }

  /** The finder accepts a container when it returns a non-empty list for its records. */
  predicate Accepts(finder: Finder, t: Target, c: Container) {
    finder(t, Tag(c)) != []
  }

  /** Position of the first container of a list the finder accepts: the inner loop and its `break`. */
  function FirstHit(finder: Finder, t: Target, cs: seq<Container>): (r: Option<nat>)
    ensures r.Some? ==> r.value < |cs| && Accepts(finder, t, cs[r.value])
    ensures r.Some? ==> forall j :: 0 <= j < r.value ==> !Accepts(finder, t, cs[j])
    ensures r.None? ==> forall j :: 0 <= j < |cs| ==> !Accepts(finder, t, cs[j])
  {
    FirstIndex(cs, (c: Container) => Accepts(finder, t, c), 0)
  }

  function Tags(cs: seq<Container>): (r: seq<seq<FileRecord>>)
    ensures |r| == |cs|
    ensures forall i :: 0 <= i < |cs| ==> r[i] == Tag(cs[i])
  {
    seq(|cs|, i requires 0 <= i < |cs| => Tag(cs[i]))
  }

  /** The record lists the finder is shown for one list: its containers up to the first accepted one. */
  function Probes(finder: Finder, t: Target, l: ContainerList): seq<seq<FileRecord>> {
    match FirstHit(finder, t, l.containers)
    case None => Tags(l.containers)
    case Some(k) => Tags(l.containers[..k + 1])
  }

  /** The entry a list writes into the result: its hash and the finder's answer for the first accepted container. */
  function ListHit(finder: Finder, t: Target, l: ContainerList): Option<(Hash, seq<FileRecord>)> {
    match FirstHit(finder, t, l.containers)
    case None => None
    case Some(k) => Some((l.hash, finder(t, Tag(l.containers[k]))))
  }

  function HitOf(finder: Finder, t: Target, l: ContainerList): seq<(Hash, seq<FileRecord>)> {
    match ListHit(finder, t, l)
    case None => []
    case Some(e) => [e]
  }

  /** The writes into the result dict, in order, when the scan never stops early. */
  function Hits(finder: Finder, t: Target, ls: seq<ContainerList>): seq<(Hash, seq<FileRecord>)>
    decreases |ls|
  {
    if ls == [] then [] else HitOf(finder, t, ls[0]) + Hits(finder, t, ls[1..])
  }

  /** Every finder call over all lists. */
  function AllProbes(finder: Finder, t: Target, ls: seq<ContainerList>): seq<seq<FileRecord>>
    decreases |ls|
  {
    if ls == [] then [] else Probes(finder, t, ls[0]) + AllProbes(finder, t, ls[1..])
  }

  /** The finder calls up to the first list with an accepted container. */
  function ProbesUntilHit(finder: Finder, t: Target, ls: seq<ContainerList>): seq<seq<FileRecord>>
    decreases |ls|
  {
    if ls == [] then []
    else if ListHit(finder, t, ls[0]).Some? then Probes(finder, t, ls[0])
    else Probes(finder, t, ls[0]) + ProbesUntilHit(finder, t, ls[1..])
  }

  /**
   The reference meaning of `is_cached`: with `break_on_first` the first
   accepted container's hash alone; otherwise every list's first accepted
   container, a later list of the same hash overwriting an earlier one.
   */
  function CachedFiles(finder: Finder, t: Target, ls: seq<ContainerList>, breakOnFirst: bool): map<Hash, seq<FileRecord>> {
    var hits := Hits(finder, t, ls);
    if breakOnFirst then (if hits == [] then map[] else map[hits[0].0 := hits[0].1])
    else CollectLastWins(hits)
  }

  lemma {:induction false} HitsConcat(finder: Finder, t: Target, a: seq<ContainerList>, b: seq<ContainerList>)
    ensures Hits(finder, t, a + b) == Hits(finder, t, a) + Hits(finder, t, b)
    decreases |a|
  {
    ConcatCons(a, b);
    if a != [] {
      HitsConcat(finder, t, a[1..], b);
    }
  }

  lemma {:induction false} AllProbesConcat(finder: Finder, t: Target, a: seq<ContainerList>, b: seq<ContainerList>)
    ensures AllProbes(finder, t, a + b) == AllProbes(finder, t, a) + AllProbes(finder, t, b)
    decreases |a|
  {
    ConcatCons(a, b);
    if a != [] {
      AllProbesConcat(finder, t, a[1..], b);
    }
  }

  /** Lists that write nothing do not stop the scan: all their finder calls happen before those of the rest. */
  lemma {:induction false} SkipMissesProbes(finder: Finder, t: Target, pre: seq<ContainerList>, post: seq<ContainerList>)
    requires Hits(finder, t, pre) == []
    ensures ProbesUntilHit(finder, t, pre + post) == AllProbes(finder, t, pre) + ProbesUntilHit(finder, t, post)
    decreases |pre|
  {
    ConcatCons(pre, post);
    if pre == [] {
      ConcatCons(AllProbes(finder, t, pre), ProbesUntilHit(finder, t, post));
    } else {
      assert HitOf(finder, t, pre[0]) == [] && Hits(finder, t, pre[1..]) == [];
      assert ListHit(finder, t, pre[0]).None?;
      SkipMissesProbes(finder, t, pre[1..], post);
      var head := Probes(finder, t, pre[0]);
      calc {
        ProbesUntilHit(finder, t, pre + post);
        head + ProbesUntilHit(finder, t, pre[1..] + post);
        head + (AllProbes(finder, t, pre[1..]) + ProbesUntilHit(finder, t, post));
        { ConcatAssoc(head, AllProbes(finder, t, pre[1..]), ProbesUntilHit(finder, t, post)); }
        (head + AllProbes(finder, t, pre[1..])) + ProbesUntilHit(finder, t, post);
        AllProbes(finder, t, pre) + ProbesUntilHit(finder, t, post);
      }
    }
  }

  /**
   `is_cached(item, hashes, break_on_first)`: the outer loop over the
   answer's payloads and their container lists, skipping payloads that are
   not dicts; returns the result dict and the record lists the finder was
   called with, in order.
   */
  method IsCached(p: Provider, finder: Finder, t: Target, hashes: seq<Hash>, breakOnFirst: bool)
    returns (found: map<Hash, seq<FileRecord>>, calls: seq<seq<FileRecord>>)
    ensures found == CachedFiles(finder, t, Lists(GetInstantAvailability(hashes, p).answer), breakOnFirst)
    ensures breakOnFirst ==> calls == ProbesUntilHit(finder, t, Lists(GetInstantAvailability(hashes, p).answer))
    ensures !breakOnFirst ==> calls == AllProbes(finder, t, Lists(GetInstantAvailability(hashes, p).answer))
  {
    found, calls := ScanLists(finder, t, Lists(GetInstantAvailability(hashes, p).answer), breakOnFirst);
  }

  /** The loop of `is_cached` over the container lists, in answer order. */
  method ScanLists(finder: Finder, t: Target, ls: seq<ContainerList>, breakOnFirst: bool)
    returns (found: map<Hash, seq<FileRecord>>, calls: seq<seq<FileRecord>>)
    ensures found == CachedFiles(finder, t, ls, breakOnFirst)
    ensures breakOnFirst ==> calls == ProbesUntilHit(finder, t, ls)
    ensures !breakOnFirst ==> calls == AllProbes(finder, t, ls)
  {
    found := map[];
    calls := [];
    var i := 0;
    while i < |ls|
      invariant 0 <= i <= |ls|
      invariant calls == AllProbes(finder, t, ls[..i])
      invariant !breakOnFirst ==> found == CollectLastWins(Hits(finder, t, ls[..i]))
      invariant breakOnFirst ==> found == map[] && Hits(finder, t, ls[..i]) == []
    {
      var l := ls[i];
      ScanStep(finder, t, ls, i);
      calls := calls + Probes(finder, t, l);
      assert calls == AllProbes(finder, t, ls[..i + 1]);
      var hit := ListHit(finder, t, l);
      if hit.Some? {
        found := found[hit.value.0 := hit.value.1];
        if breakOnFirst {
          StopAtFirstHit(finder, t, ls, i);
          return;
        }
      }
      i := i + 1;
    }
    ScanEnd(finder, t, ls);
  }

  /** The early stop at the first list with an accepted container gives the reference result. */
  lemma StopAtFirstHit(finder: Finder, t: Target, ls: seq<ContainerList>, i: nat)
    requires i < |ls| && ListHit(finder, t, ls[i]).Some?
    requires Hits(finder, t, ls[..i]) == []
    ensures CachedFiles(finder, t, ls, true) == map[ls[i].hash := ListHit(finder, t, ls[i]).value.1]
    ensures ProbesUntilHit(finder, t, ls) == AllProbes(finder, t, ls[..i]) + Probes(finder, t, ls[i])
  {
    assert ls == ls[..i] + ls[i..];
    SkipMissesProbes(finder, t, ls[..i], ls[i..]);
    HitsConcat(finder, t, ls[..i], ls[i..]);
    assert ls[i..][0] == ls[i];
  }

  /** A scan that reaches the end has visited every list; without an accepted container it found nothing. */
  lemma ScanEnd(finder: Finder, t: Target, ls: seq<ContainerList>)
    ensures ls[..|ls|] == ls
    ensures Hits(finder, t, ls) == [] ==> ProbesUntilHit(finder, t, ls) == AllProbes(finder, t, ls)
  {
    assert ls[..|ls|] == ls;
    if Hits(finder, t, ls) == [] {
      SkipMissesProbes(finder, t, ls, []);
      assert ls + [] == ls;
    }
  }

  lemma {:induction false} NoHitsNoneHit(finder: Finder, t: Target, ls: seq<ContainerList>)
    requires Hits(finder, t, ls) == []
    ensures forall j :: 0 <= j < |ls| ==> ListHit(finder, t, ls[j]).None?
    decreases |ls|
  {
    if ls != [] {
      NoHitsNoneHit(finder, t, ls[1..]);
      assert forall j :: 1 <= j < |ls| ==> ls[j] == ls[1..][j - 1];
    }
  }

  /** One more list extends the writes and the finder calls by that list's own. */
  lemma ScanStep(finder: Finder, t: Target, ls: seq<ContainerList>, i: nat)
    requires i < |ls|
    ensures AllProbes(finder, t, ls[..i + 1]) == AllProbes(finder, t, ls[..i]) + Probes(finder, t, ls[i])
    ensures ListHit(finder, t, ls[i]).None? ==> Hits(finder, t, ls[..i + 1]) == Hits(finder, t, ls[..i])
    ensures ListHit(finder, t, ls[i]).Some? ==>
      CollectLastWins(Hits(finder, t, ls[..i + 1])) ==
      CollectLastWins(Hits(finder, t, ls[..i]))[ls[i].hash := ListHit(finder, t, ls[i]).value.1]
  {
    assert ls[..i + 1] == ls[..i] + [ls[i]];
    HitsConcat(finder, t, ls[..i], [ls[i]]);
    AllProbesConcat(finder, t, ls[..i], [ls[i]]);
    assert Hits(finder, t, [ls[i]]) == HitOf(finder, t, ls[i]);
    assert AllProbes(finder, t, [ls[i]]) == Probes(finder, t, ls[i]);
    if ListHit(finder, t, ls[i]).Some? {
      CollectSnoc(Hits(finder, t, ls[..i]), ListHit(finder, t, ls[i]).value);
    }
  }

  /** Every write into the result is a non-empty finder answer for a container of a list with that hash. */
  lemma {:induction false} HitsSound(finder: Finder, t: Target, ls: seq<ContainerList>)
    ensures forall e :: e in Hits(finder, t, ls) ==>
      (e.1 != [] && exists l, c :: l in ls && c in l.containers && l.hash == e.0 && e.1 == finder(t, Tag(c)))
    decreases |ls|
  {
    if ls != [] {
      HitsSound(finder, t, ls[1..]);
      forall e | e in Hits(finder, t, ls)
        ensures e.1 != [] && exists l, c :: l in ls && c in l.containers && l.hash == e.0 && e.1 == finder(t, Tag(c))
      {
        if e in HitOf(finder, t, ls[0]) {
          var k := FirstHit(finder, t, ls[0].containers).value;
          assert ls[0] in ls && ls[0].containers[k] in ls[0].containers;
        } else {
          assert e in Hits(finder, t, ls[1..]);
          var l, c :| l in ls[1..] && c in l.containers && l.hash == e.0 && e.1 == finder(t, Tag(c));
          assert l in ls;
        }
      }
    }
  }

  /** Some write of `hits` is for hash `h`. */
  predicate WritesKey(hits: seq<(Hash, seq<FileRecord>)>, h: Hash) {
    exists i :: 0 <= i < |hits| && hits[i].0 == h
  }

  /** Some list for hash `h` has an accepted container. */
  predicate HasAcceptedList(finder: Finder, t: Target, ls: seq<ContainerList>, h: Hash) {
    exists l :: l in ls && l.hash == h && FirstHit(finder, t, l.containers).Some?
  }

  lemma WritesKeyConcat(a: seq<(Hash, seq<FileRecord>)>, b: seq<(Hash, seq<FileRecord>)>, h: Hash)
    ensures WritesKey(a + b, h) <==> WritesKey(a, h) || WritesKey(b, h)
  {
    if WritesKey(a, h) {
      var i :| 0 <= i < |a| && a[i].0 == h;
      assert (a + b)[i] == a[i];
    }
    if WritesKey(b, h) {
      var i :| 0 <= i < |b| && b[i].0 == h;
      assert (a + b)[|a| + i] == b[i];
    }
    if WritesKey(a + b, h) {
      var i :| 0 <= i < |a + b| && (a + b)[i].0 == h;
      if i >= |a| {
        assert b[i - |a|].0 == h;
      } else {
        assert a[i].0 == h;
      }
    }
  }

  lemma HasAcceptedListCons(finder: Finder, t: Target, ls: seq<ContainerList>, h: Hash)
    requires ls != []
    ensures HasAcceptedList(finder, t, ls, h) <==>
      (ls[0].hash == h && FirstHit(finder, t, ls[0].containers).Some?) || HasAcceptedList(finder, t, ls[1..], h)
  {
    if HasAcceptedList(finder, t, ls[1..], h) {
      var l :| l in ls[1..] && l.hash == h && FirstHit(finder, t, l.containers).Some?;
      assert l in ls;
    }
    if HasAcceptedList(finder, t, ls, h) {
      var l :| l in ls && l.hash == h && FirstHit(finder, t, l.containers).Some?;
      if l != ls[0] {
        assert l in ls[1..];
      }
    }
  }

  /** A hash is written into the result exactly when one of its lists has an accepted container. */
  lemma {:induction false} HitsHashes(finder: Finder, t: Target, ls: seq<ContainerList>, h: Hash)
    ensures WritesKey(Hits(finder, t, ls), h) <==> HasAcceptedList(finder, t, ls, h)
    decreases |ls|
  {
    if ls != [] {
      HitsHashes(finder, t, ls[1..], h);
      var head := HitOf(finder, t, ls[0]);
      assert Hits(finder, t, ls) == head + Hits(finder, t, ls[1..]);
      WritesKeyConcat(head, Hits(finder, t, ls[1..]), h);
      HasAcceptedListCons(finder, t, ls, h);
      assert WritesKey(head, h) <==> ls[0].hash == h && FirstHit(finder, t, ls[0].containers).Some? by {
        if WritesKey(head, h) {
          assert head[0].0 == h;
        }
        if ls[0].hash == h && FirstHit(finder, t, ls[0].containers).Some? {
          assert head[0].0 == h;
        }
      }
    }
  }

  /** The result is never empty while some list has an accepted container, whether or not the scan stops early. */
  lemma CachedFilesEmptyIff(finder: Finder, t: Target, ls: seq<ContainerList>, breakOnFirst: bool)
    ensures CachedFiles(finder, t, ls, breakOnFirst) == map[] <==>
            forall l :: l in ls ==> FirstHit(finder, t, l.containers).None?
  {
    var hits := Hits(finder, t, ls);
    CollectLastWinsSpec(hits);
    if hits != [] {
      HitsHashes(finder, t, ls, hits[0].0);
      assert hits[0].0 in CachedFiles(finder, t, ls, breakOnFirst);
    } else {
      forall l | l in ls
        ensures FirstHit(finder, t, l.containers).None?
      {
        HitsHashes(finder, t, ls, l.hash);
      }
    }
  }

  /** With `break_on_first` the result holds at most one hash. */
  lemma CachedFilesAtMostOne(finder: Finder, t: Target, ls: seq<ContainerList>)
    ensures |CachedFiles(finder, t, ls, true).Keys| <= 1
  {
    var hits := Hits(finder, t, ls);
    if hits != [] {
      assert CachedFiles(finder, t, ls, true).Keys == {hits[0].0};
    }
  }

  /** Without `break_on_first`, a hash is in the result exactly when one of its lists has an accepted container. */
  lemma CachedFilesComplete(finder: Finder, t: Target, ls: seq<ContainerList>, h: Hash)
    ensures h in CachedFiles(finder, t, ls, false) <==>
            exists l :: l in ls && l.hash == h && FirstHit(finder, t, l.containers).Some?
  {
    HitsHashes(finder, t, ls, h);
    CollectLastWinsSpec(Hits(finder, t, ls));
  }

  /** Every result entry is a non-empty finder answer for a container listed under that hash. */
  lemma CachedFilesSound(finder: Finder, t: Target, ls: seq<ContainerList>, breakOnFirst: bool)
    ensures forall h :: h in CachedFiles(finder, t, ls, breakOnFirst) ==>
      CachedFiles(finder, t, ls, breakOnFirst)[h] != [] &&
      exists l, c :: l in ls && c in l.containers && l.hash == h && CachedFiles(finder, t, ls, breakOnFirst)[h] == finder(t, Tag(c))
  {
    var hits := Hits(finder, t, ls);
    HitsSound(finder, t, ls);
    var m := CachedFiles(finder, t, ls, breakOnFirst);
    if breakOnFirst {
      if hits != [] {
        assert hits[0] in hits;
      }
    } else {
      LastPairOfKey(hits, m);
      forall h | h in m
        ensures m[h] != [] && exists l, c :: l in ls && c in l.containers && l.hash == h && m[h] == finder(t, Tag(c))
      {
        var i :| 0 <= i < |hits| && hits[i] == (h, m[h]);
        assert hits[i] in hits;
      }
    }
  }

  /** The keys of the result are hashes whose payload in the answer is a dict. */
  lemma CachedKeysHaveDictPayloads(finder: Finder, t: Target, avail: Availability, breakOnFirst: bool)
    ensures forall h :: h in CachedFiles(finder, t, Lists(avail), breakOnFirst) ==>
      exists k :: 0 <= k < |avail| && avail[k].0 == h && avail[k].1.DictPayload?
  {
    CachedFilesSound(finder, t, Lists(avail), breakOnFirst);
    ListsFromDictPayloads(avail);
  }

  lemma {:induction false} AllProbesTagged(finder: Finder, t: Target, ls: seq<ContainerList>)
    ensures forall files :: files in AllProbes(finder, t, ls) ==> exists l, c :: l in ls && c in l.containers && files == Tag(c)
    decreases |ls|
  {
    if ls != [] {
      AllProbesTagged(finder, t, ls[1..]);
      var l := ls[0];
      forall files | files in AllProbes(finder, t, ls)
        ensures exists l, c :: l in ls && c in l.containers && files == Tag(c)
      {
        if files in Probes(finder, t, l) {
          var j :| 0 <= j < |Probes(finder, t, l)| && Probes(finder, t, l)[j] == files;
          assert l.containers[j] in l.containers;
        } else {
          assert files in AllProbes(finder, t, ls[1..]);
          var l', c :| l' in ls[1..] && c in l'.containers && files == Tag(c);
          assert l' in ls;
        }
      }
    }
  }

  /** Stopping early only cuts the finder calls short: they are a prefix of the full scan's. */
  lemma {:induction false} ProbesUntilHitPrefix(finder: Finder, t: Target, ls: seq<ContainerList>)
    ensures ProbesUntilHit(finder, t, ls) <= AllProbes(finder, t, ls)
    decreases |ls|
  {
    if ls != [] && ListHit(finder, t, ls[0]).None? {
      ProbesUntilHitPrefix(finder, t, ls[1..]);
    }
  }

  /**
   The finder only ever sees tagged containers of dict payloads: every
   record list it is called with is a container of a dict payload of the
   answer, each file with its container key as `id`.
   */
  lemma FinderSeesDictContainers(finder: Finder, t: Target, avail: Availability, breakOnFirst: bool, files: seq<FileRecord>)
    requires files in (if breakOnFirst then ProbesUntilHit(finder, t, Lists(avail)) else AllProbes(finder, t, Lists(avail)))
    ensures exists k, v, c ::
      0 <= k < |avail| && avail[k].1.DictPayload? && 0 <= v < |avail[k].1.variants| &&
      c in avail[k].1.variants[v] && files == Tag(c)
  {
    var ls := Lists(avail);
    if breakOnFirst {
      ProbesUntilHitPrefix(finder, t, ls);
      var j :| 0 <= j < |ProbesUntilHit(finder, t, ls)| && ProbesUntilHit(finder, t, ls)[j] == files;
      assert AllProbes(finder, t, ls)[j] == files;
    }
    assert files in AllProbes(finder, t, ls);
    AllProbesTagged(finder, t, ls);
    ListsFromDictPayloads(avail);
    var l, c :| l in Lists(avail) && c in l.containers && files == Tag(c);
    var k :| 0 <= k < |avail| && avail[k].0 == l.hash && avail[k].1.DictPayload? && l.containers in avail[k].1.variants;
    var v :| 0 <= v < |avail[k].1.variants| && avail[k].1.variants[v] == l.containers;
    assert c in avail[k].1.variants[v];
  }
}

=== FILE: realdebrid.dfy ===
/**
 The Real-Debrid downloader: settings validation, the size bounds given to
 the file finder, the reuse check for a torrent already in the account,
 binding the downloaded files to the item, the two download paths, and the
 stream loop that picks the first cached stream.
 */
module RealDebrid {
  import opened Common
  import opened Strings
  import opened Streams
  import opened Media
  import opened SettingsEnv
  import opened RdApi
  import opened RdCache

  // ---------------------------------------------------------------- validation

  datatype RdSettings = RdSettings(enabled: bool, apiKey: string, proxyEnabled: bool, proxyUrl: string)

  /** The four file-size settings, in megabytes, as found in the settings tree. */
  datatype SizeSettings = SizeSettings(movieMin: Setting, movieMax: Setting, episodeMin: Setting, episodeMax: Setting)

  /** A size setting passes when it is an int (a bool counts) and at least -1. */
  predicate ValidSize(v: Setting) {
    IsPyInt(v) && PyIntValue(v) >= -1
  }

  /** The `/user` answer: the account type, the premium seconds left, and whether the expiration date parses. */
  predicate PremiumAccount(a: Account) {
    a.UserInfo? && a.expirationParses && a.accountType == "premium" && a.premium > 0
  }

  /**
   `validate()`: the local checks in order, then the account check. The
   expiry message is only logged, but an expiration that does not parse
   raises inside the `try` and fails the validation.
   */
  function Validate(rd: RdSettings, sizes: SizeSettings, account: Account): (ok: bool)
    ensures !rd.enabled ==> !ok
    ensures rd.apiKey == "" ==> !ok
    ensures !ValidSize(sizes.movieMin) || !ValidSize(sizes.movieMax) ==> !ok
    ensures !ValidSize(sizes.episodeMin) || !ValidSize(sizes.episodeMax) ==> !ok
    ensures rd.proxyEnabled && rd.proxyUrl == "" ==> !ok
    ensures ok <==> rd.enabled && rd.apiKey != "" &&
                    ValidSize(sizes.movieMin) && ValidSize(sizes.movieMax) &&
                    ValidSize(sizes.episodeMin) && ValidSize(sizes.episodeMax) &&
                    !(rd.proxyEnabled && rd.proxyUrl == "") && PremiumAccount(account)
  {
    if !rd.enabled then false
    else if rd.apiKey == "" then false
    else if !ValidSize(sizes.movieMin) then false
    else if !ValidSize(sizes.movieMax) then false
    else if !ValidSize(sizes.episodeMin) then false
    else if !ValidSize(sizes.episodeMax) then false
    else if rd.proxyEnabled && rd.proxyUrl == "" then false
    else
      match account
      case Unreachable => false
      case UserInfo(accountType, premium, expirationParses) =>
        if !expirationParses then false
        else if accountType != "premium" then false
        else premium > 0
  }

  // ---------------------------------------------------------------- finder bounds

  const BytesPerMegabyte := 1_000_000

  datatype SizeLimit = Bytes(n: int) | Unlimited

  /** The size window the file finder is built with, in bytes. */
  datatype SizeBounds = SizeBounds(min: int, max: SizeLimit)

  /** The finder's bounds: the episode settings in bytes, a maximum of -1 meaning no upper bound. */
  function FinderBounds(episodeMin: int, episodeMax: int): (b: SizeBounds)
    ensures b.min == episodeMin * BytesPerMegabyte
    ensures b.max.Unlimited? <==> episodeMax == -1
    ensures b.max.Bytes? ==> b.max.n == episodeMax * BytesPerMegabyte
  {
    SizeBounds(episodeMin * BytesPerMegabyte,
               if episodeMax != -1 then Bytes(episodeMax * BytesPerMegabyte) else Unlimited)
  }

  /** Settings that pass validation give a lower bound of at least -1 MB and a non-negative finite maximum, if any. */
  lemma ValidSettingsGiveSaneBounds(rd: RdSettings, sizes: SizeSettings, account: Account)
    requires Validate(rd, sizes, account)
    ensures FinderBounds(PyIntValue(sizes.episodeMin), PyIntValue(sizes.episodeMax)).min >= -BytesPerMegabyte
    ensures FinderBounds(PyIntValue(sizes.episodeMin), PyIntValue(sizes.episodeMax)).max.Bytes? ==>
            FinderBounds(PyIntValue(sizes.episodeMin), PyIntValue(sizes.episodeMax)).max.n >= 0
  {
  }

  // ---------------------------------------------------------------- reuse check

  /** The finder still wants a torrent: it lists files, and the finder accepts its selected ones. */
  predicate AcceptsTorrent(finder: Finder, t: Target, info: TorrentInfo) {
    info.files != [] && finder(t, SelectedRecords(info.files)) != []
  }

  /**
   `torrent_is_downloaded(item, hash)`: the id of the account's torrent for
   the hash, when the finder accepts its selected files. Reading the files of
   an empty info answer raises `KeyError`.
   */
  function TorrentIsDownloaded(p: Provider, finder: Finder, t: Target, h: Hash): (r: Result<Option<TorrentId>>)
    ensures h !in GetTorrents(p) ==> r == Ok(None)
    ensures r.Err? <==> h in GetTorrents(p) && GetTorrentInfo(p, Some(GetTorrents(p)[h].id)).None?
    ensures r.Err? ==> r.fault == KeyError
    ensures r.Ok? && r.value.Some? <==>
            h in GetTorrents(p) && GetTorrentInfo(p, Some(GetTorrents(p)[h].id)).Some? &&
            AcceptsTorrent(finder, t, GetTorrentInfo(p, Some(GetTorrents(p)[h].id)).value)
    ensures r.Ok? && r.value.Some? ==> r.value.value == GetTorrents(p)[h].id && GetTorrents(p)[h].hash == h
  {
    var torrents := GetTorrents(p);
    if h !in torrents then Ok(None)
    else
      var torrent := torrents[h];
      match GetTorrentInfo(p, Some(torrent.id))
      case None => Err(KeyError)
      case Some(info) =>
        if info.files == [] then Ok(None)
        else if finder(t, SelectedRecords(info.files)) == [] then Ok(None)
        else Ok(Some(torrent.id))
  }

  /** A file that is not selected plays no part in the reuse decision, as long as some file remains. */
  lemma UnselectedFileIrrelevant(finder: Finder, t: Target, info: TorrentInfo, a: seq<InfoFile>, f: InfoFile, b: seq<InfoFile>)
    requires !f.selected && a + b != []
    ensures AcceptsTorrent(finder, t, info.(files := a + [f] + b)) == AcceptsTorrent(finder, t, info.(files := a + b))
  {
    UnselectedFileIgnored(a, f, b);
  }

  // ---------------------------------------------------------------- binding files

  /**
   The finder answers with some of the records it is given, as
   `find_required_files` does by filtering its input. Only the lemmas that
   follow a record from the torrent to the binding rely on this.
   */
  ghost predicate PicksFromInput(finder: Finder) {
    forall t, xs, k :: 0 <= k < |finder(t, xs)| ==> finder(t, xs)[k] in xs
  }

  /**
   The three writes for one picked file. `file["filename"]` is read first,
   then `info["filename"]` and `info["original_filename"]`: a raw file of the
   info endpoint or a missing info answer raises `KeyError`.
   */
  function BindFile(info: Option<TorrentInfo>, file: FileRecord): (r: Result<Binding>)
    ensures r.Ok? <==> file.FileRecord? && info.Some?
    ensures r.Err? ==> r.fault == KeyError
    ensures r.Ok? ==> r.value.folder == Some(info.value.filename) &&
                      r.value.alternativeFolder == Some(info.value.originalFilename) &&
                      r.value.file == Some(BaseName(file.filename))
  {
    if file.RawFile? then Err(KeyError)
    else match info
      case None => Err(KeyError)
      case Some(i) => Ok(Binding(Some(i.filename), Some(i.originalFilename), Some(BaseName(file.filename))))
  }

  /** The file the finder picks for one episode out of the matched files, if any. */
  function EpisodeFile(finder: Finder, imdbId: string, seasonNumber: int, e: Episode, files: seq<FileRecord>): Option<FileRecord> {
    var found := finder(EpisodeTarget(imdbId, seasonNumber, e), files);
    if found == [] then None else Some(found[0])
  }

  /** One pass of the per-episode loop: an episode without a file is left alone, one with a file is bound to it. */
  function BindEpisode(finder: Finder, imdbId: string, seasonNumber: int, e: Episode, files: seq<FileRecord>, info: Option<TorrentInfo>)
    : Result<Episode>
  {
    match EpisodeFile(finder, imdbId, seasonNumber, e, files)
    case None => Ok(e)
    case Some(file) =>
      match BindFile(info, file)
      case Err(f) => Err(f)
      case Ok(b) => Ok(e.(binding := b))
  }

  /** Binding an episode to its file cannot work: the info answer is missing or the file has no name. */
  predicate Unbindable(finder: Finder, imdbId: string, seasonNumber: int, e: Episode, files: seq<FileRecord>, info: Option<TorrentInfo>) {
    var file := EpisodeFile(finder, imdbId, seasonNumber, e, files);
    file.Some? && (info.None? || file.value.RawFile?)
  }

  /**
   The per-episode loop of `set_active_files`: each episode the finder finds
   a file for gets that file and the torrent's folders. The first episode
   whose binding raises ends the loop with `KeyError`.
   */
  function BindEpisodes(finder: Finder, imdbId: string, seasonNumber: int, eps: seq<Episode>, files: seq<FileRecord>, info: Option<TorrentInfo>)
    : (r: Result<seq<Episode>>)
    ensures r.Err? <==> exists i :: 0 <= i < |eps| && Unbindable(finder, imdbId, seasonNumber, eps[i], files, info)
    ensures r.Err? ==> r.fault == KeyError
    ensures r.Ok? ==> |r.value| == |eps|
    ensures r.Ok? ==> forall i :: 0 <= i < |eps| && EpisodeFile(finder, imdbId, seasonNumber, eps[i], files).None? ==>
                        r.value[i] == eps[i]
    ensures r.Ok? ==> forall i :: 0 <= i < |eps| && EpisodeFile(finder, imdbId, seasonNumber, eps[i], files).Some? ==>
                        r.value[i].number == eps[i].number && r.value[i].activeStream == eps[i].activeStream &&
                        r.value[i].binding == BindFile(info, EpisodeFile(finder, imdbId, seasonNumber, eps[i], files).value).value
  {
    if forall i :: 0 <= i < |eps| ==> BindEpisode(finder, imdbId, seasonNumber, eps[i], files, info).Ok? then
      Ok(seq(|eps|, i requires 0 <= i < |eps| => BindEpisode(finder, imdbId, seasonNumber, eps[i], files, info).value))
    else
      Err(KeyError)
  }

  /** Binding never reorders, adds or removes episodes, and keeps their numbers and active streams. */
  lemma BindEpisodesKeepsIdentity(finder: Finder, imdbId: string, seasonNumber: int, eps: seq<Episode>, files: seq<FileRecord>, info: Option<TorrentInfo>)
    ensures var r := BindEpisodes(finder, imdbId, seasonNumber, eps, files, info);
            r.Ok? ==> |r.value| == |eps| &&
                      forall i :: 0 <= i < |eps| ==> r.value[i].number == eps[i].number && r.value[i].activeStream == eps[i].activeStream
  {
  }

  /** The show loop: each season's episodes bound as for a season, in order; any raised binding ends it. */
  function BindSeasons(finder: Finder, imdbId: string, seasons: seq<Season>, files: seq<FileRecord>, info: Option<TorrentInfo>)
    : (r: Result<seq<Season>>)
    ensures r.Ok? <==> forall i :: 0 <= i < |seasons| ==> BindEpisodes(finder, imdbId, seasons[i].number, seasons[i].episodes, files, info).Ok?
    ensures r.Err? ==> r.fault == KeyError
    ensures r.Ok? ==> |r.value| == |seasons|
    ensures r.Ok? ==> forall i :: 0 <= i < |seasons| ==>
      r.value[i] == seasons[i].(episodes := BindEpisodes(finder, imdbId, seasons[i].number, seasons[i].episodes, files, info).value)
  {
    if forall i :: 0 <= i < |seasons| ==> BindEpisodes(finder, imdbId, seasons[i].number, seasons[i].episodes, files, info).Ok? then
      Ok(seq(|seasons|, i requires 0 <= i < |seasons| =>
        seasons[i].(episodes := BindEpisodes(finder, imdbId, seasons[i].number, seasons[i].episodes, files, info).value)))
    else
      Err(KeyError)
  }

  /** A movie or episode: the first picked file, `IndexError` when there is none, then `KeyError` from its name or the info. */
  function BindSingle(item: MediaItem, files: seq<FileRecord>, info: Option<TorrentInfo>): (r: Result<MediaItem>)
    ensures files == [] ==> r == Err(IndexError)
    ensures files != [] && (info.None? || files[0].RawFile?) ==> r == Err(KeyError)
    ensures files != [] && info.Some? && files[0].FileRecord? ==>
            r.Ok? && r.value == item.(binding := r.value.binding) &&
            r.value.binding == Binding(Some(info.value.filename), Some(info.value.originalFilename), Some(BaseName(files[0].filename)))
  {
    if files == [] then Err(IndexError)
    else
      match BindFile(info, files[0])
      case Err(f) => Err(f)
      case Ok(b) => Ok(item.(binding := b))
  }

  /**
   `set_active_files(item, torrent_id, container)`: an empty container is
   replaced by the finder's pick among the torrent's raw files; then a movie
   or episode takes the first file the finder picks for it, and a show or
   season binds each episode the finder finds a file for. A missing info
   answer raises `KeyError` where it is first read; so does the name of a raw
   file; a movie or episode the finder rejects raises `IndexError`.
   */
  function SetActiveFiles(p: Provider, finder: Finder, item: MediaItem, id: Option<TorrentId>, container: seq<FileRecord>): (r: Result<MediaItem>)
    ensures r.Ok? ==> r.value.imdbId == item.imdbId && r.value.streams == item.streams &&
                      r.value.blacklist == item.blacklist && r.value.activeStream == item.activeStream
    ensures container == [] && GetTorrentInfo(p, id).None? ==> r == Err(KeyError)
    ensures r.Err? ==> r.fault == KeyError || r.fault == IndexError
    ensures container != [] && (item.kind.MovieKind? || item.kind.EpisodeKind?) ==>
            r == BindSingle(item, finder(TargetOf(item), container), GetTorrentInfo(p, id))
    ensures container != [] && item.kind.SeasonKind? ==>
            var b := BindEpisodes(finder, item.imdbId, item.kind.number, item.kind.episodes, finder(TargetOf(item), container), GetTorrentInfo(p, id));
            (r.Ok? <==> b.Ok?) && (r.Ok? ==> r.value == item.(kind := SeasonKind(item.kind.number, b.value)))
    ensures container != [] && item.kind.ShowKind? ==>
            var b := BindSeasons(finder, item.imdbId, item.kind.seasons, finder(TargetOf(item), container), GetTorrentInfo(p, id));
            (r.Ok? <==> b.Ok?) && (r.Ok? ==> r.value == item.(kind := ShowKind(b.value)))
  {
    var t := TargetOf(item);
    var info := GetTorrentInfo(p, id);
    var chosen: Result<seq<FileRecord>> :=
      if container != [] then Ok(container)
      else match info
        case None => Err(KeyError)
        case Some(i) => Ok(finder(t, RawRecords(i.files)));
    match chosen
    case Err(f) => Err(f)
    case Ok(c) =>
      if c == [] then Ok(item)
      else
        var files := finder(t, c);
        match item.kind
        case MovieKind => BindSingle(item, files, info)
        case EpisodeKind(_, _) => BindSingle(item, files, info)
        case ShowKind(seasons) =>
          (match BindSeasons(finder, item.imdbId, seasons, files, info)
           case Err(f) => Err(f)
           case Ok(ss) => Ok(item.(kind := ShowKind(ss))))
        case SeasonKind(number, eps) =>
          (match BindEpisodes(finder, item.imdbId, number, eps, files, info)
           case Err(f) => Err(f)
           case Ok(es) => Ok(item.(kind := SeasonKind(number, es))))
  }

  /** Every record the finder can pick for an episode out of `files` carries a name. */
  lemma PicksOfNamedAreNamed(finder: Finder, t: Target, xs: seq<FileRecord>)
    requires PicksFromInput(finder) && AllNamed(xs)
    ensures AllNamed(finder(t, xs))
  {
    forall k | 0 <= k < |finder(t, xs)|
      ensures finder(t, xs)[k].FileRecord?
    {
      assert finder(t, xs)[k] in xs;
    }
  }

  /**
   A movie or episode given a container of named records, with the torrent's
   info at hand, is bound to the first file the finder picks from the
   container, or raises `IndexError` when it picks none.
   */
  lemma SingleBindsFirstPick(p: Provider, finder: Finder, item: MediaItem, id: Option<TorrentId>, container: seq<FileRecord>)
    requires item.kind.MovieKind? || item.kind.EpisodeKind?
    requires container != [] && AllNamed(container) && PicksFromInput(finder)
    requires GetTorrentInfo(p, id).Some?
    ensures var files := finder(TargetOf(item), container);
            var info := GetTorrentInfo(p, id).value;
            var r := SetActiveFiles(p, finder, item, id, container);
            (files == [] ==> r == Err(IndexError)) &&
            (files != [] ==> r == Ok(item.(binding := Binding(Some(info.filename), Some(info.originalFilename), Some(BaseName(files[0].filename))))))
  {
    PicksOfNamedAreNamed(finder, TargetOf(item), container);
  }

  /**
   On the path where the container is empty, the finder picks among the
   info endpoint's raw file dicts, which have no `filename` key: a movie or
   episode whose pick is non-empty raises `KeyError` reading its name.
   */
  lemma RawContainerRaises(p: Provider, finder: Finder, item: MediaItem, id: Option<TorrentId>)
    requires item.kind.MovieKind? || item.kind.EpisodeKind?
    requires PicksFromInput(finder)
    requires GetTorrentInfo(p, id).Some?
    ensures var c := finder(TargetOf(item), RawRecords(GetTorrentInfo(p, id).value.files));
            var r := SetActiveFiles(p, finder, item, id, []);
            (c == [] ==> r == Ok(item)) &&
            (c != [] && finder(TargetOf(item), c) == [] ==> r == Err(IndexError)) &&
            (c != [] && finder(TargetOf(item), c) != [] ==> r == Err(KeyError))
  {
  }

  /** No record of the list carries a name: all are raw file dicts of the info endpoint. */
  predicate NoneNamed(files: seq<FileRecord>) {
    forall i :: 0 <= i < |files| ==> files[i].RawFile?
  }

  /** The finder finds a file for some episode of the list. */
  predicate AnyEpisodePicked(finder: Finder, imdbId: string, seasonNumber: int, eps: seq<Episode>, files: seq<FileRecord>) {
    exists i :: 0 <= i < |eps| && EpisodeFile(finder, imdbId, seasonNumber, eps[i], files).Some?
  }

  /** The finder finds a file for some episode of some season. */
  predicate AnySeasonPicked(finder: Finder, imdbId: string, seasons: seq<Season>, files: seq<FileRecord>) {
    exists i :: 0 <= i < |seasons| && AnyEpisodePicked(finder, imdbId, seasons[i].number, seasons[i].episodes, files)
  }

  /**
   The episode loop over raw records with the info at hand: it raises
   `KeyError` exactly when the finder picks a file for some episode, and
   otherwise leaves every episode as it was.
   */
  lemma RawEpisodeLoop(finder: Finder, imdbId: string, seasonNumber: int, eps: seq<Episode>, files: seq<FileRecord>, info: TorrentInfo)
    requires PicksFromInput(finder) && NoneNamed(files)
    ensures BindEpisodes(finder, imdbId, seasonNumber, eps, files, Some(info)) ==
            if AnyEpisodePicked(finder, imdbId, seasonNumber, eps, files) then Err(KeyError) else Ok(eps)
  {
    var r := BindEpisodes(finder, imdbId, seasonNumber, eps, files, Some(info));
    if AnyEpisodePicked(finder, imdbId, seasonNumber, eps, files) {
      var i :| 0 <= i < |eps| && EpisodeFile(finder, imdbId, seasonNumber, eps[i], files).Some?;
      var found := finder(EpisodeTarget(imdbId, seasonNumber, eps[i]), files);
      assert found[0] in files;
      assert Unbindable(finder, imdbId, seasonNumber, eps[i], files, Some(info));
    } else {
      assert r.Ok?;
      assert r.value == eps;
    }
  }

  /**
   A season on the raw path, with the info at hand: the finder's pick among
   the torrent's raw files is used as the container, and since none of
   those files has a name the season raises `KeyError` exactly when some
   episode gets a file; otherwise it comes back unchanged.
   */
  lemma RawSeasonRaisesOnAnyPick(p: Provider, finder: Finder, item: MediaItem, id: Option<TorrentId>)
    requires item.kind.SeasonKind? && PicksFromInput(finder)
    requires GetTorrentInfo(p, id).Some?
    ensures var c := finder(TargetOf(item), RawRecords(GetTorrentInfo(p, id).value.files));
            SetActiveFiles(p, finder, item, id, []) ==
              if c != [] && AnyEpisodePicked(finder, item.imdbId, item.kind.number, item.kind.episodes, finder(TargetOf(item), c))
              then Err(KeyError) else Ok(item)
  {
    var raw := RawRecords(GetTorrentInfo(p, id).value.files);
    var c := finder(TargetOf(item), raw);
    if c != [] {
      PicksOfRawAreRaw(finder, TargetOf(item), raw);
      PicksOfRawAreRaw(finder, TargetOf(item), c);
      RawEpisodeLoop(finder, item.imdbId, item.kind.number, item.kind.episodes, finder(TargetOf(item), c), GetTorrentInfo(p, id).value);
    }
  }

  /**
   A show on the raw path, with the info at hand: it raises `KeyError`
   exactly when some episode of some season gets a file, and otherwise
   comes back unchanged.
   */
  lemma RawShowRaisesOnAnyPick(p: Provider, finder: Finder, item: MediaItem, id: Option<TorrentId>)
    requires item.kind.ShowKind? && PicksFromInput(finder)
    requires GetTorrentInfo(p, id).Some?
    ensures var c := finder(TargetOf(item), RawRecords(GetTorrentInfo(p, id).value.files));
            var seasons := item.kind.seasons;
            SetActiveFiles(p, finder, item, id, []) ==
              if c != [] && AnySeasonPicked(finder, item.imdbId, seasons, finder(TargetOf(item), c))
              then Err(KeyError) else Ok(item)
  {
    var raw := RawRecords(GetTorrentInfo(p, id).value.files);
    var c := finder(TargetOf(item), raw);
    var seasons := item.kind.seasons;
    if c != [] {
      var files := finder(TargetOf(item), c);
      var info := GetTorrentInfo(p, id).value;
      PicksOfRawAreRaw(finder, TargetOf(item), raw);
      PicksOfRawAreRaw(finder, TargetOf(item), c);
      forall i | 0 <= i < |seasons|
        ensures BindEpisodes(finder, item.imdbId, seasons[i].number, seasons[i].episodes, files, Some(info)) ==
                if AnyEpisodePicked(finder, item.imdbId, seasons[i].number, seasons[i].episodes, files) then Err(KeyError)
                else Ok(seasons[i].episodes)
      {
        RawEpisodeLoop(finder, item.imdbId, seasons[i].number, seasons[i].episodes, files, info);
      }
      var b := BindSeasons(finder, item.imdbId, seasons, files, Some(info));
      if b.Ok? {
        assert b.value == seasons;
      }
    }
  }

  /** Every record the finder picks out of raw records is raw. */
  lemma PicksOfRawAreRaw(finder: Finder, t: Target, xs: seq<FileRecord>)
    requires PicksFromInput(finder) && NoneNamed(xs)
    ensures NoneNamed(finder(t, xs))
  {
    forall k | 0 <= k < |finder(t, xs)|
      ensures finder(t, xs)[k].RawFile?
    {
      assert finder(t, xs)[k] in xs;
    }
  }

  /** Every episode the finder finds a file for gets a named record when the container is named. */
  lemma EpisodePicksNamed(finder: Finder, imdbId: string, seasonNumber: int, eps: seq<Episode>, files: seq<FileRecord>)
    requires PicksFromInput(finder) && AllNamed(files)
    ensures forall i :: 0 <= i < |eps| && EpisodeFile(finder, imdbId, seasonNumber, eps[i], files).Some? ==>
              EpisodeFile(finder, imdbId, seasonNumber, eps[i], files).value.FileRecord?
  {
    forall i | 0 <= i < |eps| && EpisodeFile(finder, imdbId, seasonNumber, eps[i], files).Some?
      ensures EpisodeFile(finder, imdbId, seasonNumber, eps[i], files).value.FileRecord?
    {
      PicksOfNamedAreNamed(finder, EpisodeTarget(imdbId, seasonNumber, eps[i]), files);
    }
  }

  /** The episodes of a list that the finder matches get their file and the torrent's folder; every other one is untouched. */
  ghost predicate BindsOnlyMatched(finder: Finder, imdbId: string, seasonNumber: int, eps: seq<Episode>, files: seq<FileRecord>,
                                   info: TorrentInfo, bound: seq<Episode>) {
    |bound| == |eps| &&
    forall i :: 0 <= i < |eps| ==>
      (EpisodeFile(finder, imdbId, seasonNumber, eps[i], files).None? ==> bound[i] == eps[i]) &&
      (EpisodeFile(finder, imdbId, seasonNumber, eps[i], files).Some? ==>
         bound[i].number == eps[i].number &&
         bound[i].binding.folder == Some(info.filename) &&
         EpisodeFile(finder, imdbId, seasonNumber, eps[i], files).value.FileRecord? &&
         bound[i].binding.file == Some(BaseName(EpisodeFile(finder, imdbId, seasonNumber, eps[i], files).value.filename)))
  }

  /** With info and named records, the episode loop never raises, and it binds exactly the matched episodes. */
  lemma EpisodeLoopBindsOnlyMatched(finder: Finder, imdbId: string, seasonNumber: int, eps: seq<Episode>, files: seq<FileRecord>, info: TorrentInfo)
    requires PicksFromInput(finder) && AllNamed(files)
    ensures BindEpisodes(finder, imdbId, seasonNumber, eps, files, Some(info)).Ok?
    ensures BindsOnlyMatched(finder, imdbId, seasonNumber, eps, files, info, BindEpisodes(finder, imdbId, seasonNumber, eps, files, Some(info)).value)
  {
    EpisodePicksNamed(finder, imdbId, seasonNumber, eps, files);
  }

  /** For a season given named records and with info, exactly the matched episodes are bound. */
  lemma SeasonBindsOnlyMatchedEpisodes(p: Provider, finder: Finder, item: MediaItem, id: Option<TorrentId>, container: seq<FileRecord>)
    requires item.kind.SeasonKind? && container != [] && AllNamed(container) && PicksFromInput(finder)
    requires GetTorrentInfo(p, id).Some?
    ensures SetActiveFiles(p, finder, item, id, container).Ok?
    ensures var r := SetActiveFiles(p, finder, item, id, container).value;
            r.kind.SeasonKind? && r.kind.number == item.kind.number &&
            BindsOnlyMatched(finder, item.imdbId, item.kind.number, item.kind.episodes, finder(TargetOf(item), container),
                             GetTorrentInfo(p, id).value, r.kind.episodes)
  {
    var files := finder(TargetOf(item), container);
    PicksOfNamedAreNamed(finder, TargetOf(item), container);
    EpisodeLoopBindsOnlyMatched(finder, item.imdbId, item.kind.number, item.kind.episodes, files, GetTorrentInfo(p, id).value);
  }

  /** For a show given named records and with info, every season keeps its number and exactly its matched episodes are bound. */
  lemma ShowBindsOnlyMatchedEpisodes(p: Provider, finder: Finder, item: MediaItem, id: Option<TorrentId>, container: seq<FileRecord>)
    requires item.kind.ShowKind? && container != [] && AllNamed(container) && PicksFromInput(finder)
    requires GetTorrentInfo(p, id).Some?
    ensures SetActiveFiles(p, finder, item, id, container).Ok?
    ensures var r := SetActiveFiles(p, finder, item, id, container).value;
            var seasons := item.kind.seasons;
            r.kind.ShowKind? && |r.kind.seasons| == |seasons| &&
            forall i :: 0 <= i < |seasons| ==>
              r.kind.seasons[i].number == seasons[i].number &&
              BindsOnlyMatched(finder, item.imdbId, seasons[i].number, seasons[i].episodes, finder(TargetOf(item), container),
                               GetTorrentInfo(p, id).value, r.kind.seasons[i].episodes)
  {
    var files := finder(TargetOf(item), container);
    var info := GetTorrentInfo(p, id).value;
    var seasons := item.kind.seasons;
    PicksOfNamedAreNamed(finder, TargetOf(item), container);
    forall i | 0 <= i < |seasons|
      ensures BindEpisodes(finder, item.imdbId, seasons[i].number, seasons[i].episodes, files, Some(info)).Ok?
      ensures BindsOnlyMatched(finder, item.imdbId, seasons[i].number, seasons[i].episodes, files, info,
                               BindEpisodes(finder, item.imdbId, seasons[i].number, seasons[i].episodes, files, Some(info)).value)
    {
      EpisodeLoopBindsOnlyMatched(finder, item.imdbId, seasons[i].number, seasons[i].episodes, files, info);
    }
  }

  // ---------------------------------------------------------------- downloads

  /** The result of a download and the account-changing requests it sent, in order. */
  datatype Outcome = Outcome(result: Result<MediaItem>, calls: seq<Call>)

  /** A torrent id the code treats as present: Python truthiness of the returned value. */
  predicate Truthy(id: Option<TorrentId>) {
    id.Some? && id.value != ""
  }

  /** The reuse check found a torrent to bind to. */
  predicate Reusable(p: Provider, finder: Finder, item: MediaItem, h: Hash) {
    var r := TorrentIsDownloaded(p, finder, TargetOf(item), h);
    r.Ok? && Truthy(r.value)
  }

  /**
   `download(item, hash, container)`: reuse the account's torrent when the
   finder still accepts it; otherwise add the magnet, select the container's
   files on the new torrent, and bind.
   */
  function Download(p: Provider, finder: Finder, item: MediaItem, h: Hash, container: seq<FileRecord>): (o: Outcome)
    ensures Reusable(p, finder, item, h) ==> o.calls == []
    ensures TorrentIsDownloaded(p, finder, TargetOf(item), h).Err? ==> o.calls == [] && o.result.Err?
    ensures o.calls != [] ==> o.calls == [AddMagnet(h), SelectFiles(p.addMagnet(h), SelectPayload(container))]
    ensures TorrentIsDownloaded(p, finder, TargetOf(item), h).Ok? && !Reusable(p, finder, item, h) ==> o.calls != []
    ensures Reusable(p, finder, item, h) ==>
            o.result == SetActiveFiles(p, finder, item, TorrentIsDownloaded(p, finder, TargetOf(item), h).value, container)
    ensures o.calls != [] ==> o.result == SetActiveFiles(p, finder, item, p.addMagnet(h), container)
  {
    match TorrentIsDownloaded(p, finder, TargetOf(item), h)
    case Err(f) => Outcome(Err(f), [])
    case Ok(id) =>
      if Truthy(id) then Outcome(SetActiveFiles(p, finder, item, id, container), [])
      else
        var added := p.addMagnet(h);
        Outcome(SetActiveFiles(p, finder, item, added, container),
                [AddMagnet(h), SelectFiles(added, SelectPayload(container))])
  }

  /**
   `download_cached(item, hash)`: reuse the account's torrent or add the
   magnet; read the torrent's files, let the finder pick, select the picked
   files only on a torrent just added, and bind.
   */
  function DownloadCached(p: Provider, finder: Finder, item: MediaItem, h: Hash): (o: Outcome)
    ensures Reusable(p, finder, item, h) ==> o.calls == []
    ensures TorrentIsDownloaded(p, finder, TargetOf(item), h).Err? ==> o == Outcome(Err(KeyError), [])
    ensures TorrentIsDownloaded(p, finder, TargetOf(item), h).Ok? && !Reusable(p, finder, item, h) ==>
            1 <= |o.calls| && o.calls[0] == AddMagnet(h)
    ensures 1 <= |o.calls| ==> o.calls[0] == AddMagnet(h) && !Reusable(p, finder, item, h)
    ensures |o.calls| <= 2 && forall i :: 1 <= i < |o.calls| ==> o.calls[i].SelectFiles?
    ensures TorrentIsDownloaded(p, finder, TargetOf(item), h).Ok? ==>
            var id := if Reusable(p, finder, item, h) then TorrentIsDownloaded(p, finder, TargetOf(item), h).value else p.addMagnet(h);
            (GetTorrentInfo(p, id).None? ==> o.result == Err(KeyError)) &&
            (GetTorrentInfo(p, id).Some? ==>
               var container := finder(TargetOf(item), NamedRecords(GetTorrentInfo(p, id).value.files));
               o.result == SetActiveFiles(p, finder, item, id, container) &&
               (!Reusable(p, finder, item, h) ==> o.calls == [AddMagnet(h), SelectFiles(id, SelectPayload(container))]))
  {
    var t := TargetOf(item);
    match TorrentIsDownloaded(p, finder, t, h)
    case Err(f) => Outcome(Err(f), [])
    case Ok(existing) =>
      var addedMagnet := !Truthy(existing);
      var id := if addedMagnet then p.addMagnet(h) else existing;
      var magnetCalls := if addedMagnet then [AddMagnet(h)] else [];
      match GetTorrentInfo(p, id)
      case None => Outcome(Err(KeyError), magnetCalls)
      case Some(info) =>
        var container := finder(t, NamedRecords(info.files));
        var selectCalls := if addedMagnet then [SelectFiles(id, SelectPayload(container))] else [];
        Outcome(SetActiveFiles(p, finder, item, id, container), magnetCalls + selectCalls)
  }

  /**
   `download_cached` is `download` with the container the finder picks from
   the bound torrent's files: the same requests and the same binding,
   whenever that torrent's info is at hand.
   */
  lemma DownloadCachedIsDownloadOfPick(p: Provider, finder: Finder, item: MediaItem, h: Hash)
    requires TorrentIsDownloaded(p, finder, TargetOf(item), h).Ok?
    ensures var id := if Reusable(p, finder, item, h) then TorrentIsDownloaded(p, finder, TargetOf(item), h).value else p.addMagnet(h);
            GetTorrentInfo(p, id).Some? ==>
            DownloadCached(p, finder, item, h) ==
            Download(p, finder, item, h, finder(TargetOf(item), NamedRecords(GetTorrentInfo(p, id).value.files)))
  {
  }

  /** `download_cached` selects files only on a torrent it added itself, and then right after adding it. */
  lemma DownloadCachedSelectsOnlyAdded(p: Provider, finder: Finder, item: MediaItem, h: Hash)
    ensures var calls := DownloadCached(p, finder, item, h).calls;
            forall i :: 0 <= i < |calls| && calls[i].SelectFiles? ==> i == 1 && calls[0] == AddMagnet(h)
  {
  }

  // ---------------------------------------------------------------- the stream loop

  /** The cache check `run` makes for one stream: `is_cached(item, [hash], True)` is non-empty. */
  predicate Cached(p: Provider, finder: Finder, t: Target, h: Hash) {
    CachedFiles(finder, t, Lists(GetInstantAvailability([h], p).answer), true) != map[]
  }

  /** A stream `run` would download: not blacklisted to begin with, and cached. */
  predicate Eligible(p: Provider, finder: Finder, item: MediaItem, s: Stream) {
    !IsBlacklisted(item, s) && Cached(p, finder, TargetOf(item), s.infohash)
  }

  /** The first eligible stream at or after position `i`. */
  function EligibleFrom(p: Provider, finder: Finder, item: MediaItem, i: nat): Option<nat>
    requires i <= |item.streams|
  {
    FirstIndex(item.streams, (s: Stream) => Eligible(p, finder, item, s), i)
  }

  /** The reference choice of `run`: the first eligible stream. */
  function Pick(p: Provider, finder: Finder, item: MediaItem): Option<nat> {
    EligibleFrom(p, finder, item, 0)
  }

  /** `is_cached(item, [hash], True)`: at most the one accepted container of the hash, and one exactly when it is cached. */
  method CheckCached(p: Provider, finder: Finder, t: Target, h: Hash) returns (found: map<Hash, seq<FileRecord>>)
    ensures found != map[] <==> Cached(p, finder, t, h)
    ensures found == CachedFiles(finder, t, Lists(GetInstantAvailability([h], p).answer), true)
  {
    var probes;
    found, probes := IsCached(p, finder, t, [h], true);
  }

  /** Every hash in `hs` is one `run` found uncached. */
  ghost predicate AllUncached(p: Provider, finder: Finder, t: Target, hs: set<Hash>) {
    forall h :: h in hs ==> !Cached(p, finder, t, h)
  }

  /**
   The loop of `run(item)`: walk the streams in order, skip blacklisted
   ones, stop at the first whose single-hash cache check is non-empty, and
   blacklist each uncached stream on the way. Returns the blacklist
   afterwards, the position of the stream it stopped at, and that stream's
   cache answer.
   */
  method Scan(p: Provider, finder: Finder, item: MediaItem)
    returns (blacklist: set<Hash>, chosen: Option<nat>, found: map<Hash, seq<FileRecord>>)
    ensures chosen == Pick(p, finder, item)
    ensures chosen.None? ==> blacklist == item.blacklist + StreamHashes(item.streams)
    ensures chosen.Some? ==> chosen.value < |item.streams| &&
                             blacklist == item.blacklist + StreamHashes(item.streams[..chosen.value])
    ensures chosen.Some? ==> item.streams[chosen.value].infohash !in blacklist && found != map[]
    ensures chosen.Some? ==>
      found == CachedFiles(finder, TargetOf(item), Lists(GetInstantAvailability([item.streams[chosen.value].infohash], p).answer), true)
  {
    var t := TargetOf(item);
    var ss := item.streams;
    blacklist := item.blacklist;
    chosen := None;
    found := map[];
    var i := 0;
    ghost var pick := Pick(p, finder, item);
    while i < |ss|
      invariant 0 <= i <= |ss|
      invariant blacklist == item.blacklist + StreamHashes(ss[..i])
      invariant AllUncached(p, finder, t, blacklist - item.blacklist)
      invariant pick == EligibleFrom(p, finder, item, i)
    {
      var s := ss[i];
      StreamHashesSnoc(ss, i);
      if s.infohash in blacklist {
        SkipBlacklisted(p, finder, item, blacklist, i);
      } else {
        found := CheckCached(p, finder, t, s.infohash);
        if found != map[] {
          ChooseCached(p, finder, item, blacklist, i);
          chosen := Some(i);
          return;
        }
        SkipUncached(p, finder, item, blacklist, i);
        blacklist := BlacklistStream(item.(blacklist := blacklist), s).blacklist;
      }
      i := i + 1;
    }
    NoEligible(p, finder, item);
  }

  /**
   `run(item)`: download the first stream `Scan` stops at, with the
   blacklist as the scan left it. Returns the result (a raised exception
   escapes as `Err`), the item afterwards, the requests sent, and the
   position of the stream chosen.
   */
  method Run(p: Provider, finder: Finder, item: MediaItem)
    returns (result: Result<bool>, after: MediaItem, calls: seq<Call>, chosen: Option<nat>)
    ensures chosen == Pick(p, finder, item)
    ensures chosen.None? ==> result == Ok(false) && calls == [] &&
                             after == item.(blacklist := item.blacklist + StreamHashes(item.streams))
    ensures chosen.Some? ==> result != Ok(false)
    ensures chosen.Some? ==> after.blacklist == item.blacklist + StreamHashes(item.streams[..chosen.value])
    ensures chosen.Some? ==>
            var h := item.streams[chosen.value].infohash;
            (result, after, calls) ==
            DownloadChosen(p, finder, item.(blacklist := item.blacklist + StreamHashes(item.streams[..chosen.value])), h,
                           CachedFiles(finder, TargetOf(item), Lists(GetInstantAvailability([h], p).answer), true))
    ensures after.streams == item.streams && after.imdbId == item.imdbId
  {
    var blacklist, found;
    blacklist, chosen, found := Scan(p, finder, item);
    var scanned := item.(blacklist := blacklist);
    if chosen.None? {
      return Ok(false), scanned, [], chosen;
    }
    var d := DownloadChosen(p, finder, scanned, item.streams[chosen.value].infohash, found);
    result, after, calls := d.0, d.1, d.2;
  }

  /**
   The download `run` starts for the chosen stream: `download` with the
   container found for its hash; reading a hash the answer did not key
   raises `KeyError`.
   */
  function DownloadChosen(p: Provider, finder: Finder, item: MediaItem, h: Hash, found: map<Hash, seq<FileRecord>>)
    : (r: (Result<bool>, MediaItem, seq<Call>))
    ensures r.0 != Ok(false)
    ensures r.0 == Ok(true) <==> h in found && Download(p, finder, item, h, found[h]).result.Ok?
    ensures r.1.streams == item.streams && r.1.imdbId == item.imdbId && r.1.blacklist == item.blacklist
    ensures h !in found ==> r == (Err(KeyError), item, [])
    ensures h in found ==> r.2 == Download(p, finder, item, h, found[h]).calls
    ensures h in found && Download(p, finder, item, h, found[h]).result.Ok? ==>
              r == (Ok(true), Download(p, finder, item, h, found[h]).result.value, Download(p, finder, item, h, found[h]).calls)
    ensures h in found && Download(p, finder, item, h, found[h]).result.Err? ==>
              r == (Err(Download(p, finder, item, h, found[h]).result.fault), item, Download(p, finder, item, h, found[h]).calls)
  {
    if h !in found then (Err(KeyError), item, [])
    else
      var o := Download(p, finder, item, h, found[h]);
      match o.result
      case Ok(bound) => (Ok(true), bound, o.calls)
      case Err(f) => (Err(f), item, o.calls)
  }

  /** A stream whose hash is already in the running blacklist is not eligible. */
  lemma SkipBlacklisted(p: Provider, finder: Finder, item: MediaItem, blacklist: set<Hash>, i: nat)
    requires i < |item.streams| && item.streams[i].infohash in blacklist
    requires AllUncached(p, finder, TargetOf(item), blacklist - item.blacklist)
    ensures EligibleFrom(p, finder, item, i) == EligibleFrom(p, finder, item, i + 1)
  {
    var s := item.streams[i];
    if s.infohash !in item.blacklist {
      assert s.infohash in blacklist - item.blacklist;
    }
    assert !Eligible(p, finder, item, s);
  }

  /** A stream not in the running blacklist whose cache check came back empty is not eligible. */
  lemma SkipUncached(p: Provider, finder: Finder, item: MediaItem, blacklist: set<Hash>, i: nat)
    requires i < |item.streams|
    requires !Cached(p, finder, TargetOf(item), item.streams[i].infohash)
    requires AllUncached(p, finder, TargetOf(item), blacklist - item.blacklist)
    ensures EligibleFrom(p, finder, item, i) == EligibleFrom(p, finder, item, i + 1)
    ensures AllUncached(p, finder, TargetOf(item), (blacklist + {item.streams[i].infohash}) - item.blacklist)
  {
    assert !Eligible(p, finder, item, item.streams[i]);
  }

  /** A stream outside the running blacklist whose cache check is non-empty is the one `run` picks. */
  lemma ChooseCached(p: Provider, finder: Finder, item: MediaItem, blacklist: set<Hash>, i: nat)
    requires i < |item.streams| && item.streams[i].infohash !in blacklist
    requires item.blacklist <= blacklist
    requires Cached(p, finder, TargetOf(item), item.streams[i].infohash)
    ensures EligibleFrom(p, finder, item, i) == Some(i)
  {
    assert Eligible(p, finder, item, item.streams[i]);
  }

  /** Past the last stream there is nothing left to pick. */
  lemma NoEligible(p: Provider, finder: Finder, item: MediaItem)
    ensures EligibleFrom(p, finder, item, |item.streams|) == None
    ensures item.streams[..|item.streams|] == item.streams
  {
  }
}

=== FILE: settings.dfy ===
/**
 The settings tree as a JSON-like value and the environment override pass
 run over it at start-up: every leaf may be replaced by an environment
 variable named after its path, coerced to the type of the value it
 replaces.
 */
module SettingsEnv {
  import opened Common
  import opened Strings

  /** A JSON value as the settings dict holds it; a dict keeps its keys in insertion order. */
  datatype Setting =
    | Dict(entries: seq<Entry>)
    | BoolValue(b: bool)
    | IntValue(i: int)
    | FloatValue(x: real)
    | ListValue(items: seq<Setting>)
    | StrValue(s: string)
    | NullValue

  datatype Entry = Entry(key: string, value: Setting)

  /** `isinstance(v, int)`: a bool is an int in Python. */
  predicate IsPyInt(v: Setting) {
    v.IntValue? || v.BoolValue?
  }

  /** The integer value of an int-like setting, `True` being 1. */
  function PyIntValue(v: Setting): int
    requires IsPyInt(v)
  {
    if v.IntValue? then v.i else if v.b then 1 else 0
  }

  /** The process environment, `None` for an unset variable. */
  type Env = string -> Option<string>

  /**
   The text parsers the override pass calls: `int()`, `float()` and
   `json.loads`, each `None` where it would raise.
   */
  datatype Parsers = Parsers(
    parseInt: string -> Option<int>,
    parseFloat: string -> Option<real>,
    parseJson: string -> Option<Setting>)

  /** `os.getenv(name)` is truthy: set and non-empty. */
  predicate IsSet(env: Env, name: string) {
    env(name).Some? && env(name).value != ""
  }

  /** The variable that overrides leaf `key` under `prefix`; the separator is always '_'. */
  function EnvName(prefix: string, key: string): string {
    Upper(prefix + "_" + key)
  }

  /** The text a bool leaf accepts as true. */
  predicate IsTrueText(raw: string) {
    Lower(raw) == "true" || raw == "1"
  }

  /** The replacement for leaf `current` read from the text `raw`, by the type of `current`. */
  function Coerce(current: Setting, raw: string, p: Parsers): (r: Result<Setting>)
    requires !current.Dict?
    ensures current.BoolValue? ==> r == Ok(BoolValue(IsTrueText(raw)))
    ensures current.IntValue? ==> (r.Ok? <==> p.parseInt(raw).Some?) && (r.Ok? ==> r.value == IntValue(p.parseInt(raw).value))
    ensures current.FloatValue? ==> (r.Ok? <==> p.parseFloat(raw).Some?) && (r.Ok? ==> r.value == FloatValue(p.parseFloat(raw).value))
    ensures current.ListValue? ==> (r.Ok? <==> p.parseJson(raw).Some?) && (r.Ok? ==> r.value == p.parseJson(raw).value)
    ensures current.StrValue? || current.NullValue? ==> r == Ok(StrValue(raw))
  {
    match current
    case BoolValue(_) => Ok(BoolValue(IsTrueText(raw)))
    case IntValue(_) =>
      (match p.parseInt(raw)
       case None => Err(ValueError)
       case Some(n) => Ok(IntValue(n)))
    case FloatValue(_) =>
      (match p.parseFloat(raw)
       case None => Err(ValueError)
       case Some(x) => Ok(FloatValue(x)))
    case ListValue(_) =>
      (match p.parseJson(raw)
       case None => Err(ValueError)
       case Some(v) => Ok(v))
    case _ => Ok(StrValue(raw))
  }

  /** One leaf: overridden when its variable is set and non-empty, kept otherwise. */
  function CheckLeaf(current: Setting, name: string, env: Env, p: Parsers): (r: Result<Setting>)
    requires !current.Dict?
    ensures !IsSet(env, name) ==> r == Ok(current)
    ensures IsSet(env, name) ==> r == Coerce(current, env(name).value, p)
  {
    if IsSet(env, name) then Coerce(current, env(name).value, p) else Ok(current)
  }

  /**
   `b` has the keys of `a`, in the same order, and every nested dict of `a`
   is a dict of the same shape in `b`. (A list leaf overridden with a JSON
   object becomes a dict, so the converse does not hold.)
   */
  predicate SameShape(a: seq<Entry>, b: seq<Entry>)
    decreases a
  {
    |a| == |b| &&
    forall i :: 0 <= i < |a| ==>
      a[i].key == b[i].key &&
      (a[i].value.Dict? ==> b[i].value.Dict? && SameShape(a[i].value.entries, b[i].value.entries))
  }

  /**
   `check_environment(settings, prefix, separator)`: a nested dict recurses
   with prefix `prefix + separator + key` and the default separator '_';
   a leaf is read from `EnvName(prefix, key)`. The first failing coercion
   escapes.
   */
  function CheckEnvironment(entries: seq<Entry>, prefix: string, separator: string, env: Env, p: Parsers): (r: Result<seq<Entry>>)
    ensures r.Ok? ==> SameShape(entries, r.value)
    ensures r.Ok? ==> forall i :: 0 <= i < |entries| && !entries[i].value.Dict? ==>
      CheckLeaf(entries[i].value, EnvName(prefix, entries[i].key), env, p) == Ok(r.value[i].value)
    decreases entries
  {
    if entries == [] then Ok([])
    else
      var e := entries[0];
      var head :=
        if e.value.Dict? then
          (match CheckEnvironment(e.value.entries, prefix + separator + e.key, "_", env, p)
           case Err(f) => Err(f)
           case Ok(sub) =>
             assert SameShape(e.value.entries, sub);
             Ok(Dict(sub)))
        else CheckLeaf(e.value, EnvName(prefix, e.key), env, p);
      match head
      case Err(f) => Err(f)
      case Ok(v) =>
        match CheckEnvironment(entries[1..], prefix, separator, env, p)
        case Err(f) => Err(f)
        case Ok(rest) =>
          var out := [Entry(e.key, v)] + rest;
          assert e.value.Dict? ==> SameShape(e.value.entries, v.entries);
          assert forall i :: 1 <= i < |entries| ==> entries[i] == entries[1..][i - 1] && out[i] == rest[i - 1];
          Ok(out)
  }

  /**
   Every leaf of the tree, at any depth, paired with the variable that
   overrides it, in the order the pass visits them. Below the top level the
   name joins the levels with '_', whatever separator the top call was given.
   */
  function Leaves(entries: seq<Entry>, prefix: string, separator: string): (r: seq<(string, Setting)>)
    ensures forall k :: 0 <= k < |r| ==> !r[k].1.Dict?
    decreases entries
  {
    if entries == [] then []
    else
      var e := entries[0];
      (if e.value.Dict? then Leaves(e.value.entries, prefix + separator + e.key, "_")
       else [(EnvName(prefix, e.key), e.value)]) + Leaves(entries[1..], prefix, separator)
  }

  /** The values `b` holds where `a` has its leaves, `a` and `b` having the same shape. */
  function Replacements(a: seq<Entry>, b: seq<Entry>): seq<Setting>
    requires SameShape(a, b)
    decreases a
  {
    if a == [] then []
    else
      assert SameShape(a[1..], b[1..]) by {
        assert forall i :: 0 <= i < |a| - 1 ==> a[1..][i] == a[i + 1] && b[1..][i] == b[i + 1];
      }
      (if a[0].value.Dict? then Replacements(a[0].value.entries, b[0].value.entries) else [b[0].value]) +
      Replacements(a[1..], b[1..])
  }

  /** Every leaf's override goes through. */
  predicate LeavesCoerce(leaves: seq<(string, Setting)>, env: Env, p: Parsers) {
    forall k :: 0 <= k < |leaves| ==> !leaves[k].1.Dict? && CheckLeaf(leaves[k].1, leaves[k].0, env, p).Ok?
  }

  /** Each leaf's new value is what its own variable makes of it. */
  predicate LeavesBecome(leaves: seq<(string, Setting)>, values: seq<Setting>, env: Env, p: Parsers) {
    |values| == |leaves| &&
    forall k :: 0 <= k < |leaves| ==> !leaves[k].1.Dict? && CheckLeaf(leaves[k].1, leaves[k].0, env, p) == Ok(values[k])
  }

  lemma LeavesCoerceConcat(a: seq<(string, Setting)>, b: seq<(string, Setting)>, env: Env, p: Parsers)
    ensures LeavesCoerce(a + b, env, p) <==> LeavesCoerce(a, env, p) && LeavesCoerce(b, env, p)
  {
    assert forall k :: 0 <= k < |a| ==> (a + b)[k] == a[k];
    assert forall k :: 0 <= k < |b| ==> (a + b)[|a| + k] == b[k];
    if LeavesCoerce(a, env, p) && LeavesCoerce(b, env, p) {
      forall k | 0 <= k < |a + b|
        ensures !(a + b)[k].1.Dict? && CheckLeaf((a + b)[k].1, (a + b)[k].0, env, p).Ok?
      {
        if k >= |a| {
          assert (a + b)[k] == b[k - |a|];
        }
      }
    }
  }

  lemma LeavesBecomeConcat(a: seq<(string, Setting)>, va: seq<Setting>, b: seq<(string, Setting)>, vb: seq<Setting>, env: Env, p: Parsers)
    requires LeavesBecome(a, va, env, p) && LeavesBecome(b, vb, env, p)
    ensures LeavesBecome(a + b, va + vb, env, p)
  {
  }

  /**
   The override pass over the whole tree: it goes through exactly when every
   leaf, at any depth, coerces under its own variable, and then each leaf's
   new value is that coercion.
   */
  lemma {:induction false} CheckEnvironmentLeaves(entries: seq<Entry>, prefix: string, separator: string, env: Env, p: Parsers)
    ensures CheckEnvironment(entries, prefix, separator, env, p).Ok? <==> LeavesCoerce(Leaves(entries, prefix, separator), env, p)
    ensures CheckEnvironment(entries, prefix, separator, env, p).Err? ==> CheckEnvironment(entries, prefix, separator, env, p).fault == ValueError
    ensures CheckEnvironment(entries, prefix, separator, env, p).Ok? ==>
            LeavesBecome(Leaves(entries, prefix, separator),
                         Replacements(entries, CheckEnvironment(entries, prefix, separator, env, p).value), env, p)
    decreases entries
  {
    if entries != [] {
      var e := entries[0];
      var headLeaves := if e.value.Dict? then Leaves(e.value.entries, prefix + separator + e.key, "_")
                        else [(EnvName(prefix, e.key), e.value)];
      var tailLeaves := Leaves(entries[1..], prefix, separator);
      assert Leaves(entries, prefix, separator) == headLeaves + tailLeaves;
      LeavesCoerceConcat(headLeaves, tailLeaves, env, p);
      CheckEnvironmentLeaves(entries[1..], prefix, separator, env, p);
      if e.value.Dict? {
        CheckEnvironmentLeaves(e.value.entries, prefix + separator + e.key, "_", env, p);
      }
      var r := CheckEnvironment(entries, prefix, separator, env, p);
      if !e.value.Dict? {
        assert headLeaves[0] == (EnvName(prefix, e.key), e.value) && |headLeaves| == 1;
        assert LeavesCoerce(headLeaves, env, p) <==> CheckLeaf(e.value, EnvName(prefix, e.key), env, p).Ok?;
      }
      if r.Ok? {
        var out := r.value;
        var rest := CheckEnvironment(entries[1..], prefix, separator, env, p).value;
        assert out[1..] == rest;
        var headValues := if e.value.Dict? then Replacements(e.value.entries, out[0].value.entries) else [out[0].value];
        assert Replacements(entries, out) == headValues + Replacements(entries[1..], rest);
        LeavesBecomeConcat(headLeaves, headValues, tailLeaves, Replacements(entries[1..], rest), env, p);
      }
    }
  }

  /** Two levels down, the variable joins the top prefix, the given separator, the key, '_' and the inner key. */
  lemma NestedLeafName(prefix: string, separator: string, key: string, inner: string, leaf: Setting)
    requires !leaf.Dict?
    ensures Leaves([Entry(key, Dict([Entry(inner, leaf)]))], prefix, separator) ==
            [(Upper(prefix + separator + key + "_" + inner), leaf)]
  {
    var outer := [Entry(key, Dict([Entry(inner, leaf)]))];
    assert outer[1..] == [];
    assert [Entry(inner, leaf)][1..] == [];
    assert Leaves([Entry(inner, leaf)], prefix + separator + key, "_") == [(EnvName(prefix + separator + key, inner), leaf)] + Leaves([], prefix + separator + key, "_");
    assert Leaves(outer, prefix, separator) == Leaves([Entry(inner, leaf)], prefix + separator + key, "_") + Leaves([], prefix, separator);
    assert prefix + separator + key + "_" + inner == (prefix + separator + key) + "_" + inner;
  }

  /** No variable is set at all: nothing changes. */
  ghost predicate EmptyEnv(env: Env) {
    forall name :: !IsSet(env, name)
  }

  /** With an empty environment the override pass is the identity. */
  lemma {:induction false} CheckEnvironmentEmptyEnv(entries: seq<Entry>, prefix: string, separator: string, env: Env, p: Parsers)
    requires EmptyEnv(env)
    ensures CheckEnvironment(entries, prefix, separator, env, p) == Ok(entries)
    decreases entries
  {
    if entries != [] {
      var e := entries[0];
      if e.value.Dict? {
        CheckEnvironmentEmptyEnv(e.value.entries, prefix + separator + e.key, "_", env, p);
      }
      assert !IsSet(env, EnvName(prefix, e.key));
      CheckEnvironmentEmptyEnv(entries[1..], prefix, separator, env, p);
      assert [entries[0]] + entries[1..] == entries;
    }
  }

  lemma LowerOfUpper(s: string)
    ensures Lower(Upper(s)) == Lower(s)
  {
  }

  /** The bool coercion ignores the case of the variable's text. */
  lemma BoolCoercionIgnoresCase(b: bool, raw: string, p: Parsers)
    ensures Coerce(BoolValue(b), Upper(raw), p) == Coerce(BoolValue(b), raw, p)
    ensures Coerce(BoolValue(b), raw, p) == Ok(BoolValue(Lower(raw) == "true" || raw == "1"))
  {
    LowerOfUpper(raw);
    assert Upper(raw) == "1" <==> raw == "1";
  }
}

=== FILE: streams.dfy ===
/**
 A scraped torrent candidate attached to a media item (`Stream`): its
 construction from a ranked torrent and its identity, which is the infohash.
 */
module Streams {

  type Hash = string

  /** The database id of the media item a stream belongs to. */
  type ParentRef = int

  /** The ranked torrent a scraper produced. */
  datatype Torrent = Torrent(rawTitle: string, infohash: Hash, parsedTitle: string, rank: int, levRatio: real)

  datatype Stream = Stream(
    infohash: Hash,
    rawTitle: string,
    parsedTitle: string,
    rank: int,
    levRatio: real,
    blacklisted: bool,
    parent: ParentRef)

  /** Any Python value a stream can be compared with. */
  datatype PyObject = StreamObject(stream: Stream) | OtherObject

  /** `Stream(torrent, parent)`: copies the torrent's fields; a new stream is never blacklisted. */
  function NewStream(t: Torrent, parent: ParentRef): (s: Stream)
    ensures !s.blacklisted
    ensures s.rawTitle == t.rawTitle && s.infohash == t.infohash && s.parsedTitle == t.parsedTitle
    ensures s.rank == t.rank && s.levRatio == t.levRatio && s.parent == parent
  {
    Stream(t.infohash, t.rawTitle, t.parsedTitle, t.rank, t.levRatio, false, parent)
  }

  /** `Stream.__eq__`. */
  function Equals(self: Stream, other: PyObject): (r: bool)
    ensures r ==> other.StreamObject?
    ensures other.StreamObject? ==> (r <==> self.infohash == other.stream.infohash)
  {
    match other
    case StreamObject(s) => self.infohash == s.infohash
    case OtherObject => false
  }

  /** Stream equality is an equivalence relation on streams. */
  lemma EqualsIsEquivalence(a: Stream, b: Stream, c: Stream)
    ensures Equals(a, StreamObject(a))
    ensures Equals(a, StreamObject(b)) == Equals(b, StreamObject(a))
    ensures Equals(a, StreamObject(b)) && Equals(b, StreamObject(c)) ==> Equals(a, StreamObject(c))
  {
  }

  /** Only the infohash matters: streams that differ in title, rank, ratio, flag or parent compare by hash alone. */
  lemma EqualsIgnoresMetadata(a: Stream, b: Stream, title: string, rank: int, ratio: real, flag: bool, parent: ParentRef)
    ensures Equals(a, StreamObject(b.(rawTitle := title, rank := rank, levRatio := ratio, blacklisted := flag, parent := parent)))
            == Equals(a, StreamObject(b))
  {
  }

  /** Two streams built from torrents are equal exactly when the torrents carry the same infohash. */
  lemma NewStreamsEqualIff(t1: Torrent, t2: Torrent, p1: ParentRef, p2: ParentRef)
    ensures Equals(NewStream(t1, p1), StreamObject(NewStream(t2, p2))) <==> t1.infohash == t2.infohash
  {
  }
}

=== FILE: strings.dfy ===
/**
 The Python string operations the modelled code relies on: `find`, `split`,
 `join`, `replace`, `startswith`, ASCII case mapping, `str(int)` and the
 final path component. Strings are sequences of Unicode scalar values, as in
 Python 3.
 */
module Strings {
  import opened Common

  predicate StartsWith(s: string, prefix: string) {
    |prefix| <= |s| && s[..|prefix|] == prefix
  }

  /** `sub` occurs in `s` at position `j`. */
  predicate OccursAt(s: string, sub: string, j: int) {
    0 <= j && j + |sub| <= |s| && forall t :: 0 <= t < |sub| ==> s[j + t] == sub[t]
  }

  /** Position of the leftmost occurrence of `sub` in `s`, as Python's `str.find` (None for -1). */
  function Find(s: string, sub: string): (r: Option<nat>)
    ensures r.Some? ==> OccursAt(s, sub, r.value)
    ensures r.Some? ==> forall j :: 0 <= j < r.value ==> !OccursAt(s, sub, j)
    ensures r.None? ==> forall j :: !OccursAt(s, sub, j)
  {
    FindFrom(s, sub, 0)
  }

  /** Leftmost occurrence of `sub` in `s` at or after position `i`. */
  function FindFrom(s: string, sub: string, i: nat): (r: Option<nat>)
    ensures r.Some? ==> i <= r.value && OccursAt(s, sub, r.value)
    ensures r.Some? ==> forall j :: i <= j < r.value ==> !OccursAt(s, sub, j)
    ensures r.None? ==> forall j :: i <= j ==> !OccursAt(s, sub, j)
    decreases |s| - i
  {
    if i + |sub| > |s| then None
    else if OccursAt(s, sub, i) then Some(i)
    else FindFrom(s, sub, i + 1)
  }

  /** An occurrence in `s` past position 0 is an occurrence in `s[1..]`, one place earlier. */
  lemma ShiftOccurrence(s: string, sub: string)
    requires |s| > 0
    ensures forall j :: 0 < j ==> (OccursAt(s, sub, j) <==> OccursAt(s[1..], sub, j - 1))
  {
    forall j | 0 < j
      ensures OccursAt(s, sub, j) <==> OccursAt(s[1..], sub, j - 1)
    {

    }
  }

  predicate Contains(s: string, sub: string) {
    Find(s, sub).Some?
  }

  /** Python's `s.split(sep)` for a non-empty separator (an empty one raises in Python). */
  function Split(s: string, sep: string): (parts: seq<string>)
    requires |sep| > 0
    ensures |parts| >= 1
    decreases |s|
  {
    match Find(s, sep)
    case None => [s]
    case Some(k) => [s[..k]] + Split(s[k + |sep|..], sep)
  }

  /** `len(s.split(sep)) < 2` exactly when the separator does not occur. */
  lemma SplitSingleIff(s: string, sep: string)
    requires |sep| > 0
    ensures |Split(s, sep)| == 1 <==> !Contains(s, sep)
  {
    if Contains(s, sep) {
      var k := Find(s, sep).value;
      SplitAt(s, sep, k);
    }
  }

  /** Python's `sep.join(parts)`. */
  function Join(parts: seq<string>, sep: string): string
    decreases |parts|
  {
    if |parts| == 0 then ""
    else if |parts| == 1 then parts[0]
    else parts[0] + sep + Join(parts[1..], sep)
  }

  /** Joining the pieces of a split with the same separator gives back the original string. */
  lemma {:induction false} JoinSplit(s: string, sep: string)
    requires |sep| > 0
    ensures Join(Split(s, sep), sep) == s
    decreases |s|
  {
    if Find(s, sep).Some? {
      var k := Find(s, sep).value;
      var rest := s[k + |sep|..];
      JoinSplit(rest, sep);
      SplitAt(s, sep, k);
      var pieces := Split(rest, sep);
      assert Join([s[..k]] + pieces, sep) == s[..k] + sep + Join(pieces, sep);
      assert s == s[..k] + sep + rest by {
        assert s[k..k + |sep|] == sep;
      }
    }
  }

  /** A one-character separator absent from every part: splitting a join recovers the parts. */
  lemma {:induction false} SplitJoin(parts: seq<string>, sep: string)
    requires |sep| == 1 && |parts| > 0
    requires forall i :: 0 <= i < |parts| ==> sep[0] !in parts[i]
    ensures Split(Join(parts, sep), sep) == parts
    decreases |parts|
  {
    var p := parts[0];
    if |parts| == 1 {
      NoOccurrence(p, sep);
    } else {
      var rest := Join(parts[1..], sep);
      var s := p + sep + rest;
      FirstOccurrenceAfter(p, sep, rest);
      SplitAt(s, sep, |p|);
      assert s[..|p|] == p;
      assert s[|p| + 1..] == rest;
      SplitJoin(parts[1..], sep);
      assert parts == [p] + parts[1..];
    }
  }

  /** In `p + sep + rest`, with the one-character `sep` absent from `p`, the first occurrence is right after `p`. */
  lemma FirstOccurrenceAfter(p: string, sep: string, rest: string)
    requires |sep| == 1 && sep[0] !in p
    ensures Find(p + sep + rest, sep) == Some(|p|)
  {
    var s := p + sep + rest;
    assert s[|p|] == sep[0];
    assert OccursAt(s, sep, |p|);
    forall j | 0 <= j < |p|
      ensures !OccursAt(s, sep, j)
    {
      assert s[j] == p[j];
    }
  }

  /** A one-character separator that is not a character of `s` does not occur in it. */
  lemma NoOccurrence(s: string, sep: string)
    requires |sep| == 1 && sep[0] !in s
    ensures !Contains(s, sep)
  {

  }

  /** Python's `s.replace(old, new)`: a left-to-right scan replacing non-overlapping occurrences. */
  function Replace(s: string, pat: string, repl: string): string
    requires |pat| > 0
    decreases |s|
  {
    if |s| == 0 then ""
    else if OccursAt(s, pat, 0) then repl + Replace(s[|pat|..], pat, repl)
    else [s[0]] + Replace(s[1..], pat, repl)
  }

  /** Python documents `replace` as `new.join(s.split(old))`; the scan above agrees with that reference. */
  lemma {:induction false} ReplaceIsJoinOfSplit(s: string, pat: string, repl: string)
    requires |pat| > 0
    ensures Replace(s, pat, repl) == Join(Split(s, pat), repl)
    decreases |s|
  {
    if |s| == 0 {
    } else if OccursAt(s, pat, 0) {
      ReplaceIsJoinOfSplit(s[|pat|..], pat, repl);
      JoinSplitAtStart(s, pat, repl);
    } else {
      ReplaceIsJoinOfSplit(s[1..], pat, repl);
      JoinSplitPastStart(s, pat, repl);
    }
  }

  /** When `s` starts with the separator, the split begins with an empty piece. */
  lemma JoinSplitAtStart(s: string, pat: string, repl: string)
    requires |pat| > 0 && OccursAt(s, pat, 0)
    ensures Join(Split(s, pat), repl) == repl + Join(Split(s[|pat|..], pat), repl)
  {
    assert OccursAt(s, pat, 0);
    assert Find(s, pat) == Some(0);
    var rest := Split(s[|pat|..], pat);
    assert Split(s, pat) == [""] + rest;
  }

  /** When `s` does not start with the separator, its first character leads the first piece. */
  lemma JoinSplitPastStart(s: string, pat: string, repl: string)
    requires |pat| > 0 && |s| > 0 && !OccursAt(s, pat, 0)
    ensures Join(Split(s, pat), repl) == [s[0]] + Join(Split(s[1..], pat), repl)
  {
    assert !OccursAt(s, pat, 0);
    FindPastStart(s, pat);
    if Find(s[1..], pat).None? {
      assert [s[0]] + s[1..] == s;
    } else {
      var k := Find(s[1..], pat).value;
      SplitPastStart(s, pat, k);
    }
  }

  /** Without an occurrence at position 0, the first occurrence in `s` is one past that in `s[1..]`. */
  lemma FindPastStart(s: string, pat: string)
    requires |s| > 0 && !OccursAt(s, pat, 0)
    ensures Find(s[1..], pat).None? ==> Find(s, pat).None?
    ensures Find(s[1..], pat).Some? ==> Find(s, pat) == Some(Find(s[1..], pat).value + 1)
  {
    ShiftOccurrence(s, pat);
    if Find(s[1..], pat).Some? {
      var k := Find(s[1..], pat).value;
      assert OccursAt(s, pat, k + 1);
      var m := Find(s, pat).value;
      assert OccursAt(s[1..], pat, m - 1);
    }
  }

  lemma SplitPastStart(s: string, pat: string, k: nat)
    requires |pat| > 0 && |s| > 0
    requires Find(s[1..], pat) == Some(k) && Find(s, pat) == Some(k + 1)
    ensures |Split(s, pat)| == |Split(s[1..], pat)|
    ensures Split(s, pat)[0] == [s[0]] + Split(s[1..], pat)[0]
    ensures Split(s, pat)[1..] == Split(s[1..], pat)[1..]
  {
    SplitTail(s, pat, k);
    SplitAt(s, pat, k + 1);
    ConsPieces(s, k, Split(s, pat), Split(s[1..], pat), Split(s[k + 1 + |pat|..], pat));
  }

  lemma ConsPieces(s: string, k: nat, p: seq<string>, q: seq<string>, r: seq<string>)
    requires k + 1 <= |s|
    requires p == [s[..k + 1]] + r && q == [s[1..][..k]] + r
    ensures |p| == |q| && p[0] == [s[0]] + q[0] && p[1..] == q[1..]
  {
    assert s[..k + 1] == [s[0]] + s[1..][..k];
  }

  lemma SplitTail(s: string, pat: string, k: nat)
    requires |pat| > 0 && |s| > 0
    requires Find(s[1..], pat) == Some(k)
    ensures Split(s[1..], pat) == [s[1..][..k]] + Split(s[k + 1 + |pat|..], pat)
  {
    var t := s[1..];
    assert t[k + |pat|..] == s[k + 1 + |pat|..];
    SplitAt(t, pat, k);
  }

  /** One step of `Split` at a known first occurrence. */
  lemma SplitAt(s: string, pat: string, k: nat)
    requires |pat| > 0 && Find(s, pat) == Some(k)
    ensures Split(s, pat) == [s[..k]] + Split(s[k + |pat|..], pat)
  {
  }

  /** No piece of a split contains the separator. */
  lemma {:induction false} SplitPiecesLackSeparator(s: string, sep: string)
    requires |sep| > 0
    ensures forall i :: 0 <= i < |Split(s, sep)| ==> !Contains(Split(s, sep)[i], sep)
    decreases |s|
  {
    match Find(s, sep)
    case None =>
    case Some(k) =>
      SplitAt(s, sep, k);
      PrefixOccurrence(s, sep, k);
      SplitPiecesLackSeparator(s[k + |sep|..], sep);
  }

  /** For a one-character separator: no piece of a split holds that character. */
  lemma SplitPiecesLackSeparatorChar(s: string, sep: string)
    requires |sep| == 1
    ensures forall i :: 0 <= i < |Split(s, sep)| ==> sep[0] !in Split(s, sep)[i]
  {
    SplitPiecesLackSeparator(s, sep);
    forall i, j | 0 <= i < |Split(s, sep)| && 0 <= j < |Split(s, sep)[i]| && Split(s, sep)[i][j] == sep[0]
      ensures false
    {
      assert OccursAt(Split(s, sep)[i], sep, j);
    }
  }

  /** A join starts with its first part. */
  lemma JoinStartsWithFirst(parts: seq<string>, sep: string)
    requires |parts| > 0
    ensures StartsWith(Join(parts, sep), parts[0])
  {
    if |parts| > 1 {
      assert Join(parts, sep) == parts[0] + (sep + Join(parts[1..], sep));
    }
  }

  /** The text before the first occurrence of `sep`, or all of `s` when there is none. */
  function Before(s: string, sep: string): (r: string)
    requires |sep| > 0
    ensures !Contains(r, sep)
    ensures StartsWith(s, r)
  {
    match Find(s, sep)
    case None => s
    case Some(k) =>
      PrefixOccurrence(s, sep, k);
      s[..k]
  }

  /** An occurrence inside a prefix is an occurrence in the whole string that starts before the prefix ends. */
  lemma PrefixOccurrence(s: string, sep: string, k: nat)
    requires |sep| > 0 && k <= |s|
    ensures forall j :: OccursAt(s[..k], sep, j) ==> OccursAt(s, sep, j) && j < k
  {
    forall j | OccursAt(s[..k], sep, j)
      ensures OccursAt(s, sep, j) && j < k
    {
      assert forall t :: 0 <= t < |sep| ==> sep[t] == s[..k][j + t] == s[j + t];
    }
  }

  /**
   The first two pieces of a split: the text before the first separator,
   then the text between it and the next one (or the end).
   */
  lemma SplitFirstPieces(s: string, sep: string)
    requires |sep| > 0
    ensures Split(s, sep)[0] == Before(s, sep)
    ensures Contains(s, sep) ==> (|Split(s, sep)| >= 2 &&
      Split(s, sep)[1] == Before(s[Find(s, sep).value + |sep|..], sep))
  {
    match Find(s, sep)
    case None =>
    case Some(k) =>
      SplitAt(s, sep, k);
      var rest := s[k + |sep|..];
      match Find(rest, sep)
      case None =>
      case Some(k2) =>
        SplitAt(rest, sep, k2);
  }

  function LowerChar(c: char): char {
    if 'A' <= c <= 'Z' then (c as int + 32) as char else c
  }

  function UpperChar(c: char): char {
    if 'a' <= c <= 'z' then (c as int - 32) as char else c
  }

  /** `str.lower()`, for the ASCII letters. */
  function Lower(s: string): (r: string)
    ensures |r| == |s|
    ensures forall i :: 0 <= i < |s| ==> r[i] == LowerChar(s[i])
  {
    seq(|s|, i requires 0 <= i < |s| => LowerChar(s[i]))
  }

  /** `str.upper()`, for the ASCII letters. */
  function Upper(s: string): (r: string)
    ensures |r| == |s|
    ensures forall i :: 0 <= i < |s| ==> r[i] == UpperChar(s[i])
  {
    seq(|s|, i requires 0 <= i < |s| => UpperChar(s[i]))
  }

  predicate IsDigit(c: char) {
    '0' <= c <= '9'
  }

  function DigitChar(d: nat): (c: char)
    requires d < 10
    ensures IsDigit(c)
  {
    ('0' as int + d) as char
  }

  /** Decimal rendering of a natural number, most significant digit first. */
  function NatToStr(n: nat): (s: string)
    ensures |s| > 0
    ensures forall i :: 0 <= i < |s| ==> IsDigit(s[i])
    decreases n
  {
    if n < 10 then [DigitChar(n)] else NatToStr(n / 10) + [DigitChar(n % 10)]
  }

  /** Python's `str(i)`. */
  function IntToStr(i: int): (s: string)
    ensures |s| > 0
    ensures forall k :: 0 <= k < |s| ==> IsDigit(s[k]) || s[k] == '-'
  {
    if i < 0 then "-" + NatToStr(-i) else NatToStr(i)
  }

  /** The value of a string of decimal digits. */
  function DigitsValue(s: string): nat
    requires forall i :: 0 <= i < |s| ==> IsDigit(s[i])
    decreases |s|
  {
    if s == [] then 0
    else
      var d := s[|s| - 1];
      assert IsDigit(d);
      DigitsValue(s[..|s| - 1]) * 10 + (d as int - '0' as int)
  }

  /** Reading back the decimal rendering gives the number. */
  lemma {:induction false} NatToStrRoundTrip(n: nat)
    ensures DigitsValue(NatToStr(n)) == n
    decreases n
  {
    if n >= 10 {
      var s := NatToStr(n);
      NatToStrRoundTrip(n / 10);
      assert s[..|s| - 1] == NatToStr(n / 10);
    }
  }

  /** Position of the last occurrence of `c` in `s`. */
  function LastIndexOf(s: string, c: char): (r: Option<nat>)
    ensures r.Some? ==> r.value < |s| && s[r.value] == c
    ensures r.Some? ==> forall j :: r.value < j < |s| ==> s[j] != c
    ensures r.None? ==> c !in s
    decreases |s|
  {
    if s == [] then None
    else if s[|s| - 1] == c then Some(|s| - 1)
    else
      var r := LastIndexOf(s[..|s| - 1], c);
      assert s == s[..|s| - 1] + [s[|s| - 1]];
      r
  }

  /**
   Every '/'-separated component of `t` is empty or ".": the components
   `pathlib` drops when it parses a path.
   */
  predicate OnlyEmptyOrDot(t: string) {
    forall k :: 0 <= k < |t| ==> SeparatorOrLoneDot(t, k)
  }

  /** Position `k` of `t` is a separator or a "." standing alone between separators. */
  predicate SeparatorOrLoneDot(t: string, k: int)
    requires 0 <= k < |t|
  {
    t[k] == '/' || (t[k] == '.' && (k == 0 || t[k - 1] == '/') && (k + 1 == |t| || t[k + 1] == '/'))
  }

  /**
   `name` is a whole component of `path` ending at position `j`, and only
   empty and "." components follow it.
   */
  predicate LastComponentAt(path: string, name: string, j: int) {
    |name| <= j <= |path| && path[j - |name|..j] == name &&
    (j - |name| == 0 || path[j - |name| - 1] == '/') &&
    (j < |path| ==> path[j] == '/') &&
    OnlyEmptyOrDot(path[j..])
  }

  /**
   `pathlib.PurePosixPath(p).name`: the last component once empty and "."
   components are dropped, or "" when none is left.
   */
  function BaseName(path: string): (name: string)
    ensures '/' !in name && name != "."
    decreases |path|
  {
    if path == [] then []
    else if path[|path| - 1] == '/' then BaseName(path[..|path| - 1])
    else if LastSegment(path) == "." then BaseName(path[..|path| - 1])
    else LastSegment(path)
  }

  /** The text after the last '/', or the whole path when it has none. */
  function LastSegment(path: string): (r: string)
    ensures '/' !in r
    ensures |r| <= |path| && r == path[|path| - |r|..]
    ensures |r| < |path| ==> path[|path| - |r| - 1] == '/'
  {
    match LastIndexOf(path, '/')
    case None => path
    case Some(k) => path[k + 1..]
  }

  /** A trailing separator does not count. */
  lemma BaseNameDropsTrailingSeparator()
    ensures BaseName("a/b/") == "b"
  {
    assert "a/b/"[..3] == "a/b";
    assert LastSegment("a/b") == "b";
  }

  /** A trailing "." component does not count. */
  lemma BaseNameDropsTrailingDot()
    ensures BaseName("a/b/.") == "b"
  {
    assert "a/b/."[..4] == "a/b/";
    assert LastSegment("a/b/.") == ".";
    BaseNameDropsTrailingSeparator();
  }

  /** A path of separators and "." components has no name. */
  lemma BaseNameOfSeparatorsIsEmpty()
    ensures BaseName("/") == ""
    ensures BaseName("./") == ""
  {
    assert "./"[..1] == ".";
  }

  /** ".." and a name starting with a dot are kept. */
  lemma BaseNameKeepsDotNames()
    ensures BaseName("a/.b") == ".b"
    ensures BaseName("a/..") == ".."
  {
  }

  /** Appending a separator, or a "." that starts a component, keeps (or spoils) the property as it was. */
  lemma OnlyEmptyOrDotSnoc(t: string, c: char)
    requires c == '/' || (c == '.' && (t == [] || t[|t| - 1] == '/'))
    ensures OnlyEmptyOrDot(t + [c]) <==> OnlyEmptyOrDot(t)
  {
    var u := t + [c];
    if OnlyEmptyOrDot(u) {
      forall k | 0 <= k < |t|
        ensures SeparatorOrLoneDot(t, k)
      {
        assert SeparatorOrLoneDot(u, k);
        assert u[k] == t[k];
        if k > 0 { assert u[k - 1] == t[k - 1]; }
        if k + 1 < |t| { assert u[k + 1] == t[k + 1]; }
      }
    }
    if OnlyEmptyOrDot(t) {
      forall k | 0 <= k < |u|
        ensures SeparatorOrLoneDot(u, k)
      {
        if k < |t| {
          assert SeparatorOrLoneDot(t, k);
          assert u[k] == t[k];
          if k > 0 { assert u[k - 1] == t[k - 1]; }
          if k + 1 < |t| { assert u[k + 1] == t[k + 1]; } else { assert u[k + 1] == c; }
        } else if k > 0 {
          assert u[k - 1] == t[|t| - 1];
        }
      }
    }
  }

  lemma LastOfOnlyEmptyOrDot(t: string)
    requires t != [] && t[|t| - 1] != '/' && OnlyEmptyOrDot(t)
    ensures t[|t| - 1] == '.' && (|t| == 1 || t[|t| - 2] == '/')
  {
    assert SeparatorOrLoneDot(t, |t| - 1);
  }

  /**
   The base name is empty exactly when every component of the path is empty
   or "."; otherwise it is a whole component followed only by such
   components, so it is the last one that counts.
   */
  ghost predicate NameIsLastComponent(path: string) {
    (BaseName(path) == "" <==> OnlyEmptyOrDot(path)) &&
    (BaseName(path) != "" ==> exists j :: LastComponentAt(path, BaseName(path), j))
  }

  lemma {:induction false} BaseNameIsLastComponent(path: string)
    ensures NameIsLastComponent(path)
    decreases |path|
  {
    if path != [] {
      var q := path[..|path| - 1];
      assert path == q + [path[|path| - 1]];
      if path[|path| - 1] == '/' {
        BaseNameIsLastComponent(q);
        SeparatorKeepsName(q);
      } else if LastSegment(path) == "." {
        assert q == [] || q[|q| - 1] == '/';
        BaseNameIsLastComponent(q);
        DotKeepsName(q);
      } else {
        NameAfterLastSeparator(path);
      }
    }
  }

  lemma SeparatorKeepsName(q: string)
    requires NameIsLastComponent(q)
    ensures NameIsLastComponent(q + ['/'])
  {
    var path := q + ['/'];
    assert path[..|path| - 1] == q;
    assert BaseName(path) == BaseName(q);
    OnlyEmptyOrDotSnoc(q, '/');
    if BaseName(q) != "" {
      var j :| LastComponentAt(q, BaseName(q), j);
      LastComponentSnoc(q, BaseName(q), j, '/');
    }
  }

  /** A component followed only by empty or "." components stays so when a separator, or a "." after one, is appended. */
  lemma LastComponentSnoc(q: string, name: string, j: int, c: char)
    requires LastComponentAt(q, name, j)
    requires c == '/' || (c == '.' && j < |q| && q[|q| - 1] == '/')
    ensures LastComponentAt(q + [c], name, j)
  {
    var path := q + [c];
    assert path[j - |name|..j] == q[j - |name|..j];
    if j - |name| > 0 {
      assert path[j - |name| - 1] == q[j - |name| - 1];
    }
    if j < |q| {
      assert path[j] == q[j];
    }
    var tail := q[j..];
    if c == '.' {
      assert tail[|tail| - 1] == q[|q| - 1];
    }
    assert path[j..] == tail + [c];
    OnlyEmptyOrDotSnoc(tail, c);
  }

  lemma DotKeepsName(q: string)
    requires q == [] || q[|q| - 1] == '/'
    requires NameIsLastComponent(q)
    ensures NameIsLastComponent(q + ['.'])
  {
    DotAddsNoName(q);
    OnlyEmptyOrDotSnoc(q, '.');
    if BaseName(q) != "" {
      var name := BaseName(q);
      var j :| LastComponentAt(q, name, j);
      NameEndsBeforeSeparator(q, name, j);
      LastComponentSnoc(q, name, j, '.');
    }
  }

  /** A "." component appended after a separator, or to nothing, leaves the name as it was. */
  lemma DotAddsNoName(q: string)
    requires q == [] || q[|q| - 1] == '/'
    ensures BaseName(q + ['.']) == BaseName(q)
  {
    var path := q + ['.'];
    assert path[..|path| - 1] == q;
    assert LastSegment(path) == ".";
  }

  /** A name cannot end at a trailing separator: it holds no '/'. */
  lemma NameEndsBeforeSeparator(q: string, name: string, j: int)
    requires LastComponentAt(q, name, j) && name != "" && '/' !in name
    requires q != [] && q[|q| - 1] == '/'
    ensures j < |q|
  {
    if j == |q| {
      assert false;
    }
  }

  lemma NameAfterLastSeparator(path: string)
    requires path != [] && path[|path| - 1] != '/' && LastSegment(path) != "."
    ensures NameIsLastComponent(path)
  {
    var last := LastSegment(path);
    assert BaseName(path) == last;
    if OnlyEmptyOrDot(path) {
      LastOfOnlyEmptyOrDot(path);
    }
    assert LastComponentAt(path, last, |path|);
  }
}

=== FILE: torbox.dfy ===
/**
 The TorBox scraper: the search path built from an item, the filtering of
 the search answer into a hash-to-title dict, and the settings check.
 */
module TorBox {
  import opened Common
  import opened Strings
  import opened Streams
  import opened Media
  import opened SettingsEnv

  /** One torrent of the search answer. */
  datatype TorrentData = TorrentData(rawTitle: string, hash: Hash)

  /** The search answer: whether the request succeeded, and its torrent list. */
  datatype Response = Response(ok: bool, torrents: seq<TorrentData>)

  /** The `key=value` parts after the `imdb:` part, by item kind. */
  function KindParams(kind: Kind): seq<string> {
    match kind
    case MovieKind => []
    case ShowKind(_) => ["season=1"]
    case SeasonKind(number, _) => ["season=" + IntToStr(number)]
    case EpisodeKind(number, parentNumber) => ["season=" + IntToStr(parentNumber) + "&episode=" + IntToStr(number)]
  }

  /** `_build_query_params(item)`: `imdb:<id>`, then the kind's part, joined by '&'. */
  function BuildQueryParams(t: Target): (q: string)
    ensures StartsWith(q, "imdb:" + t.imdbId)
    ensures t.kind.MovieKind? ==> q == "imdb:" + t.imdbId
  {
    var params := ["imdb:" + t.imdbId] + KindParams(t.kind);
    JoinStartsWithFirst(params, "&");
    Join(params, "&")
  }

  /** The text of a number contains no '&'. */
  lemma NoAmpersandInNumber(n: int)
    ensures '&' !in IntToStr(n)
  {
  }

  /**
   Splitting the query on '&' names its parameters: the `imdb:` part, then
   the season, then the episode, as far as the kind has them (the id is
   assumed free of '&').
   */
  lemma QueryParamsSplit(t: Target)
    requires '&' !in t.imdbId
    ensures t.kind.MovieKind? ==> Split(BuildQueryParams(t), "&") == ["imdb:" + t.imdbId]
    ensures t.kind.ShowKind? ==> Split(BuildQueryParams(t), "&") == ["imdb:" + t.imdbId, "season=1"]
    ensures t.kind.SeasonKind? ==> Split(BuildQueryParams(t), "&") == ["imdb:" + t.imdbId, "season=" + IntToStr(t.kind.number)]
    ensures t.kind.EpisodeKind? ==> (Split(BuildQueryParams(t), "&") ==
      ["imdb:" + t.imdbId, "season=" + IntToStr(t.kind.parentNumber), "episode=" + IntToStr(t.kind.number)])
  {
    var id := "imdb:" + t.imdbId;
    assert '&' !in id by {
      assert forall c :: c in id ==> c in "imdb:" || c in t.imdbId;
    }
    match t.kind
    case MovieKind =>
      SplitJoin([id], "&");
    case ShowKind(_) =>
      SplitJoin([id, "season=1"], "&");
    case SeasonKind(number, _) =>
      var s := "season=" + IntToStr(number);
      NoAmpersandInNumber(number);
      assert '&' !in s by {
        assert forall c :: c in s ==> c in "season=" || c in IntToStr(number);
      }
      SplitJoin([id, s], "&");
    case EpisodeKind(number, parentNumber) =>
      var s := "season=" + IntToStr(parentNumber);
      var e := "episode=" + IntToStr(number);
      NoAmpersandInNumber(number);
      NoAmpersandInNumber(parentNumber);
      assert '&' !in s by {
        assert forall c :: c in s ==> c in "season=" || c in IntToStr(parentNumber);
      }
      assert '&' !in e by {
        assert forall c :: c in e ==> c in "episode=" || c in IntToStr(number);
      }
      assert "season=" + IntToStr(parentNumber) + "&episode=" + IntToStr(number) == s + "&" + e by {
        assert "&episode=" == "&" + "episode=";
      }
      assert KindParams(t.kind) == [s + "&" + e];
      assert ["imdb:" + t.imdbId] + KindParams(t.kind) == [id, s + "&" + e];
      assert Join([id, s + "&" + e], "&") == id + "&" + (s + "&" + e);
      assert Join([id, s, e], "&") == id + "&" + Join([s, e], "&");
      assert Join([s, e], "&") == s + "&" + e;
      SplitJoin([id, s, e], "&");
  }

  /** The entry a torrent contributes: none when its hash or title is empty. */
  function Entry(d: TorrentData): (e: Option<(Hash, string)>)
    ensures e.Some? <==> d.hash != "" && d.rawTitle != ""
    ensures e.Some? ==> e.value == (d.hash, d.rawTitle)
  {
    if d.hash == "" || d.rawTitle == "" then None else Some((d.hash, d.rawTitle))
  }

  function Entries(ds: seq<TorrentData>): (es: seq<Option<(Hash, string)>>)
    ensures |es| == |ds|
    ensures forall i :: 0 <= i < |ds| ==> es[i] == Entry(ds[i])
  {
    seq(|ds|, i requires 0 <= i < |ds| => Entry(ds[i]))
  }

  /** `scrape(item)` once the request is answered: a failed request or no torrents give `{}`. */
  function Scrape(r: Response): map<Hash, string> {
    if !r.ok || r.torrents == [] then map[] else CollectSome(Entries(r.torrents))
  }

  /** Some torrent of `ds` has hash `h` and a non-empty title. */
  predicate Listed(ds: seq<TorrentData>, h: Hash) {
    exists i :: 0 <= i < |ds| && ds[i].hash == h && h != "" && ds[i].rawTitle != ""
  }

  /** The scraped dict holds exactly the hashes of the torrents with a hash and a title. */
  lemma ScrapeKeys(r: Response)
    requires r.ok
    ensures forall h :: h in Scrape(r) <==> Listed(r.torrents, h)
  {
    var es := Entries(r.torrents);
    CollectSomeSpec(es);
    forall h | Listed(r.torrents, h)
      ensures h in Scrape(r)
    {
      var i :| 0 <= i < |r.torrents| && r.torrents[i].hash == h && h != "" && r.torrents[i].rawTitle != "";
      assert KeyAt(es, i, h);
    }
    forall h | h in Scrape(r)
      ensures Listed(r.torrents, h)
    {
      var i :| 0 <= i < |es| && KeyAt(es, i, h);
      assert es[i] == Entry(r.torrents[i]);
    }
  }

  /** Each scraped hash carries the title of the last torrent with that hash and a title. */
  lemma ScrapeValues(r: Response)
    requires r.ok
    ensures forall h :: h in Scrape(r) ==> (h != "" && Scrape(r)[h] != "" &&
      exists i :: 0 <= i < |r.torrents| && r.torrents[i] == TorrentData(Scrape(r)[h], h) &&
        forall j :: i < j < |r.torrents| ==> r.torrents[j].hash != h || r.torrents[j].rawTitle == "")
  {
    var es := Entries(r.torrents);
    var m := Scrape(r);
    CollectSomeSpec(es);
    forall h | h in m
      ensures h != "" && m[h] != "" &&
        exists i :: 0 <= i < |r.torrents| && r.torrents[i] == TorrentData(m[h], h) &&
          forall j :: i < j < |r.torrents| ==> r.torrents[j].hash != h || r.torrents[j].rawTitle == ""
    {
      var i :| 0 <= i < |es| && es[i] == Some((h, m[h])) && forall j :: i < j < |es| ==> !KeyAt(es, j, h);
      assert r.torrents[i] == TorrentData(m[h], h);
      forall j | i < j < |r.torrents|
        ensures r.torrents[j].hash != h || r.torrents[j].rawTitle == ""
      {
        assert !KeyAt(es, j, h);
      }
    }
  }

  /** A later torrent with the same hash overwrites the title; one without a hash or title changes nothing. */
  lemma ScrapeLastWins(r: Response, d: TorrentData)
    requires r.ok
    ensures Scrape(r.(torrents := r.torrents + [d])) ==
            if d.hash != "" && d.rawTitle != "" then Scrape(r)[d.hash := d.rawTitle] else Scrape(r)
  {
    assert Entries(r.torrents + [d]) == Entries(r.torrents) + [Entry(d)];
    CollectSomeSnoc(Entries(r.torrents), Entry(d));
  }

  /** A failed request or an empty torrent list scrapes nothing. */
  lemma ScrapeEmpty(r: Response)
    requires !r.ok || r.torrents == []
    ensures Scrape(r) == map[]
  {
  }

  /** `run(item)`: the scraped dict, or `{}` when the request raised. */
  function Run(answer: Result<Response>): (m: map<Hash, string>)
    ensures answer.Err? ==> m == map[]
    ensures answer.Ok? ==> m == Scrape(answer.value)
  {
    match answer
    case Err(_) => map[]
    case Ok(r) => Scrape(r)
  }

  /** `validate()`: enabled, a positive int timeout, and the probe request answered ok. */
  function Validate(enabled: bool, timeout: Setting, probeOk: bool): (ok: bool)
    ensures ok <==> enabled && IsPyInt(timeout) && PyIntValue(timeout) > 0 && probeOk
    ensures timeout.FloatValue? || timeout.StrValue? || timeout.NullValue? ==> !ok
  {
    if !enabled then false
    else if !IsPyInt(timeout) || PyIntValue(timeout) <= 0 then false
    else probeOk
  }
}
